=== FILE: README.md ===
# AAKRITI site core in Dafny

AAKRITI is a nonprofit's content website. It has two interchangeable back ends:
- an Express server (`server/`) over a small query adapter that speaks either SQLite or MySQL;
- a FastAPI service (`app/`) over SQLAlchemy.

Around them sit a React front end and a set of maintenance scripts. The scripts seed, reset and clear the database.

This project models the parts of the system that are deterministic and sequential:
- the table store and every statement the servers and scripts run against it;
- the query adapter's backend choice and result reshaping;
- bootstrap seeding on both servers;
- the request rules for login, gallery listing, deletes and updates;
- every maintenance script that changes data;
- the string and URL helpers of the front end and of the deploy checks;
- the counter animation and the scroll-spy rule.

Layout, one module per file:

- `common`, `text`: `Option`/`Result` and the string functions the system relies on. These cover search, replace, split/join, strip, lower-casing, decimal keys and `parseInt`.
- `tables`: a generic table.
  - A table is rows `Rec(id, created, data)` plus an auto-increment counter.
  - `created` is a natural-number tick that stands for `created_at`.
  - The module defines insert, select, delete, update and newest-first listing.
- `schema`: one datatype per table of `server/server.js` (pillars, admin users, gallery folders and images, press, clientele, activities, CSR partners, volunteers).
  - `Store` holds all of them and a clock.
  - `Valid` is the store invariant: increasing ids below the counter, ticks in order, unique admin emails.
  - `SameExcept` is the frame condition.
- `sql`: statements as abstract operations and a runner that stops at the first failure. This is the shape of a JavaScript `try` block.
- `db`: `server/db.js`. The backend is fixed at load time, `initDB` is memoised, and `all`/`get`/`run` reshape results.
- `bootstrap`: `initTables` of the Node server and `startup` of the Python service.
- `queries`, `node_api`, `py_api`: the request rules of the two servers.
- `db_url`, `check_env`: the database-URL handling of `app/database.py` and `test_db_conn.py`, and the deploy checks of `check_env.py`.
- `api_client`, `gallery_view`, `counter`, `scroll_spy`: the front-end helpers.
- `seeds`, `admin_scripts`, `maintenance`: the scripts under `server/` and `reset_admin.py`.

Inputs the code reads from outside are parameters:
- environment variables;
- whether a connection, statement or commit succeeded, in the Node server, both startups and the scripts;
- which files exist;
- a page's layout;
- the answers typed at a menu.

Behaviours of the code that the model keeps, even where they may surprise a reader:
- `initTables` runs every create and seed statement in one `try` block (`server/server.js:68-192`).
  - A failure partway through the pillar inserts keeps the rows already written, and skips every later step.
  - `Bootstrap.PartialPillarsPersist` shows this.
- SQLite does not enforce `ON DELETE CASCADE` without a pragma the adapter never sets. Deletes therefore take a `cascade` flag, and `Queries.DeleteFolderOrphans` shows the orphaned images.
- The Node `GET /api/images` binds the query-string value against an INTEGER column. The Python route treats `folderId=0` as absent, while Node filters on it (`PyApi.FolderZeroDiffers`).
- The Node PUT handlers pass a callback that `db.run` never calls, so no response is sent. Only the statement each handler builds is modelled.

## Model

| member | source | states |
|---|---|---|
| Db.ChooseBackend | server/db.js:14 | MySQL is chosen exactly when `DATABASE_URL` is set and non-empty |
| Db.Load | server/db.js:13-14 | a freshly loaded adapter holds no handle, and its backend is the one the variable selects |
| Db.InitDB | server/db.js:16-45 | a stored handle is returned as is; otherwise a failed connection ends with exit status 1, and a successful one stores and returns a new handle of the configured backend |
| Db.InitDBMemoised | server/db.js:17 | after one successful `initDB`, every later call returns the same handle and opens nothing, whatever the network does |
| Db.MySqlExecute | server/db.js:52-80 | mysql2 answers a SELECT with the database's row list and a write with a header carrying its insert id and affected rows |
| Db.ParamsOrEmpty | server/db.js:50 | an omitted parameter list is the empty list |
| Db.First | server/db.js:65 | `rows[0]`: undefined exactly for no rows, else the first row |
| Db.All | server/db.js:50-58 | `all` returns the backend's rows unchanged and in order, and calls `execute` exactly on MySQL; it exits with status 1 exactly when `initDB` cannot connect, and a refused statement rejects with the driver's error while the stored handle stays stored |
| Db.Get | server/db.js:61-69 | `get` returns the first row or undefined when there are none, with the same driver choice and the same exit and rejection cases |
| Db.Run | server/db.js:72-86 | `run` returns `lastID` = insert id and `changes` = affected rows on either backend, with the same exit and rejection cases |
| Db.VerbsBackendIndependent | server/db.js:50-86 | for the same database reply, the three verbs return the same value from either backend, and a refusal the same error |
| Sql.Exec | server/server.js:70-75 | a statement fails exactly when it would insert a second admin with an existing email; otherwise only its own table changes and validity is kept |
| Sql.Run | server/server.js:64-192 | the runner stops at the first failing statement, touches no clock, and keeps the store valid |
| Sql.RunFault | server/server.js:190-192 | a fault at statement k leaves the store that the first k statements produced |
| Sql.RunFrame | server/server.js:64-192 | a run touches only the tables its statements write, whatever fails |
| Bootstrap.InitTables | server/server.js:64-192 | seeding keeps validity and changes only pillars, admin users and the gallery tables |
| Bootstrap.SeededPillars | server/server.js:152-163 | the four default pillars are appended exactly when the table is empty |
| Bootstrap.SeededAdmins | server/server.js:166-170 | the default admin is appended exactly when no row has email 'admin', and emails stay unique |
| Bootstrap.SeededGallery | server/server.js:174-188 | an empty folder table gets one folder and two images keyed to it; a non-empty one changes nothing |
| Bootstrap.InitTablesClean | server/server.js:152-189 | without faults, `initTables` completes and leaves exactly the seeded store |
| Bootstrap.InitTablesIdempotent | server/server.js:152-189 | running the seeding on a store it already seeded inserts nothing |
| Bootstrap.SeedEmpty | server/server.js:152-189 | on an empty database the seed leaves the four default pillars, one admin, one folder and its two default images, and a second run adds nothing |
| Bootstrap.PartialPillarsPersist | server/server.js:152-192 | on any database with an empty pillar table, a fault at the second pillar insert keeps the first pillar, leaves admins and the gallery as they were, and no later clean run adds the other three |
| Bootstrap.Startup | app/main.py:91-120 | the Python startup seeds pillars and admin in one commit; a failed commit changes nothing |
| Bootstrap.StartupAgreesWithInitTables | app/main.py:99-118 | both servers seed the same pillars and admin; only Node seeds the gallery |
| Bootstrap.StartupIdempotent | app/main.py:91-120 | a second startup leaves what the first one left |
| Queries.Matching | server/server.js:570 | the rows a login query returns are exactly those with that email and plain-text password |
| Queries.AtMostOneMatch | app/main.py:132 | with unique emails at most one row matches a login |
| Queries.Cover | app/main.py:144-160 | a folder has no cover exactly when none of the images belongs to it |
| Queries.CoverIsEarliest | app/main.py:150-156 | in tick order, the cover comes from an image of that folder no later than any other of its images |
| Queries.FolderListing | app/main.py:138-162 | every folder is listed once, newest first, each with its cover |
| Queries.ImagesWhere | server/server.js:264-277 | the listing holds exactly the stored images that pass the filter, each as often as it is stored, newest first |
| Tables.NewestFirstPermutes | server/server.js:269-271 | `ORDER BY created_at DESC` lists every row exactly as often as it is stored |
| Tables.SelectCounts | server/server.js:268-269 | the `WHERE` filter keeps each passing row exactly as often as it is stored and no other row |
| Queries.DeleteRow | app/main.py:172-180 | exactly the keyed row disappears and every other row of that table stays with its contents; the gallery images go too only under an enforced cascade; a missing key changes nothing |
| Queries.DeleteFolderOrphans | server/server.js:256-263 | without an enforced cascade, a deleted folder's images stay behind pointing at no folder |
| NodeApi.RoleOrAdmin | server/server.js:573 | an empty role reads as 'admin', any other role is kept |
| NodeApi.Login | server/server.js:566-584 | the result is 500 exactly on a database error, and 401 exactly when no row matches; a success names a matching row and a non-empty role |
| NodeApi.LoginNamesTheMatch | server/server.js:570-579 | with unique emails, a login answers with the matching row's id and its role or 'admin' |
| NodeApi.GetImages | server/server.js:264-277 | with a non-empty folderId the images of that folder, each as often as stored, else every stored image as often as stored; newest first |
| NodeApi.GetImagesOfFolder | server/server.js:268-270 | asking by the decimal key of folder f lists exactly f's images, folder 0 included |
| NodeApi.Delete | server/server.js:256-263 | on success exactly the row whose key the id spells is gone, the other rows stay with their contents, and images change only under a cascaded folder delete; on a database error nothing changes |
| NodeApi.BuildPut | server/server.js:331-340 | a PUT statement starts from the fixed SET list, adds the file column iff a file came, ends in `WHERE id = ?`, and has as many placeholders as params |
| NodeApi.SetListPlaceholders | server/server.js:332 | an assignment list has one placeholder per column |
| NodeApi.UpdateByIdPlaceholders | server/server.js:331-340 | an UPDATE by key has one placeholder per column plus one for the key |
| NodeApi.BuildPutIsUpdate | server/server.js:331-340 | a built PUT is the UPDATE by key of its columns, plus the file column when there is a file |
| NodeApi.PillarPut | server/server.js:331-345 | the pillar PUT sets title, description, icon and, with a file, image_url; the params line up with the placeholders |
| NodeApi.PressPut | server/server.js:376-390 | the same for press releases |
| NodeApi.ClientPut | server/server.js:421-435 | the same for clientele, with logo_url |
| NodeApi.ActivityPut | server/server.js:466-480 | the same for activities |
| NodeApi.CsrPut | server/server.js:511-525 | the same for CSR partners, with logo_url |
| PyApi.AllowedOrigins | app/main.py:60-64 | '*' or unset gives ['*']; any other value gives its stripped comma-separated pieces, in order |
| PyApi.AllowedOriginsJoin | app/main.py:60-64 | configuring a comma-joined list of clean origins yields exactly that list |
| PyApi.Login | app/main.py:124-135 | 401 exactly when no row matches; 500 exactly when more than one does; a success names a matching row |
| PyApi.LoginNeverAmbiguous | app/main.py:132 | on a valid store the Python login never fails with 500 |
| PyApi.LoginsAgree | app/main.py:124-135 | on a valid store both servers refuse the same logins and answer a success with the same row; only Node reports an empty role as 'admin' |
| PyApi.GetImages | app/main.py:182-188 | the folder filter applies only to a non-zero folderId; either way each listed image appears as often as stored; the list is newest first |
| PyApi.FolderZeroDiffers | app/main.py:184-186 | folderId 0 lists every image in Python but only folder 0's images in Node |
| PyApi.GetImagesAgree | app/main.py:182-188 | for a non-zero folder both servers list the same images |
| PyApi.Delete | app/main.py:218-226 | a missing key gives 404 and changes nothing; otherwise exactly that row is gone and the other rows stay with their contents |
| PyApi.DeletesAgree | app/main.py:172-180 | for an existing key both servers leave the same store |
| PyApi.NewUrl | app/main.py:264-275 | a new upload replaces the stored URL; without one the URL stays |
| PyApi.UpdatePillar | app/main.py:255-278 | a missing key gives 404; otherwise only that row's text fields and, with an upload, its image change |
| PyApi.UpdatePress | app/main.py:316-339 | the same for press releases |
| PyApi.UpdateClient | app/main.py:376-397 | the same for clientele, with a missing description stored empty |
| PyApi.UpdateActivity | app/main.py:436-461 | the same for activities |
| PyApi.UpdateCsr | app/main.py:499-522 | the same for CSR partners, with a missing website stored empty |
| PyApi.UpdatePillarIdempotent | app/main.py:255-278 | sending the same update twice leaves what sending it once left |
| PyApi.ServeFrontend | app/main.py:558-573 | index.html is served exactly for a path outside `api/` and `uploads/` when the build and index exist |
| PyApi.ApiPathsNeverServeIndex | app/main.py:566-568 | an unknown API path never gets the application page |
| DbUrl.GuardedRewrite | app/database.py:11-14 | `mysql://` becomes `mysql+aiomysql://` at every occurrence unless the async scheme is already there |
| DbUrl.GuardedRewriteRoundTrip | app/database.py:13-14 | when the async scheme was absent, turning it back into `mysql://` restores the URL |
| DbUrl.SplitJoinAsync | app/database.py:14 | a URL built by joining `mysql://`-free pieces with the async scheme cuts back into exactly those pieces |
| Text.ReplaceAll | test_db_conn.py:15 | `str.replace`: every non-overlapping occurrence, found left to right, is replaced, and the text between them is kept |
| Text.SplitOnUnique | test_db_conn.py:15 | there is only one way to cut a string into pattern-free pieces each ending at the next first occurrence: the one `str.replace` uses |
| DbUrl.GuardedRewriteIdempotent | app/database.py:13-14 | rewriting twice is rewriting once |
| DbUrl.BeforeQuery | app/database.py:27-28 | the part before the first `?` is a `?`-free prefix that ends where the query starts |
| DbUrl.AppEngine | app/database.py:8-34 | MySQL iff the variable is set and names mysql; with 'ssl' the query is cut at the first `?`; otherwise the fixed SQLite file |
| DbUrl.DropSslParams | test_db_conn.py:25-28 | exactly the parameters not starting with `ssl=` survive |
| DbUrl.DropSslParamsAppend | test_db_conn.py:27 | the filter works parameter by parameter and keeps the order |
| DbUrl.DropSslParamsEmpty | test_db_conn.py:28 | nothing survives exactly when every parameter is an `ssl=` one |
| DbUrl.CleanQuery | test_db_conn.py:25-28 | a URL without `?` is kept; otherwise the base is kept and `?` returns only with surviving params |
| DbUrl.ProbeOf | test_db_conn.py:18-28 | SSL is requested exactly when 'ssl' appears, and then the URL is the one with its `ssl=` parameters dropped; without it the URL is kept |
| DbUrl.TestConnAsWritten | test_db_conn.py:14-28 | the probe runs exactly for a MySQL URL, on the URL with every `mysql://` turned into the async scheme, even one that already named it |
| DbUrl.TestConn | test_db_conn.py:14-28 | the probe on the guarded rewrite: with 'ssl' it connects with SSL to the rewritten URL minus its `ssl=` parameters, and without the async scheme it matches the script |
| DbUrl.ProbeExtendsApp | test_db_conn.py:25-28 | the probe's URL always starts with the service's URL: it keeps at least what the service keeps |
| DbUrl.UnguardedRewriteDoublesDriver | test_db_conn.py:15 | a URL already naming the async driver names it twice after the probe's rewrite |
| DbUrl.GuardedRewriteKeepsDriver | app/database.py:13-14 | with the guard such a URL keeps its single driver prefix |
| CheckEnv.CheckRequiredVars | check_env.py:24-45 | true iff each Cloudinary variable is set, non-empty and not its placeholder |
| CheckEnv.CheckFiles | check_env.py:97-118 | true iff every required file exists |
| CheckEnv.DisplayDatabaseUrl | check_env.py:64-72 | a MySQL URL with `@` is shown behind the masked prefix; any other value as it is |
| CheckEnv.DisplayHidesCredentials | check_env.py:65-70 | what is shown is the host segment after the credentials, never the credentials |
| CheckEnv.CheckDatabaseConnection | check_env.py:120-150 | fails exactly for a MySQL URL missing `@` or `:` |
| CheckEnv.MySqlJudgedFirst | check_env.py:133-142 | a URL naming both engines is judged as MySQL |
| CheckEnv.ExitCode | check_env.py:152-187 | exit 0 iff the variables, files and database URL all pass, else 1 |
| CheckEnv.VerdictIgnoresOtherVars | check_env.py:152-187 | no variable other than the judged ones changes the verdict |
| ApiClient.ImageUrl | src/utils/api.js:8-13 | absent or empty gives ''; `http…` passes through; anything else is joined to the base with exactly one `/`: a leading `/` of the path is the joining one, otherwise one is inserted, so the length is pinned |
| ApiClient.LocalImageUrlIsRooted | src/utils/api.js:1-13 | with the empty base a local path becomes root-relative |
| ApiClient.GetImageUrlIdempotent | src/utils/api.js:8-13 | a built URL passes through `getImageUrl` unchanged |
| ApiClient.ErrorMessage | src/utils/api.js:35-36 | the JavaScript string form of `detail` when it is truthy, else of `message`, else the fixed text; an empty message only comes from a list-valued field |
| ApiClient.ValidationErrorShowsObject | src/utils/api.js:36 | a validation error whose `detail` is a list of one object surfaces as `[object Object]` |
| ApiClient.ApiFetch | src/utils/api.js:21-44 | 204 gives null; a JSON body that does not parse rejects before the status is looked at; a non-2xx otherwise throws, with the JSON error text or the fixed text; JSON and text bodies are returned otherwise |
| ApiClient.OkNeverThrows | src/utils/api.js:30-42 | a 2xx response never raises the request error; it rejects exactly when its JSON body does not parse |
| GalleryView.OptimizedUrl | src/components/Gallery.jsx:27-34 | a Cloudinary URL gets the transformation after its first `/upload/`; others pass through; empty gives '' |
| GalleryView.OptimizedUrlInverse | src/components/Gallery.jsx:29-31 | cutting the transformation back out gives the original URL |
| GalleryView.Thumbnail | src/components/Gallery.jsx:356-365 | external URLs get the optimized URL; local ones the thumbnail route of their file name, or '' |
| GalleryView.DisplaySrc | src/components/Gallery.jsx:380 | the thumbnail when there is one, else the full URL |
| GalleryView.SrcPresentWhenUrlPresent | src/components/Gallery.jsx:356-380 | an image with a URL is always shown with a non-empty source |
| GalleryView.LocalThumbnailIsFlat | src/components/Gallery.jsx:361-363 | a local thumbnail names one file directly under the thumbnail route |
| GalleryView.ShowFolder | src/components/Gallery.jsx:58-68 | closing the open folder empties the images; opening one shows its loaded images, or keeps the list when the load fails |
| GalleryView.CreateFolder | src/components/Gallery.jsx:85-86 | a created folder is prepended and opened, and its images are loaded |
| GalleryView.Upload | src/components/Gallery.jsx:119-120 | uploaded images are prepended in selection order |
| GalleryView.WithoutKeepsOrder | src/components/Gallery.jsx:135 | `filter` keeps the survivors as a subsequence, in their order, each as often as it occurred, and drops every element with the id |
| GalleryView.DeleteFolder | src/components/Gallery.jsx:133-139 | exactly that id's folders go; the rest keep their order and count; the open folder is closed iff it was deleted, and then the image list is emptied |
| GalleryView.DeleteImage | src/components/Gallery.jsx:154 | exactly that id's images go; the rest keep their order and count; nothing else changes |
| GalleryView.DeleteUndoesCreate | src/components/Gallery.jsx:85-139 | deleting a just-created folder restores the list, closes it and shows no images |
| Text.ParseIntSkipsJsSpace | src/components/ImpactNumbers.jsx:7 | a leading JavaScript space, Unicode space separators included, does not change what `parseInt` reads |
| Counter.TargetIgnoresSeparators | src/components/ImpactNumbers.jsx:7 | a figure written with commas counts up to the number it spells |
| Counter.Step | src/components/ImpactNumbers.jsx:16-20 | the step is the ceiling of the target over 100 |
| Counter.Animate | src/components/ImpactNumbers.jsx:22-30 | the last value shown is the target, no value exceeds it, values strictly rise, there are at most 100 ticks, and a target of at most 0 shows once |
| ScrollSpy.LastHit | src/components/PageNavigation.jsx:11-21 | the last section in list order whose window holds the offset, or none when no window does |
| ScrollSpy.HandleScroll | src/components/PageNavigation.jsx:7-24 | the loop highlights that last section's id, or '' |
| ScrollSpy.AdjacentWindowsDisjoint | src/components/PageNavigation.jsx:14-17 | half-open windows of adjacent sections never share an offset |
| ScrollSpy.ScrollTarget | src/components/PageNavigation.jsx:30-38 | the target is the element's top exactly when the element exists |
| ScrollSpy.ScrollTargetInOwnWindow | src/components/PageNavigation.jsx:14-38 | scrolling to a section highlights it iff it is taller than the trigger offset |
| Seeds.SeedIfEmpty | server/seed_premium.js:75-79 | the rows are inserted in order exactly when the table is empty |
| Seeds.SeedPremium | server/seed_premium.js:15-120 | each of the four tables independently gets its sample rows iff it was empty; no other table changes |
| Seeds.SeededCsrLogosEmpty | server/seed_premium.js:115 | every seeded CSR partner has an empty logo |
| Seeds.SeedPremiumIdempotent | server/seed_premium.js:76-112 | a second run inserts nothing |
| Seeds.Replace | server/seed_data.js:16-28 | delete then insert leaves exactly the listed rows |
| Seeds.SeedData | server/seed_data.js:7-73 | when the opened file holds the five tables, each holds exactly its listed rows; on a file without them, such as the server's own, nothing changes; the server's tables are untouched either way |
| Seeds.SeedDataContentsIdempotent | server/seed_data.js:16-73 | two runs leave the same contents as one |
| AdminScripts.UpsertAdmin | server/force_reset.js:19-25 | an existing 'admin' row gets the new password and nothing is inserted; otherwise one admin row is added; other rows are untouched |
| AdminScripts.UpsertLetsAdminIn | server/reset_password.js:7-15 | after the upsert the Node login accepts 'admin' with that password |
| AdminScripts.UpsertAdminIdempotent | server/force_reset.js:19-25 | a second run changes nothing |
| AdminScripts.ResetAdminCloud | server/reset_admin_cloud.js:6-27 | exit 0 with the upsert to password 'admin', or exit 1 with no change |
| AdminScripts.FixAdminDuplicates | server/fix_admin_duplicates.js:18-22 | all 'admin' rows go, then one is inserted; other rows stay; the insert failing leaves none |
| AdminScripts.DropDefaultAdmins | server/fix_admin_duplicates.js:18 | afterwards no row has email 'admin', every other row is kept, and validity is preserved |
| AdminScripts.AddDefaultAdmin | server/fix_admin_duplicates.js:22 | on a table without an 'admin' row, exactly one 'admin' row appears and it carries the default password and role |
| AdminScripts.ResetAdminSqlite | server/reset_admin_sqlite.js:13-43 | the table ends with exactly ('admin','admin','admin') when both statements succeed |
| AdminScripts.ResetAdminJs | server/reset_admin.js:10-34 | as written: the insert runs even after a failed delete and takes the default role 'volunteer'; a successful delete with a failed insert leaves the table empty |
| AdminScripts.ResetAdminJsLogsInAsVolunteer | server/reset_admin.js:23-24 | after that script the Node login reports role 'volunteer' |
| AdminScripts.ResetAdmin | server/reset_admin.js:19-24 | corrected: the inserted row carries role 'admin' |
| AdminScripts.ResetAdminLogsInAsAdmin | src/App.jsx:90-91 | after the corrected script the login reports 'admin', the role the dashboard button needs |
| AdminScripts.ResetAdminPy | reset_admin.py:11-47 | refuses a MySQL URL or a missing file with status 1; a failed transaction changes nothing; else exactly the two listed admins remain |
| Maintenance.ClearTable | server/scripts/manage_data.js:36-42 | exactly the named table is emptied, unless its delete fails |
| Maintenance.ClearInOrder | server/scripts/manage_data.js:68-75 | only the listed tables change, the ones that did not fail end empty, and validity is kept |
| Maintenance.Menu | server/scripts/manage_data.js:58-82 | the menu asks again iff the answer is not '0' |
| Maintenance.MenuSingleTable | server/scripts/manage_data.js:58-62 | options 1-5 empty press, clientele, activities, CSR and volunteers respectively |
| Maintenance.MenuGallery | server/scripts/manage_data.js:63-67 | option 6 empties images, then folders |
| Maintenance.MenuClearAll | server/scripts/manage_data.js:68-75 | option 9 empties all seven listed tables |
| Maintenance.MenuOtherAnswers | server/scripts/manage_data.js:76-82 | '0' and unknown answers change nothing |
| Maintenance.MenuKeepsAdminsAndPillars | server/scripts/manage_data.js:20 | no option touches admin users or pillars |
| Maintenance.Session | server/scripts/manage_data.js:20-82 | a session of answers never touches admins, pillars or the clock; a first answer '0' ends it with nothing changed |
| Maintenance.SessionStopsAtZero | server/scripts/manage_data.js:20-82 | answers after the first '0' are never read |
| Maintenance.LastUrl | server/update_pillars_images.js:20-29 | the URL a pillar ends with is the last update naming its title, or none |
| Maintenance.ApplyUpdates | server/update_pillars_images.js:20-29 | only image URLs of named titles change; rows keep their place |
| Maintenance.LaterUpdatesWin | server/update_pillars_images.js:20-29 | a later update for a title overrides an earlier one |
| Maintenance.ApplyUpdatesIdempotent | server/update_pillars_images.js:11-35 | a second run changes nothing |
| Maintenance.RunImageScript | server/update_pillars_images.js:11-35 | the updates that completed before a failure stay applied, and only pillars change |
| Maintenance.UpdatePillarsImages | server/update_pillars_images.js:20-29 | the four remote URLs are written, and nothing else changes |
| Maintenance.RevertPillarsImages | server/revert_pillars_images.js:20-36 | the four local URLs are written back, and nothing else changes |
| Maintenance.LocalImagesAreSeeded | server/revert_pillars_images.js:20-36 | the reverted URLs are those of the bootstrap seed |
| Maintenance.RevertKeepsSeed | server/revert_pillars_images.js:20-36 | reverting a freshly seeded pillar table changes nothing |
| Maintenance.UpdateThenRevertRestoresSeed | server/update_pillars_images.js:20-29 | on pillars holding exactly the seeded rows, update followed by revert gives back the same store |
| Maintenance.TruncateIn | server/clear_gallery.js:22-28 | a truncated table is empty with its counter reset, and nothing else changes |
| Maintenance.Exec | server/clear_gallery.js:21-30 | truncating a referenced table while checks are on is refused |
| Maintenance.ClearGallery | server/clear_gallery.js:13-35 | a connect failure exits 1 unchanged; otherwise each gallery table is emptied unless its own truncate fails, in which case it is unchanged, and only the gallery changes |
| Maintenance.ClearGalleryRestoresChecks | server/clear_gallery.js:21-30 | foreign-key checks are on again after the script |
| Maintenance.ChecksOnBlockFolders | server/clear_gallery.js:21-28 | without switching checks off, the folder truncate would fail |

## Left out

- Network, file system, console output and timers. Their outcomes are parameters: connection, statement and commit success, existing files, completed statement counts, and menu answers.
- SQL text parsing and the engines themselves. WAL mode, busy timeouts, pooling and SSL contexts are driver behaviour and are left out.
- Concurrency: two first queries racing through `initDB` can open two handles. Only sequential calls are modelled. Parallel uploads are left out too.
- The responses of the Node PUT routes. The adapter never calls their callbacks, so only the statements are modelled.
- Uploads and image processing: multer and Cloudinary storage, PIL resizing with float ratios, and the sharp thumbnail endpoint. They are third-party I/O.
- The create routes and GET list routes for pillars, press, clientele, activities, CSR and volunteers. They are plain inserts and selects on the generic table.
- React rendering, animation and canvas code. The admin dashboard is left out too: its logic is fixed tab-to-endpoint lookups.
- The read-only diagnostic scripts. They change no data.
- Counter.Animate: a target of NaN is left out. Floating-point division in the step is taken as exact.
- Text.Lower and Text.Strip work on ASCII letters and ASCII whitespace only.
- Text.DecimalKey reads plain unsigned decimals only, with no sign and no surrounding whitespace.
- CheckEnv.ExitCode: the printing of recommended and optional variables is left out. It does not affect the exit code (`CheckEnv.VerdictIgnoresOtherVars`).
- Maintenance.Menu: the table counts the menu prints are left out. They change nothing.
- Maintenance.Session: a session is a finite list of answers. An endless interactive session is not modelled.
- The five tables of `server/seed_data.js` live in a separate `Seeds.LegacyStore`, because the server never creates them.
- Seeds.SeedData: the five tables either all exist or none does. A file holding only some of them is not modelled.
- PyApi.Login, PyApi.GetImages, PyApi.Delete, PyApi.UpdatePillar, PyApi.UpdatePress, PyApi.UpdateClient, PyApi.UpdateActivity, PyApi.UpdateCsr: only the success path of the session is modelled. A database error raised inside a route makes FastAPI answer 500 with nothing committed, and that outcome is not a parameter here.
- ApiClient.ErrorMessage: it does not promise a non-empty message, because an empty list in `detail` shows as the empty string in JavaScript too. Numbers and booleans in `detail` or `message` are not modelled.
- ApiClient.ApiFetch: a JSON error body that parses to `null` is not modelled; reading `data.detail` on it throws a TypeError. A failed `fetch` or `response.text()` is left out as network I/O.
- Password hashing does not exist in the code: passwords are stored and compared as plain text, and so they are here.

## Findings

| source | as written | input that shows it | evidently intended | confidence | as-written member | corrected member |
|---|---|---|---|---|---|---|
| test_db_conn.py:15 | every `mysql://` is replaced by `mysql+aiomysql://` without checking whether the async scheme is already there | `DATABASE_URL=mysql+aiomysql://u:p@h/db` becomes `mysql+aiomysql+aiomysql://u:p@h/db` | rewrite only when the async scheme is absent, as `app/database.py:13` does | not executed | DbUrl.UnguardedRewriteDoublesDriver | DbUrl.GuardedRewriteKeepsDriver |
| server/reset_admin.js:23 | the admin row is inserted with email and password only, so the column default 'volunteer' (`server/server.js:74`) applies | an empty admin table, then logging in as 'admin'/'admin': the login answers role 'volunteer', and the dashboard button (`src/App.jsx:91`) stays hidden | insert the row with role 'admin', as the other reset scripts do | not executed | AdminScripts.ResetAdminJsLogsInAsVolunteer | AdminScripts.ResetAdminLogsInAsAdmin |

=== FILE: admin_scripts.dfy ===
/**
 * The command-line scripts that repair the `admin_users` table. Each is a
 * transition of the store; a flag per statement says whether the database
 * accepted it, and the exit code is returned where the script sets one.
 */
module AdminScripts {
  import opened Common
  import opened Tables
  import opened Schema
  import opened Queries
  import NodeApi
  import DbUrl

  /** The row an insert of `(email, password)` and role `role` creates. */
  function AdminRec(s: Store, email: string, password: string, role: string): Rec<AdminUser> {
    Rec(s.admins.nextId, s.clock, AdminUser(email, password, role))
  }

  /**
   * Look up the 'admin' row, then either `UPDATE admin_users SET
   * password_hash = ? WHERE email = 'admin'` or insert ('admin', password,
   * 'admin'). Shared by `force_reset.js`, `reset_password.js` and
   * `reset_admin_cloud.js`, which differ only in the password.
   */
  function UpsertAdmin(s: Store, password: string): (r: Store)
    ensures SameExcept(s, r, {AdminUsers})
    ensures HasEmail(s.admins, DefaultAdminEmail) ==>
      && r.admins.nextId == s.admins.nextId && |r.admins.rows| == |s.admins.rows|
      && forall i :: 0 <= i < |s.admins.rows| ==>
        var x := s.admins.rows[i];
        r.admins.rows[i] == if x.data.email == DefaultAdminEmail then x.(data := x.data.(passwordHash := password)) else x
    ensures !HasEmail(s.admins, DefaultAdminEmail) ==>
      r.admins.rows == s.admins.rows + [AdminRec(s, DefaultAdminEmail, password, "admin")]
    ensures Valid(s) ==> Valid(r)
  {
    if HasEmail(s.admins, DefaultAdminEmail) then
      var t := UpdateWhere(s.admins, (u: AdminUser) => u.email == DefaultAdminEmail,
                           (u: AdminUser) => u.(passwordHash := password));
      assert forall i :: 0 <= i < |t.rows| ==> t.rows[i].data.email == s.admins.rows[i].data.email;
      s.(admins := t)
    else
      match InsertRow(s, AdminRow(AdminUser(DefaultAdminEmail, password, "admin")))
      case Ok((r, _)) => r
  }

  /** After an upsert the 'admin' row carries the new password, so logging in with it succeeds. */
  lemma UpsertLetsAdminIn(s: Store, password: string)
    requires Valid(s)
    ensures NodeApi.Login(UpsertAdmin(s, password), DefaultAdminEmail, password, true).LoggedIn?
  {
    var r := UpsertAdmin(s, password);
    var x: Rec<AdminUser>;
    if HasEmail(s.admins, DefaultAdminEmail) {
      var i :| 0 <= i < |s.admins.rows| && s.admins.rows[i].data.email == DefaultAdminEmail;
      x := r.admins.rows[i];
    } else {
      x := r.admins.rows[|s.admins.rows|];
    }
    assert x in r.admins.rows && Matches(x.data, DefaultAdminEmail, password);
  }

  /** A second run with the same password changes nothing. */
  lemma UpsertAdminIdempotent(s: Store, password: string)
    ensures UpsertAdmin(UpsertAdmin(s, password), password) == UpsertAdmin(s, password)
  {
    var r := UpsertAdmin(s, password);
    assert HasEmail(r.admins, DefaultAdminEmail) by {
      if HasEmail(s.admins, DefaultAdminEmail) {
        var i :| 0 <= i < |s.admins.rows| && s.admins.rows[i].data.email == DefaultAdminEmail;
        assert r.admins.rows[i].data.email == DefaultAdminEmail;
      } else {
        assert r.admins.rows[|s.admins.rows|].data.email == DefaultAdminEmail;
      }
    }
    var r2 := UpsertAdmin(r, password);
    assert r2.admins.rows == r.admins.rows;
  }

  /** `reset_admin_cloud.js`: the upsert with password 'admin'; exit 0 on success, 1 (no change) on any error. */
  function ResetAdminCloud(s: Store, dbOk: bool): (r: (Store, int))
    ensures r.1 == (if dbOk then 0 else 1)
    ensures dbOk ==> r.0 == UpsertAdmin(s, "admin")
    ensures !dbOk ==> r.0 == s
  {
    if dbOk then (UpsertAdmin(s, "admin"), 0) else (s, 1)
  }

  /**
   * `fix_admin_duplicates.js`: delete every 'admin' row, then insert the
   * default admin. A failed delete skips the insert.
   */
  function FixAdminDuplicates(s: Store, deleteOk: bool, insertOk: bool): (r: Store)
    ensures SameExcept(s, r, {AdminUsers})
    ensures !deleteOk ==> r == s
    ensures forall x: Rec<AdminUser> :: x.data.email != DefaultAdminEmail ==> (x in r.admins.rows <==> x in s.admins.rows)
    ensures deleteOk && !insertOk ==> !HasEmail(r.admins, DefaultAdminEmail)
    ensures deleteOk && insertOk ==>
      && HasEmail(r.admins, DefaultAdminEmail)
      && forall x :: x in r.admins.rows && x.data.email == DefaultAdminEmail ==> x == AdminRec(s, DefaultAdminEmail, DefaultAdminPassword, "admin")
    ensures Valid(s) ==> Valid(r)
  {
    if !deleteOk then s
    else
      var s1 := DropDefaultAdmins(s);
      if !insertOk then s1 else AddDefaultAdmin(s1)
  }

  /** `DELETE FROM admin_users WHERE email = 'admin'`. */
  function DropDefaultAdmins(s: Store): (r: Store)
    ensures SameExcept(s, r, {AdminUsers})
    ensures r.admins.nextId == s.admins.nextId
    ensures forall x: Rec<AdminUser> :: x.data.email != DefaultAdminEmail ==> (x in r.admins.rows <==> x in s.admins.rows)
    ensures !HasEmail(r.admins, DefaultAdminEmail)
    ensures Valid(s) ==> Valid(r)
  {
    var t := DeleteWhere(s.admins, (u: AdminUser) => u.email == DefaultAdminEmail);
    assert Valid(s) ==> UniqueEmails(t) by {
      if Valid(s) {
        UniqueEmailsSub(s.admins, t);
      }
    }
    assert forall i :: 0 <= i < |t.rows| ==> t.rows[i] in t.rows;
    s.(admins := t)
  }

  /** Insert the default admin into a table that has no 'admin' row. */
  function AddDefaultAdmin(s: Store): (r: Store)
    requires !HasEmail(s.admins, DefaultAdminEmail)
    ensures SameExcept(s, r, {AdminUsers})
    ensures forall x: Rec<AdminUser> :: x.data.email != DefaultAdminEmail ==> (x in r.admins.rows <==> x in s.admins.rows)
    ensures HasEmail(r.admins, DefaultAdminEmail)
    ensures forall x :: x in r.admins.rows && x.data.email == DefaultAdminEmail ==> x == AdminRec(s, DefaultAdminEmail, DefaultAdminPassword, "admin")
    ensures Valid(s) ==> Valid(r)
  {
    var t2 := Insert(s.admins, DefaultAdmin, s.clock);
    assert forall x :: x in t2.rows ==> x in s.admins.rows || x == t2.rows[|s.admins.rows|];
    assert Put(s, AdminRow(DefaultAdmin)) == s.(admins := t2);
    match InsertRow(s, AdminRow(DefaultAdmin))
    case Ok((r, _)) => r
  }

  /**
   * `reset_admin_sqlite.js`: `DELETE FROM admin_users`; only when that
   * succeeded, insert ('admin', 'admin', 'admin').
   */
  function ResetAdminSqlite(s: Store, deleteOk: bool, insertOk: bool): (r: Store)
    ensures SameExcept(s, r, {AdminUsers})
    ensures !deleteOk ==> r == s
    ensures deleteOk && !insertOk ==> Count(r, AdminUsers) == 0
    ensures deleteOk && insertOk ==> Datas(r.admins.rows) == [AdminUser("admin", "admin", "admin")]
    ensures Valid(s) ==> Valid(r)
  {
    if !deleteOk then s
    else
      var s1 := Clear(s, AdminUsers);
      if !insertOk then s1
      else
        match InsertRow(s1, AdminRow(AdminUser("admin", "admin", "admin")))
        case Ok((r, _)) => r
  }

  /**
   * `reset_admin.js` as written: after connecting, `DELETE FROM admin_users`,
   * then, whatever the delete did, insert ('admin', 'admin') naming no
   * role, so the column default applies. The exit code is 1 only when the
   * connection failed.
   */
  function ResetAdminJs(s: Store, connected: bool, deleteOk: bool, insertOk: bool): (r: (Store, int))
    ensures r.1 == (if connected then 0 else 1)
    ensures SameExcept(s, r.0, {AdminUsers})
    ensures !connected ==> r.0 == s
    ensures connected && deleteOk && insertOk ==> Datas(r.0.admins.rows) == [AdminUser("admin", "admin", DefaultRole)]
    ensures connected && !deleteOk && insertOk && !HasEmail(s.admins, "admin") ==>
      r.0.admins.rows == s.admins.rows + [AdminRec(s, "admin", "admin", DefaultRole)]
    ensures connected && !deleteOk && HasEmail(s.admins, "admin") ==> r.0 == s
    ensures connected && deleteOk && !insertOk ==> r.0.admins.rows == []
    ensures connected && !deleteOk && !insertOk ==> r.0 == s
    ensures Valid(s) ==> Valid(r.0)
  {
    if !connected then (s, 1)
    else
      var s1 := if deleteOk then Clear(s, AdminUsers) else s;
      if !insertOk then (s1, 0)
      else
        match InsertRow(s1, AdminRow(AdminUser("admin", "admin", DefaultRole)))
        case Ok((r, _)) => (r, 0)
        case Err(_) => (s1, 0)
  }

  /** The admin `reset_admin.js` leaves behind logs in with the role 'volunteer', not 'admin'. */
  lemma ResetAdminJsLogsInAsVolunteer(s: Store)
    requires Valid(s)
    ensures
      var reply := NodeApi.Login(ResetAdminJs(s, true, true, true).0, "admin", "admin", true);
      reply.LoggedIn? && reply.role == DefaultRole && reply.role != "admin"
  {
    var r := ResetAdminJs(s, true, true, true).0;
    assert r.admins.rows[0].data == Datas(r.admins.rows)[0];
    NodeApi.LoginNamesTheMatch(r, "admin", "admin", r.admins.rows[0]);
  }

  /** `reset_admin.js` with the role written out, as every other reset script does. */
  function ResetAdmin(s: Store, connected: bool, deleteOk: bool, insertOk: bool): (r: (Store, int))
    ensures r.1 == (if connected then 0 else 1)
    ensures SameExcept(s, r.0, {AdminUsers})
    ensures !connected ==> r.0 == s
    ensures connected && deleteOk && insertOk ==> Datas(r.0.admins.rows) == [AdminUser("admin", "admin", "admin")]
    ensures Valid(s) ==> Valid(r.0)
  {
    if !connected then (s, 1)
    else
      var s1 := if deleteOk then Clear(s, AdminUsers) else s;
      if !insertOk then (s1, 0)
      else
        match InsertRow(s1, AdminRow(AdminUser("admin", "admin", "admin")))
        case Ok((r, _)) => (r, 0)
        case Err(_) => (s1, 0)
  }

  /** With the role written out, the reset admin logs in as 'admin'. */
  lemma ResetAdminLogsInAsAdmin(s: Store)
    requires Valid(s)
    ensures
      var reply := NodeApi.Login(ResetAdmin(s, true, true, true).0, "admin", "admin", true);
      reply.LoggedIn? && reply.role == "admin"
  {
    var r := ResetAdmin(s, true, true, true).0;
    assert r.admins.rows[0].data == Datas(r.admins.rows)[0];
    NodeApi.LoginNamesTheMatch(r, "admin", "admin", r.admins.rows[0]);
  }

  /** The two accounts `reset_admin.py` installs. */
  const PythonAdmins: seq<AdminUser> := [
    AdminUser("admin", "admin", "admin"),
    AdminUser("admin@aakrittii.org", "admin123", "admin")
  ]

  /**
   * `reset_admin.py`: refuses (exit 1) for a MySQL `DATABASE_URL` or a
   * missing database file; otherwise deletes every admin and inserts the
   * two accounts in one transaction, committed only if all three statements
   * succeed (`ok`). A database error is reported and the script ends
   * normally.
   */
  function ResetAdminPy(s: Store, databaseUrl: Option<string>, fileExists: bool, ok: bool): (r: (Store, int))
    ensures r.1 == 1 <==> DbUrl.IsMySqlUrl(databaseUrl) || !fileExists
    ensures r.1 == 0 || r.1 == 1
    ensures r.1 == 1 || !ok ==> r.0 == s
    ensures r.1 == 0 && ok ==> Datas(r.0.admins.rows) == PythonAdmins && SameExcept(s, r.0, {AdminUsers})
    ensures Valid(s) ==> Valid(r.0)
  {
    if DbUrl.IsMySqlUrl(databaseUrl) || !fileExists then (s, 1)
    else if !ok then (s, 0)
    else
      var s1 := Clear(s, AdminUsers);
      var t := InsertAll(s1.admins, PythonAdmins, s.clock);
      assert UniqueEmails(t) by {
        assert t.rows[0].data == PythonAdmins[0] && t.rows[1].data == PythonAdmins[1];
        assert |PythonAdmins[0].email| != |PythonAdmins[1].email|;
      }
      (s1.(admins := t), 0)
  }
}

=== FILE: api_client.dfy ===
/**
 * The browser-side request helpers of `src/utils/api.js`: how an image path
 * becomes a URL, and how `apiFetch` classifies a response once it has
 * arrived. The network itself is left out; a response is a value.
 */
module ApiClient {
  import opened Common
  import opened Text

  /** The API prefix: empty, so requests stay relative to the page's origin. */
  const ApiBaseUrl := ""

  /**
   * `getImageUrl` under a given base: absent and empty paths give `''`,
   * absolute `http…` URLs pass through, and anything else is joined to the
   * base with exactly one `/`.
   */
  function ImageUrl(base: string, path: Option<string>): (r: string)
    ensures !Truthy(path) ==> r == ""
    ensures Truthy(path) && StartsWith(path.value, "http") ==> r == path.value
    ensures Truthy(path) && !StartsWith(path.value, "http") ==>
      StartsWith(r, base + "/") && EndsWith(r, path.value)
      && |r| == |base| + |path.value| + (if StartsWith(path.value, "/") then 0 else 1)
  {
    if !Truthy(path) then ""
    else
      var p := path.value;
      if StartsWith(p, "http") then p
      else if StartsWith(p, "/") then
        assert (base + p)[..|base| + 1] == base + p[..1];
        base + p
      else
        assert (base + "/" + p)[..|base| + 1] == base + "/";
        base + "/" + p
  }

  /** `getImageUrl` as the application uses it. */
  function GetImageUrl(path: Option<string>): (r: string)
    ensures Truthy(path) && StartsWith(path.value, "http") ==> r == path.value
  {
    ImageUrl(ApiBaseUrl, path)
  }

  /** With the empty base every local path becomes a root-relative one: the path, or `/` and the path. */
  lemma LocalImageUrlIsRooted(path: string)
    requires path != "" && !StartsWith(path, "http")
    ensures StartsWith(GetImageUrl(Some(path)), "/")
    ensures GetImageUrl(Some(path)) == (if path[0] == '/' then path else "/" + path)
  {
    assert ApiBaseUrl + path == path;
    assert ApiBaseUrl + "/" + path == "/" + path;
    if path[0] == '/' {
      assert path[..1] == "/";
    }
  }

  /** Feeding a built URL back through `getImageUrl` leaves it as it is. */
  lemma GetImageUrlIdempotent(path: Option<string>)
    ensures GetImageUrl(Some(GetImageUrl(path))) == GetImageUrl(path)
  {
    var r := GetImageUrl(path);
    if Truthy(path) && !StartsWith(path.value, "http") {
      LocalImageUrlIsRooted(path.value);
      assert r[..1] == "/";
      assert !StartsWith(r, "http") by {
        if |r| >= 4 {
          assert r[..4][0] == '/';
        }
      }
      if r[0] == '/' {
        assert r[..1] == "/";
        assert ApiBaseUrl + r == r;
      }
    }
  }

  // ---------------------------------------------------------------------------
  // Response classification

  /**
   * A field of a parsed JSON body: absent or `null`, a string, a list (FastAPI's
   * validation errors arrive as a list of objects) or an object.
   */
  datatype JsValue = Nil | Str(text: string) | List(items: seq<JsValue>) | Object

  /** JavaScript truthiness: only the empty string and `null`/`undefined` are falsy here. */
  predicate JsTruthy(v: JsValue) {
    match v
    case Nil => false
    case Str(t) => t != ""
    case List(_) => true
    case Object => true
  }

  /**
   * `String(v)`, which `new Error(v)` uses as the message: an object shows as
   * `[object Object]`, a list as its elements' forms joined by commas, with
   * `null` elements shown empty.
   */
  function JsString(v: JsValue): (r: string)
    ensures v.Str? ==> r == v.text
    ensures v.Object? ==> r == "[object Object]"
    decreases v
  {
    match v
    case Nil => "null"
    case Str(t) => t
    case Object => "[object Object]"
    case List(items) =>
      Join(seq(|items|, i requires 0 <= i < |items| => if items[i].Nil? then "" else JsString(items[i])), ",")
  }

  /** The two fields of a JSON error body that `apiFetch` reads. */
  datatype ErrorBody = ErrorBody(detail: JsValue, message: JsValue)

  /**
   * A response as `apiFetch` sees it: the status, the `content-type` header,
   * the body parsed as JSON (absent when it does not parse) and the body read
   * as text.
   */
  datatype Response = Response(status: int, contentType: Option<string>, json: Option<ErrorBody>, text: string)

  /**
   * What `apiFetch` resolves to or throws: `Rejected` is the error of
   * `response.json()` on a body that does not parse, `Thrown` the error
   * `apiFetch` raises itself.
   */
  datatype Fetched = Null | Json(body: ErrorBody) | Text(text: string) | Thrown(message: string) | Rejected

  const DefaultError := "API request failed"

  /** `response.ok`: a 2xx status. */
  predicate Ok(status: int) {
    200 <= status <= 299
  }

  predicate IsJson(contentType: Option<string>) {
    Truthy(contentType) && Contains(contentType.value, "application/json")
  }

  /**
   * The message of `new Error(data.detail || data.message || 'API request failed')`.
   * It is empty only when the field chosen is a list that shows as nothing.
   */
  function ErrorMessage(body: ErrorBody): (r: string)
    ensures JsTruthy(body.detail) ==> r == JsString(body.detail)
    ensures !JsTruthy(body.detail) && JsTruthy(body.message) ==> r == JsString(body.message)
    ensures !JsTruthy(body.detail) && !JsTruthy(body.message) ==> r == DefaultError
    ensures r == "" ==> body.detail.List? || body.message.List?
  {
    if JsTruthy(body.detail) then JsString(body.detail)
    else if JsTruthy(body.message) then JsString(body.message)
    else DefaultError
  }

  /** A validation error (status 422) with one error object surfaces as `[object Object]`. */
  lemma ValidationErrorShowsObject(message: JsValue)
    ensures ErrorMessage(ErrorBody(List([Object]), message)) == "[object Object]"
  {
  }

  /** `apiFetch` after the response arrived. */
  function ApiFetch(resp: Response): (r: Fetched)
    ensures r.Null? <==> resp.status == 204
    ensures r.Rejected? <==> resp.status != 204 && IsJson(resp.contentType) && resp.json.None?
    ensures r.Thrown? <==> resp.status != 204 && !Ok(resp.status) && !(IsJson(resp.contentType) && resp.json.None?)
    ensures r.Thrown? && IsJson(resp.contentType) ==> r.message == ErrorMessage(resp.json.value)
    ensures r.Thrown? && !IsJson(resp.contentType) ==> r.message == DefaultError
    ensures r.Json? ==> IsJson(resp.contentType) && resp.json == Some(r.body)
    ensures r.Text? ==> !IsJson(resp.contentType) && r.text == resp.text
  {
    if resp.status == 204 then Null
    else if IsJson(resp.contentType) then
      match resp.json
      case None => Rejected
      case Some(data) => if !Ok(resp.status) then Thrown(ErrorMessage(data)) else Json(data)
    else if !Ok(resp.status) then Thrown(DefaultError)
    else Text(resp.text)
  }

  /**
   * A successful response never raises the request error; it can still
   * reject, exactly when a JSON body does not parse.
   */
  lemma OkNeverThrows(resp: Response)
    requires Ok(resp.status)
    ensures !ApiFetch(resp).Thrown?
    ensures ApiFetch(resp).Rejected? <==> resp.status != 204 && IsJson(resp.contentType) && resp.json.None?
    ensures resp.status != 204 ==> (ApiFetch(resp).Json? || ApiFetch(resp).Rejected? <==> IsJson(resp.contentType))
  {
  }
}

=== FILE: bootstrap.dfy ===
/**
 * Start-up seeding. The Node server (`initTables` in server/server.js) runs
 * the nine `CREATE TABLE IF NOT EXISTS` statements and three guarded seed
 * steps one after another inside a single `try`; the Python service
 * (`startup` in app/main.py) seeds pillars and the default admin in one
 * session and one commit.
 */
module Bootstrap {
  import opened Common
  import opened Tables
  import opened Schema
  import opened Sql

  /** The tables the seed steps write. */
  const SeedTables: set<TableName> := {Pillars, AdminUsers, GalleryFolders, GalleryImages}

  const CreateStatements: seq<Stmt> := [
    CreateTable(AdminUsers), CreateTable(GalleryFolders), CreateTable(GalleryImages),
    CreateTable(PressReleases), CreateTable(Clientele), CreateTable(Activities),
    CreateTable(CsrConnects), CreateTable(Volunteers), CreateTable(Pillars)
  ]

  function PillarPuts(ps: seq<Pillar>): (r: seq<Stmt>)
    ensures |r| == |ps| && forall i :: 0 <= i < |ps| ==> r[i] == Put(PillarRow(ps[i]))
  {
    seq(|ps|, i requires 0 <= i < |ps| => Put(PillarRow(ps[i])))
  }

  function ImagePuts(ims: seq<Image>): (r: seq<Stmt>)
    ensures |r| == |ims| && forall i :: 0 <= i < |ims| ==> r[i] == Put(ImageRow(ims[i]))
  {
    seq(|ims|, i requires 0 <= i < |ims| => Put(ImageRow(ims[i])))
  }

  /** Insert the pillars `ps` iff the count just read is 0; then look up the admin. */
  function PillarStepWith(s: Store, ps: seq<Pillar>): seq<Stmt> {
    (if Count(s, Pillars) == 0 then PillarPuts(ps) else []) + [Query]
  }

  /** The pillar step with the four default pillars. */
  function PillarStep(s: Store): seq<Stmt> {
    PillarStepWith(s, DefaultPillars)
  }

  /** Insert the default admin iff the lookup found no row; then count the folders. */
  function AdminStep(s: Store): seq<Stmt> {
    (if HasEmail(s.admins, DefaultAdminEmail) then [] else [Put(AdminRow(DefaultAdmin))]) + [Query]
  }

  /**
   * Insert the default folder iff the count just read is 0, then its two
   * images when the folder's `lastID` is truthy. The folder insert returns
   * the table's next key (`InsertRow`), so that key is the `lastID`.
   */
  function GalleryStep(s: Store): seq<Stmt> {
    if Count(s, GalleryFolders) == 0 then
      [Put(FolderRow(DefaultFolder))]
      + (if NextId(s, GalleryFolders) != 0 then ImagePuts(DefaultImages(NextId(s, GalleryFolders))) else [])
    else []
  }

  /** The fault index as seen after `n` statements have completed. */
  function Skip(fault: Option<nat>, n: nat): Option<nat>
  {
    match fault
    case Some(k) => if k >= n then Some(k - n) else None
    case None => None
  }

  /** Run the next step of the same `try` block, unless an earlier statement already failed. */
  function Continue(o: Outcome, step: seq<Stmt>, fault: Option<nat>): (r: Outcome)
    ensures o.error.Some? ==> r == o
    ensures r.store.clock == o.store.clock
    ensures Valid(o.store) ==> Valid(r.store)
  {
    if o.error.Some? then o
    else
      var o2 := Run(o.store, step, Skip(fault, o.done));
      Outcome(o2.store, o.done + o2.done, o2.error)
  }

  /**
   * `initTables`: the statements in order, the first failing one ending the
   * whole sequence (the error is logged and swallowed). Each guard reads the
   * store as it stands when its query runs.
   */
  function InitTables(s: Store, fault: Option<nat>): (o: Outcome)
    ensures Valid(s) ==> Valid(o.store)
    ensures SameExcept(s, o.store, SeedTables)
  {
    var o1 := Run(s, CreateStatements + [Query], fault);
    var o2 := Continue(o1, PillarStep(o1.store), fault);
    var o3 := Continue(o2, AdminStep(o2.store), fault);
    var o4 := Continue(o3, GalleryStep(o3.store), fault);
    assert SameExcept(s, o4.store, SeedTables) by {
      RunFrame(s, CreateStatements + [Query], fault, SeedTables);
      ContinueFrame(o1, PillarStep(o1.store), fault);
      ContinueFrame(o2, AdminStep(o2.store), fault);
      ContinueFrame(o3, GalleryStep(o3.store), fault);
    }
    o4
  }

  lemma ContinueFrame(o: Outcome, step: seq<Stmt>, fault: Option<nat>)
    requires PutsOnly(step, SeedTables)
    ensures SameExcept(o.store, Continue(o, step, fault).store, SeedTables)
  {
    if o.error.None? {
      RunFrame(o.store, step, Skip(fault, o.done), SeedTables);
    }
  }

  // ---------------------------------------------------------------------------
  // What a run without faults produces, stated directly on the tables

  /** The pillars after seeding: the four defaults appended iff the table was empty. */
  function SeededPillars(t: Table<Pillar>, now: nat): (r: Table<Pillar>)
    ensures |t.rows| == 0 ==> Datas(r.rows) == DefaultPillars
    ensures |t.rows| != 0 ==> r == t
    ensures WellFormed(t, now) ==> WellFormed(r, now)
  {
    if |t.rows| == 0 then InsertAll(t, DefaultPillars, now) else t
  }

  /** The admins after seeding: the default admin appended iff no row has email 'admin'. */
  function SeededAdmins(t: Table<AdminUser>, now: nat): (r: Table<AdminUser>)
    ensures HasEmail(t, DefaultAdminEmail) ==> r == t
    ensures !HasEmail(t, DefaultAdminEmail) ==>
      r.rows == t.rows + [Rec(t.nextId, now, DefaultAdmin)]
    ensures HasEmail(r, DefaultAdminEmail)
    ensures WellFormed(t, now) && UniqueEmails(t) ==> WellFormed(r, now) && UniqueEmails(r)
  {
    if HasEmail(t, DefaultAdminEmail) then t
    else
      var r := Insert(t, DefaultAdmin, now);
      assert r.rows == t.rows + [Rec(t.nextId, now, DefaultAdmin)];
      assert r.rows[|t.rows|].data.email == DefaultAdminEmail;
      r
  }

  /** The gallery after seeding: one folder and, keyed to it, two images, iff there was no folder. */
  function SeededGallery(f: Table<Folder>, ims: Table<Image>, now: nat): (r: (Table<Folder>, Table<Image>))
    ensures |ims.rows| <= |r.1.rows| && r.1.rows[..|ims.rows|] == ims.rows
    ensures |f.rows| == 0 ==>
      && r.0.rows == [Rec(f.nextId, now, DefaultFolder)]
      && (f.nextId != 0 ==> Datas(r.1.rows[|ims.rows|..]) == DefaultImages(f.nextId))
    ensures |f.rows| != 0 ==> r == (f, ims)
    ensures WellFormed(f, now) ==> WellFormed(r.0, now)
    ensures WellFormed(ims, now) ==> WellFormed(r.1, now)
  {
    if |f.rows| == 0 then
      (Insert(f, DefaultFolder, now),
       if f.nextId != 0 then InsertAll(ims, DefaultImages(f.nextId), now) else ims)
    else (f, ims)
  }

  /** Seeding twice is seeding once. */
  lemma SeededPillarsStable(t: Table<Pillar>, now: nat)
    ensures SeededPillars(SeededPillars(t, now), now) == SeededPillars(t, now)
  {
    if |t.rows| == 0 {
      assert |SeededPillars(t, now).rows| == |DefaultPillars| == 4;
    }
  }

  lemma SeededGalleryStable(f: Table<Folder>, ims: Table<Image>, now: nat)
    ensures var g := SeededGallery(f, ims, now); SeededGallery(g.0, g.1, now) == g
  {
  }

  /** The store a fault-free seeding run leaves behind. */
  function Seeded(s: Store): (r: Store)
    ensures SameExcept(s, r, SeedTables)
    ensures Valid(s) ==> Valid(r)
  {
    var g := SeededGallery(s.folders, s.images, s.clock);
    s.(pillars := SeededPillars(s.pillars, s.clock), admins := SeededAdmins(s.admins, s.clock), folders := g.0, images := g.1)
  }

  lemma {:induction false} RunPillarPuts(s: Store, ps: seq<Pillar>)
    ensures Run(s, PillarPuts(ps), None) == Outcome(s.(pillars := InsertAll(s.pillars, ps, s.clock)), |ps|, None)
    decreases |ps|
  {
    if ps != [] {
      var s1 := s.(pillars := Insert(s.pillars, ps[0], s.clock));
      assert Exec(s, Put(PillarRow(ps[0]))) == Ok(s1);
      assert PillarPuts(ps)[1..] == PillarPuts(ps[1..]);
      RunPillarPuts(s1, ps[1..]);
    }
  }

  lemma {:induction false} RunImagePuts(s: Store, ims: seq<Image>)
    ensures Run(s, ImagePuts(ims), None) == Outcome(s.(images := InsertAll(s.images, ims, s.clock)), |ims|, None)
    decreases |ims|
  {
    if ims != [] {
      var s1 := s.(images := Insert(s.images, ims[0], s.clock));
      assert Exec(s, Put(ImageRow(ims[0]))) == Ok(s1);
      assert ImagePuts(ims)[1..] == ImagePuts(ims[1..]);
      RunImagePuts(s1, ims[1..]);
    }
  }

  /** Without faults, the pillar step inserts `ps` into an empty pillar table and otherwise only reads. */
  lemma PillarStepWithClean(s: Store, ps: seq<Pillar>)
    ensures var t := if |s.pillars.rows| == 0 then InsertAll(s.pillars, ps, s.clock) else s.pillars;
      Run(s, PillarStepWith(s, ps), None) == Outcome(s.(pillars := t), |PillarStepWith(s, ps)|, None)
  {
    assert Count(s, Pillars) == |s.pillars.rows|;
    if |s.pillars.rows| == 0 {
      var p := PillarPuts(ps);
      var s1 := s.(pillars := InsertAll(s.pillars, ps, s.clock));
      RunPillarPuts(s, ps);
      assert Run(s, p, None) == Outcome(s1, |ps|, None);
      RunAppend(s, p, [Query]);
      RunReads(s1, [Query], None);
      assert Run(s1, [Query], None) == Outcome(s1, 1, None);
      assert Run(s, p + [Query], None) == Outcome(s1, |ps| + 1, None);
      assert PillarStepWith(s, ps) == p + [Query];
    } else {
      assert PillarStepWith(s, ps) == [Query];
      RunReads(s, [Query], None);
      assert Run(s, [Query], None) == Outcome(s, 1, None);
      assert s.(pillars := s.pillars) == s;
    }
  }

  lemma PillarStepClean(s: Store)
    ensures Run(s, PillarStep(s), None) == Outcome(s.(pillars := SeededPillars(s.pillars, s.clock)), |PillarStep(s)|, None)
  {
    PillarStepWithClean(s, DefaultPillars);
  }

  lemma AdminStepClean(s: Store)
    ensures Run(s, AdminStep(s), None) == Outcome(s.(admins := SeededAdmins(s.admins, s.clock)), |AdminStep(s)|, None)
  {
    var a := if HasEmail(s.admins, DefaultAdminEmail) then [] else [Put(AdminRow(DefaultAdmin))];
    RunAppend(s, a, [Query]);
    var s1 := s.(admins := SeededAdmins(s.admins, s.clock));
    if !HasEmail(s.admins, DefaultAdminEmail) {
      assert Exec(s, Put(AdminRow(DefaultAdmin))) == Ok(s1);
      assert Run(s, a, None) == Outcome(s1, 1, None);
    } else {
      RunReads(s, a, None);
    }
    RunReads(s1, [Query], None);
  }

  lemma GalleryStepClean(s: Store)
    ensures var g := SeededGallery(s.folders, s.images, s.clock);
      Run(s, GalleryStep(s), None) == Outcome(s.(folders := g.0, images := g.1), |GalleryStep(s)|, None)
  {
    if Count(s, GalleryFolders) == 0 {
      var s1 := s.(folders := Insert(s.folders, DefaultFolder, s.clock));
      assert Exec(s, Put(FolderRow(DefaultFolder))) == Ok(s1);
      var imgs := if NextId(s, GalleryFolders) != 0 then ImagePuts(DefaultImages(NextId(s, GalleryFolders))) else [];
      RunAppend(s, [Put(FolderRow(DefaultFolder))], imgs);
      assert Run(s, [Put(FolderRow(DefaultFolder))], None) == Outcome(s1, 1, None);
      if NextId(s, GalleryFolders) != 0 {
        RunImagePuts(s1, DefaultImages(NextId(s, GalleryFolders)));
      } else {
        RunReads(s1, imgs, None);
      }
    } else {
      RunReads(s, [], None);
    }
  }

  /** Without faults, `initTables` completes and leaves exactly the seeded store. */
  lemma InitTablesClean(s: Store)
    ensures InitTables(s, None).error.None?
    ensures InitTables(s, None).store == Seeded(s)
  {
    var prelude := CreateStatements + [Query];
    RunReads(s, prelude, None);
    var o1 := Run(s, prelude, None);
    PillarStepClean(s);
    var s2 := s.(pillars := SeededPillars(s.pillars, s.clock));
    var o2 := Continue(o1, PillarStep(o1.store), None);
    assert o2.store == s2 && o2.error.None?;
    AdminStepClean(s2);
    assert SeededAdmins(s2.admins, s2.clock) == SeededAdmins(s.admins, s.clock);
    var s3 := s2.(admins := SeededAdmins(s.admins, s.clock));
    var o3 := Continue(o2, AdminStep(o2.store), None);
    assert o3.store == s3 && o3.error.None?;
    GalleryStepClean(s3);
    assert SeededGallery(s3.folders, s3.images, s3.clock) == SeededGallery(s.folders, s.images, s.clock);
    assert GalleryStep(s3) == GalleryStep(s);
  }

  /** A seeded store has pillars, an 'admin' row and a folder, so seeding it again changes nothing. */
  lemma SeededStable(s: Store)
    ensures Seeded(Seeded(s)) == Seeded(s)
  {
    SeededPillarsStable(s.pillars, s.clock);
    SeededGalleryStable(s.folders, s.images, s.clock);
  }

  /** Seeding a store that is already seeded inserts nothing. */
  lemma InitTablesIdempotent(s: Store)
    ensures var once := InitTables(s, None).store;
      InitTables(once, None).store == once
  {
    InitTablesClean(s);
    InitTablesClean(Seeded(s));
    SeededStable(s);
  }

  lemma SeededEmptyPillars(s: Store)
    requires Count(s, Pillars) == 0
    ensures Count(Seeded(s), Pillars) == 4 && Datas(Seeded(s).pillars.rows) == DefaultPillars
  {
    CountPillars(s);
    SeededPillarsField(s);
    SeededPillarsOfEmpty(s.pillars, s.clock);
    EmptyPillarsGetAll(s, DefaultPillars);
    FourPillars();
    CountPillars(Seeded(s));
  }

  lemma CountPillars(s: Store)
    ensures Count(s, Pillars) == |s.pillars.rows|
  {
  }

  lemma SeededPillarsField(s: Store)
    ensures Seeded(s).pillars == SeededPillars(s.pillars, s.clock)
  {
  }

  lemma SeededPillarsOfEmpty(t: Table<Pillar>, now: nat)
    requires |t.rows| == 0
    ensures SeededPillars(t, now) == InsertAll(t, DefaultPillars, now)
  {
  }

  lemma FourPillars()
    ensures |DefaultPillars| == 4
  {
  }

  /** Inserting `ps` into an empty pillar table leaves exactly `ps`, one row each. */
  lemma EmptyPillarsGetAll(s: Store, ps: seq<Pillar>)
    requires Count(s, Pillars) == 0
    ensures var t := InsertAll(s.pillars, ps, s.clock);
      |t.rows| == |ps| && Datas(t.rows) == ps
  {
    var t := InsertAll(s.pillars, ps, s.clock);
    assert t.rows[|s.pillars.rows|..] == t.rows;
  }

  lemma SeededEmptyAdmins(s: Store)
    requires Count(s, AdminUsers) == 0
    ensures Count(Seeded(s), AdminUsers) == 1
  {
    assert !HasEmail(s.admins, DefaultAdminEmail);
  }

  lemma SeededEmptyGallery(s: Store)
    requires Count(s, GalleryFolders) == 0 && Count(s, GalleryImages) == 0
    requires s.folders.nextId != 0
    ensures var r := Seeded(s);
      && Count(r, GalleryFolders) == 1 && Count(r, GalleryImages) == 2
      && Datas(r.images.rows) == DefaultImages(r.folders.rows[0].id)
  {
    var g := SeededGallery(s.folders, s.images, s.clock);
    assert g.1.rows[0..] == g.1.rows;
    assert |Datas(g.1.rows)| == 2;
  }

  lemma SeededEmpty(s: Store)
    requires Count(s, AdminUsers) == 0 && Count(s, Pillars) == 0
    requires Count(s, GalleryFolders) == 0 && Count(s, GalleryImages) == 0
    requires s.folders.nextId != 0
    ensures var r := Seeded(s);
      && Count(r, AdminUsers) == 1 && Count(r, Pillars) == 4
      && Count(r, GalleryFolders) == 1 && Count(r, GalleryImages) == 2
      && Datas(r.pillars.rows) == DefaultPillars
      && Datas(r.images.rows) == DefaultImages(r.folders.rows[0].id)
  {
    SeededEmptyPillars(s);
    SeededEmptyAdmins(s);
    SeededEmptyGallery(s);
  }

  /**
   * On a database whose four seeded tables are empty, a fault-free run
   * leaves one admin, the four pillars, and one folder holding both default
   * images; a second run adds nothing.
   */
  lemma SeedEmpty(s: Store)
    requires Valid(s)
    requires Count(s, AdminUsers) == 0 && Count(s, Pillars) == 0
    requires Count(s, GalleryFolders) == 0 && Count(s, GalleryImages) == 0
    ensures var r := InitTables(s, None).store;
      && Count(r, AdminUsers) == 1 && Count(r, Pillars) == 4
      && Count(r, GalleryFolders) == 1 && Count(r, GalleryImages) == 2
      && Datas(r.pillars.rows) == DefaultPillars
      && Datas(r.images.rows) == DefaultImages(r.folders.rows[0].id)
      && InitTables(r, None).store == r
  {
    InitTablesClean(s);
    InitTablesIdempotent(s);
    SeededEmpty(s);
  }

  /**
   * The whole sequence is one `try` block: on any database whose pillar
   * table is empty, a fault in the second pillar insert leaves a single
   * pillar and skips the admin and gallery steps, and because the pillar
   * count is then 1, no later fault-free run ever adds the other three.
   */
  lemma PartialPillarsPersist(s: Store)
    requires |s.pillars.rows| == 0
    ensures var r := InitTables(s, Some(11));
      && r.error == Some(Fault)
      && Datas(r.store.pillars.rows) == DefaultPillars[..1]
      && r.store.admins == s.admins && r.store.folders == s.folders && r.store.images == s.images
      && InitTables(r.store, None).store.pillars == r.store.pillars
  {
    var one := s.(pillars := InsertAll(s.pillars, DefaultPillars[..1], s.clock));
    SecondPillarFaults(s);
    var r := InitTables(s, Some(11));
    assert r.store == one;
    assert |one.pillars.rows| == 1;
    InitTablesClean(one);
    assert SeededPillars(one.pillars, one.clock) == one.pillars;
  }

  /** The run behind `PartialPillarsPersist`: ten statements succeed, the eleventh faults. */
  lemma SecondPillarFaults(s: Store)
    requires |s.pillars.rows| == 0
    ensures InitTables(s, Some(11))
        == Outcome(s.(pillars := InsertAll(s.pillars, DefaultPillars[..1], s.clock)), 11, Some(Fault))
  {
    var prelude := CreateStatements + [Query];
    RunReads(s, prelude, Some(11));
    var o1 := Run(s, prelude, Some(11));
    assert o1 == Outcome(s, 10, None);
    var step := PillarStep(s);
    assert step == PillarPuts(DefaultPillars) + [Query];
    assert step[..1] == PillarPuts(DefaultPillars[..1]);
    RunPillarPuts(s, DefaultPillars[..1]);
    RunFault(s, step, 1);
    var one := s.(pillars := InsertAll(s.pillars, DefaultPillars[..1], s.clock));
    assert Continue(o1, step, Some(11)) == Outcome(one, 11, Some(Fault));
  }

  // ---------------------------------------------------------------------------
  // The Python start-up hook

  /**
   * `startup`: pillars iff their count is 0, the admin iff no 'admin' row,
   * both staged in one session; a failed commit keeps nothing.
   */
  function Startup(s: Store, commitOk: bool): (r: Result<Store, DbError>)
    ensures r.Err? <==> !commitOk
    ensures r.Ok? ==> SameExcept(s, r.value, {Pillars, AdminUsers})
    ensures r.Ok? ==> HasEmail(r.value.admins, DefaultAdminEmail)
    ensures r.Ok? && Valid(s) ==> Valid(r.value)
  {
    if !commitOk then Err(Fault)
    else
      var seeded := Seeded(s);
      Ok(s.(pillars := seeded.pillars, admins := seeded.admins))
  }

  /** Both servers seed the same pillars and admin; only the Node server seeds the gallery. */
  lemma StartupAgreesWithInitTables(s: Store)
    ensures var node := InitTables(s, None).store;
      var py := Startup(s, true).value;
      && py.pillars == node.pillars && py.admins == node.admins
      && py.folders == s.folders && py.images == s.images
  {
    InitTablesClean(s);
  }

  lemma StartupIdempotent(s: Store)
    ensures var once := Startup(s, true).value;
      Startup(once, true) == Ok(once)
  {
    var once := Startup(s, true).value;
    assert once.pillars == SeededPillars(s.pillars, s.clock) && once.clock == s.clock;
    SeededPillarsStable(s.pillars, s.clock);
    assert SeededAdmins(once.admins, once.clock) == once.admins;
    assert Seeded(once).pillars == once.pillars && Seeded(once).admins == once.admins;
    assert once.(pillars := once.pillars, admins := once.admins) == once;
  }
}

=== FILE: check_env.dfy ===
/**
 * The deploy-time checks of `check_env.py`: which variables count as set,
 * how `DATABASE_URL` is shown with its credentials masked, the format check
 * on the database URL, and the exit code. The environment is a map from
 * variable name to value; the file system is the set of paths that exist.
 */
module CheckEnv {
  import opened Common
  import opened Text

  type Env = map<string, string>

  /** The three Cloudinary variables that must be set. */
  const RequiredVars: seq<string> := ["CLOUDINARY_CLOUD_NAME", "CLOUDINARY_API_KEY", "CLOUDINARY_API_SECRET"]

  /** The files a deployment needs, relative to the working directory. */
  const RequiredFiles: seq<string> := ["requirements.txt", "asgi.py", "Procfile", "dist/index.html"]

  const DatabaseUrlVar := "DATABASE_URL"

  /** What replaces the scheme and credentials of a displayed MySQL URL. */
  const MaskedPrefix := "mysql://***@"

  /** `os.getenv(name)`. */
  function Getenv(env: Env, name: string): Option<string> {
    if name in env then Some(env[name]) else None
  }

  /** The value a template `.env` file carries for `name`. */
  function Placeholder(name: string): string {
    "your_" + Lower(name)
  }

  /** A variable counts as set when it has a non-empty value other than its placeholder. */
  predicate CountsAsSet(env: Env, name: string) {
    name in env && env[name] != "" && env[name] != Placeholder(name)
  }

  predicate AllRequiredSet(env: Env) {
    forall k :: 0 <= k < |RequiredVars| ==> CountsAsSet(env, RequiredVars[k])
  }

  /** One pass over `names`, clearing the flag on each variable that does not count as set. */
  method CheckVars(env: Env, names: seq<string>) returns (allSet: bool)
    ensures allSet <==> forall k :: 0 <= k < |names| ==> CountsAsSet(env, names[k])
  {
    allSet := true;
    var i := 0;
    while i < |names|
      invariant 0 <= i <= |names|
      invariant allSet <==> forall k :: 0 <= k < i ==> CountsAsSet(env, names[k])
    {
      var value := Getenv(env, names[i]);
      if !(value.Some? && value.value != "" && value.value != Placeholder(names[i])) {
        allSet := false;
      }
      i := i + 1;
    }
  }

  /** `check_required_vars`: the pass over the three Cloudinary variables. */
  method CheckRequiredVars(env: Env) returns (allSet: bool)
    ensures allSet <==> AllRequiredSet(env)
  {
    allSet := CheckVars(env, RequiredVars);
  }

  /** `check_files`: one pass over the required files. */
  method CheckFiles(present: set<string>) returns (allExist: bool)
    ensures allExist <==> forall k :: 0 <= k < |RequiredFiles| ==> RequiredFiles[k] in present
  {
    allExist := true;
    var i := 0;
    while i < |RequiredFiles|
      invariant 0 <= i <= |RequiredFiles|
      invariant allExist <==> forall k :: 0 <= k < i ==> RequiredFiles[k] in present
    {
      if RequiredFiles[i] !in present {
        allExist := false;
      }
      i := i + 1;
    }
  }

  /**
   * How a set `DATABASE_URL` is displayed: a MySQL URL with an `@` shows
   * only the text between its first and second `@`, behind a fixed masked
   * prefix (`MaskedPrefix`); anything else is shown as it is.
   */
  function DisplayDatabaseUrl(value: string): (r: string)
    ensures !Contains(value, "mysql") || '@' !in value ==> r == value
    ensures Contains(value, "mysql") && '@' in value ==>
      StartsWith(r, MaskedPrefix) && '@' !in r[|MaskedPrefix|..]
  {
    if Contains(value, "mysql") then
      var parts := Split(value, '@');
      assert '@' in value ==> |parts| > 1 by {
        if '@' in value {
          var i := FindChar(value, '@').value;
          assert parts == [value[..i]] + Split(value[i + 1..], '@');
        }
      }
      if |parts| > 1 then MaskedPrefix + parts[1] else value
    else value
  }

  /** The credentials before the first `@` are replaced; the host part after it is shown. */
  lemma DisplayHidesCredentials(credentials: string, host: string, more: seq<string>)
    requires '@' !in credentials && '@' !in host
    requires forall k :: 0 <= k < |more| ==> '@' !in more[k]
    requires Contains(Join([credentials, host] + more, "@"), "mysql")
    ensures DisplayDatabaseUrl(Join([credentials, host] + more, "@")) == MaskedPrefix + host
  {
    AtFreePieces(credentials, host, more);
    SecondPiece([credentials, host] + more);
  }

  /** Pieces that are each free of `@` stay so once gathered into one list. */
  lemma AtFreePieces(credentials: string, host: string, more: seq<string>)
    requires '@' !in credentials && '@' !in host
    requires forall k :: 0 <= k < |more| ==> '@' !in more[k]
    ensures forall k :: 0 <= k < |[credentials, host] + more| ==> '@' !in ([credentials, host] + more)[k]
  {
    var parts := [credentials, host] + more;
    forall k | 2 <= k < |parts|
      ensures '@' !in parts[k]
    {
      assert parts[k] == more[k - 2];
    }
  }

  /** Joining `@`-free pieces and showing the result reveals exactly the second piece. */
  lemma SecondPiece(parts: seq<string>)
    requires |parts| >= 2
    requires forall k :: 0 <= k < |parts| ==> '@' !in parts[k]
    requires Contains(Join(parts, "@"), "mysql")
    ensures DisplayDatabaseUrl(Join(parts, "@")) == MaskedPrefix + parts[1]
  {
    var value := Join(parts, "@");
    SplitJoin(parts, '@');
    DisplayOfPieces(value);
  }

  /** A MySQL URL with at least one `@` shows its second `@`-piece behind the prefix. */
  lemma DisplayOfPieces(value: string)
    requires Contains(value, "mysql") && |Split(value, '@')| > 1
    ensures DisplayDatabaseUrl(value) == MaskedPrefix + Split(value, '@')[1]
  {
  }

  /**
   * `check_database_connection`: only a MySQL URL is judged, and it passes
   * when it holds both an `@` and a `:`. An unset, SQLite or unknown URL
   * passes.
   */
  function CheckDatabaseConnection(env: Env): (ok: bool)
    ensures !ok <==> DatabaseUrlVar in env && Contains(env[DatabaseUrlVar], "mysql")
                     && ('@' !in env[DatabaseUrlVar] || ':' !in env[DatabaseUrlVar])
  {
    var url := Getenv(env, DatabaseUrlVar);
    if url.None? || url.value == "" then true
    else if Contains(url.value, "mysql") then '@' in url.value && ':' in url.value
    else if Contains(url.value, "sqlite") then true
    else true
  }

  /** The MySQL test comes first, so a URL naming both engines is judged as MySQL. */
  lemma MySqlJudgedFirst(env: Env)
    requires DatabaseUrlVar in env
    requires Contains(env[DatabaseUrlVar], "mysql") && Contains(env[DatabaseUrlVar], "sqlite")
    ensures CheckDatabaseConnection(env) <==> '@' in env[DatabaseUrlVar] && ':' in env[DatabaseUrlVar]
  {
  }

  /** `main`: exit code 0 when the required variables, the files and the database URL all pass. */
  method ExitCode(env: Env, present: set<string>) returns (code: int)
    ensures code == 0 || code == 1
    ensures code == 0 <==> AllRequiredSet(env) && CheckDatabaseConnection(env)
                           && forall k :: 0 <= k < |RequiredFiles| ==> RequiredFiles[k] in present
  {
    var requiredOk := CheckRequiredVars(env);
    var filesOk := CheckFiles(present);
    var dbOk := CheckDatabaseConnection(env);
    code := if requiredOk && filesOk && dbOk then 0 else 1;
  }

  /** The variables `main` reads: the required ones and `DATABASE_URL`. */
  predicate Judged(name: string) {
    name in RequiredVars || name == DatabaseUrlVar
  }

  /** Recommended and optional variables (or any other) never change the verdict. */
  lemma VerdictIgnoresOtherVars(env: Env, name: string, value: string)
    requires !Judged(name)
    ensures AllRequiredSet(env[name := value]) == AllRequiredSet(env)
    ensures CheckDatabaseConnection(env[name := value]) == CheckDatabaseConnection(env)
  {
    var env2 := env[name := value];
    forall k | 0 <= k < |RequiredVars|
      ensures CountsAsSet(env2, RequiredVars[k]) == CountsAsSet(env, RequiredVars[k])
    {
      assert RequiredVars[k] != name;
    }
  }
}

=== FILE: common.dfy ===
/** Small shared vocabulary: optional values and results with an error. */
module Common {

  /** A value that may be absent (JavaScript `undefined`/`null`, Python `None`). */
  datatype Option<+T> = None | Some(value: T) {
    function GetOr(default: T): T {
      match this
      case Some(v) => v
      case None => default
    }
  }

  /** The outcome of an operation that can fail with an error of type `E`. */
  datatype Result<+T, +E> = Ok(value: T) | Err(error: E)
}

=== FILE: counter.dfy ===
/**
 * The animated impact figures of `src/components/ImpactNumbers.jsx`: the
 * target parsed from the card's text, and the interval timer that counts
 * up to it in steps of a hundredth, clamping the last tick to the target.
 */
module Counter {
  import opened Common
  import opened Text

  /** The animation lasts 2000 ms with a tick every 20 ms: 100 ticks of budget. */
  const DurationMs := 2000
  const TickMs := 20

  /** `parseInt(number.replace(/,/g, ''), 10)`; `None` stands for NaN. */
  function Target(number: string): Option<int>
  {
    ParseInt(RemoveChar(number, ','))
  }

  /** A figure written with thousands separators counts up to the number it spells. */
  lemma TargetIgnoresSeparators(number: string, n: nat)
    requires RemoveChar(number, ',') == NatToString(n)
    ensures Target(number) == Some(n)
  {
    ParseIntNatToString(n);
  }

  /** `Math.ceil(a / b)` for a positive divisor. */
  function CeilDiv(a: int, b: int): (r: int)
    requires b > 0
    ensures b * (r - 1) < a <= b * r
  {
    -((-a) / b)
  }

  /** `Math.ceil(end / (duration / incrementTime))`. */
  function Step(end: int): (r: int)
    ensures 100 * (r - 1) < end <= 100 * r
  {
    CeilDiv(end, DurationMs / TickMs)
  }

  /** The value shown at tick `k` (from 1): the running sum, clamped to the target. */
  function Shown(end: int, k: nat): int {
    if k * Step(end) >= end then end else k * Step(end)
  }

  lemma CancelPositive(a: int, b: int, s: int)
    requires s > 0 && a * s < b * s
    ensures a < b
  {
  }

  /** The values the timer shows: every tick before the last shows the running sum, the last the target. */
  predicate Ticks(end: int, shown: seq<int>) {
    && |shown| >= 1 && shown[|shown| - 1] == end
    && (forall k :: 0 <= k < |shown| ==> shown[k] == Shown(end, k + 1))
    && (forall k :: 0 <= k < |shown| - 1 ==> shown[k] < end)
    && (forall k :: 0 <= k < |shown| ==> shown[k] <= end)
    && (end >= 1 ==> |shown| <= DurationMs / TickMs)
    && (end >= 1 ==> forall k :: 0 <= k < |shown| - 1 ==> shown[k] < shown[k + 1])
    && (end <= 0 ==> shown == [end])
  }

  /** The tick that reaches the target closes a run of running sums into a complete animation. */
  lemma {:induction false} LastTick(end: int, sums: seq<int>)
    requires forall k :: 0 <= k < |sums| ==> sums[k] == (k + 1) * Step(end) && sums[k] < end
    requires (|sums| + 1) * Step(end) >= end
    requires Step(end) >= 1 || |sums| == 0
    ensures Ticks(end, sums + [end])
  {
    var step := Step(end);
    var shown := sums + [end];
    var n := |sums|;
    if n > 0 {
      assert n * step == sums[n - 1] < end <= 100 * step;
      CancelPositive(n, 100, step);
    }
    forall k | 0 <= k < |shown|
      ensures shown[k] == Shown(end, k + 1)
    {
      if k < n {
        assert shown[k] == sums[k];
      }
    }
    if end >= 1 {
      forall k | 0 <= k < |shown| - 1
        ensures shown[k] < shown[k + 1]
      {
        if k + 1 < n {
          assert sums[k + 1] == (k + 2) * step == (k + 1) * step + step;
        }
      }
    }
  }

  /**
   * The timer: each tick adds the step; a tick that reaches the target shows
   * the target and stops the timer, any other shows the running sum. The
   * result is the sequence of values shown, one per tick.
   */
  method Animate(end: int) returns (shown: seq<int>)
    ensures |shown| >= 1 && shown[|shown| - 1] == end
    ensures forall k :: 0 <= k < |shown| ==> shown[k] == Shown(end, k + 1)
    ensures forall k :: 0 <= k < |shown| - 1 ==> shown[k] < end
    ensures forall k :: 0 <= k < |shown| ==> shown[k] <= end
    ensures end >= 1 ==> |shown| <= DurationMs / TickMs
    ensures end >= 1 ==> forall k :: 0 <= k < |shown| - 1 ==> shown[k] < shown[k + 1]
    ensures end <= 0 ==> shown == [end]
  {
    var step := Step(end);
    var start := 0;
    var sums := [];
    while true
      invariant start == |sums| * step
      invariant step >= 1 || |sums| == 0
      invariant forall k :: 0 <= k < |sums| ==> sums[k] == (k + 1) * step && sums[k] < end
      decreases end - start
    {
      start := start + step;
      if start >= end {
        LastTick(end, sums);
        shown := sums + [end];
        return;
      }
      sums := sums + [start];
    }
  }
}

=== FILE: db.dfy ===
/**
 * The query adapter of server/db.js: a connection handle opens once per
 * process and three verbs (`all`, `get`, `run`) that hide which driver is
 * underneath. The backend is fixed when the module loads, by whether
 * DATABASE_URL is non-empty. What the database itself does with a statement
 * is a parameter (`Reply`); the adapter only decides which driver call to
 * make and how to reshape the driver's answer.
 */
module Db {
  import opened Common

  datatype Param = IntParam(i: int) | StrParam(s: string)

  datatype Backend = MySql | Sqlite

  /** `!!process.env.DATABASE_URL`: an unset or empty variable selects SQLite. */
  function ChooseBackend(databaseUrl: Option<string>): (b: Backend)
    ensures b == MySql <==> databaseUrl.Some? && |databaseUrl.value| > 0
  {
    match databaseUrl
    case Some(u) => if u != "" then MySql else Sqlite
    case None => Sqlite
  }

  /** An open pool or database file; `serial` tells two openings apart. */
  datatype Handle = Handle(backend: Backend, serial: nat)

  /** The module state: the backend flag, the memoised handle, how many times a handle was opened. */
  datatype Adapter = Adapter(backend: Backend, instance: Option<Handle>, opens: nat)

  function Load(databaseUrl: Option<string>): (a: Adapter)
    ensures a.backend == ChooseBackend(databaseUrl)
    ensures !IsConnected(a) && Inv(a)
  {
    Adapter(ChooseBackend(databaseUrl), None, 0)
  }

  /** `isConnected`: a handle has been stored. */
  predicate IsConnected(a: Adapter) {
    a.instance.Some?
  }

  /** At most one handle is ever opened, and it belongs to the configured backend. */
  predicate Inv(a: Adapter) {
    && a.opens == (if a.instance.Some? then 1 else 0)
    && (a.instance.Some? ==> a.instance.value.backend == a.backend)
  }

  datatype Opened = Opened(adapter: Adapter, handle: Handle)

  /** The exit status of a process that could not reach its database. */
  const ConnectFailed := 1

  /**
   * `initDB`: return the stored handle if there is one; otherwise open the
   * configured backend, store the handle and return it. A failed open ends
   * the process with status 1 (`Err(1)`).
   */
  function InitDB(a: Adapter, connectOk: bool): (r: Result<Opened, int>)
    ensures a.instance.Some? ==> r == Ok(Opened(a, a.instance.value))
    ensures a.instance.None? && !connectOk ==> r == Err(ConnectFailed)
    ensures a.instance.None? && connectOk ==>
      && r.Ok? && r.value.adapter.instance == Some(r.value.handle)
      && r.value.handle.backend == a.backend
      && r.value.adapter.opens == a.opens + 1
    ensures r.Ok? ==> IsConnected(r.value.adapter) && r.value.adapter.backend == a.backend
    ensures r.Ok? && Inv(a) ==> Inv(r.value.adapter)
  {
    match a.instance
    case Some(h) => Ok(Opened(a, h))
    case None =>
      if !connectOk then Err(ConnectFailed)
      else
        var h := Handle(a.backend, a.opens);
        Ok(Opened(a.(instance := Some(h), opens := a.opens + 1), h))
  }

  /** Once a handle is stored, every later call returns it and opens nothing, whatever the network does. */
  lemma InitDBMemoised(a: Adapter, first: bool, later: bool)
    requires InitDB(a, first).Ok?
    ensures var o := InitDB(a, first).value;
      InitDB(o.adapter, later) == Ok(o)
  {
  }

  // ---------------------------------------------------------------------------
  // The three verbs

  /**
   * What the database did with one statement: it answered with result rows,
   * the key it generated and the rows it touched, or it refused the statement
   * with a driver error (a syntax error, a constraint violation, a lost pool).
   */
  datatype Reply<R> =
    | Answer(rows: seq<R>, insertId: nat, affectedRows: nat)
    | Refused(error: int)

  /** The driver method the adapter calls, with the SQL text and parameters it passes. */
  datatype DriverCall =
    | Execute(sql: string, params: seq<Param>)     // mysql2 `conn.execute`
    | SqliteAll(sql: string, params: seq<Param>)
    | SqliteGet(sql: string, params: seq<Param>)
    | SqliteRun(sql: string, params: seq<Param>)

  /** The first element of the pair mysql2's `execute` resolves to. */
  datatype MySqlFirst<R> = RowList(rows: seq<R>) | ResultSetHeader(insertId: nat, affectedRows: nat)

  datatype StmtKind = Select | Write

  function MySqlExecute<R>(kind: StmtKind, rows: seq<R>, insertId: nat, affectedRows: nat): (r: MySqlFirst<R>)
    ensures kind == Select <==> r.RowList?
    ensures r.RowList? ==> r.rows == rows
    ensures r.ResultSetHeader? ==> r.insertId == insertId && r.affectedRows == affectedRows
  {
    if kind == Select then RowList(rows) else ResultSetHeader(insertId, affectedRows)
  }

  /** The SQLite wrapper's `run` answer: `{lastID, changes}`. */
  datatype RunInfo = RunInfo(lastID: nat, changes: nat)

  /**
   * How a verb ends. `Exited`: `initDB` could not connect and the process
   * ended. `Thrown`: the driver refused the statement; the verb does not
   * catch, so its promise rejects with the driver's error, and the handle
   * `initDB` stored stays stored. `Done`: the reshaped answer.
   */
  datatype Ended<T> =
    | Exited(status: int)
    | Thrown(adapter: Adapter, call: DriverCall, error: int)
    | Done(adapter: Adapter, call: DriverCall, value: T)

  /** The JavaScript default `params = []`. */
  function ParamsOrEmpty(params: Option<seq<Param>>): (r: seq<Param>)
    ensures params.Some? ==> r == params.value
    ensures params.None? ==> r == []
  {
    params.GetOr([])
  }

  /** `rows[0]` on a JavaScript array: the first row, or undefined. */
  function First<R>(rows: seq<R>): (r: Option<R>)
    ensures r.None? <==> |rows| == 0
    ensures r.Some? ==> r.value == rows[0]
  {
    if |rows| == 0 then None else Some(rows[0])
  }

  /**
   * What every verb does around its reshaping: `initDB`, then one driver
   * call, whose refusal is passed on untouched.
   */
  predicate Framed<R, T>(a: Adapter, connectOk: bool, reply: Reply<R>, r: Ended<T>)
  {
    && (r.Exited? <==> InitDB(a, connectOk).Err?)
    && (r.Exited? ==> r.status == ConnectFailed)
    && (r.Thrown? <==> InitDB(a, connectOk).Ok? && reply.Refused?)
    && (r.Thrown? ==> r.error == reply.error)
    && (!r.Exited? ==> InitDB(a, connectOk).Ok? && r.adapter == InitDB(a, connectOk).value.adapter)
  }

  /** The driver call a verb makes: `execute` on MySQL, the named wrapper method on SQLite. */
  predicate Calls<T>(r: Ended<T>, a: Adapter, sql: string, params: Option<seq<Param>>, sqlite: DriverCall)
  {
    && (r.Thrown? ==> r.call == (if a.backend == MySql then Execute(sql, ParamsOrEmpty(params)) else sqlite))
    && (r.Done? ==> r.call == (if a.backend == MySql then Execute(sql, ParamsOrEmpty(params)) else sqlite))
  }

  /** `db.all`: the rows exactly as the backend returns them. */
  function All<R>(a: Adapter, connectOk: bool, sql: string, params: Option<seq<Param>>, reply: Reply<R>)
    : (r: Ended<seq<R>>)
    ensures Framed(a, connectOk, reply, r)
    ensures Calls(r, a, sql, params, SqliteAll(sql, ParamsOrEmpty(params)))
    ensures r.Done? ==> r.value == reply.rows
  {
    match InitDB(a, connectOk)
    case Err(code) => Exited(code)
    case Ok(o) =>
      var ps := ParamsOrEmpty(params);
      var call := if a.backend == MySql then Execute(sql, ps) else SqliteAll(sql, ps);
      match reply
      case Refused(e) => Thrown(o.adapter, call, e)
      case Answer(rows, insertId, affectedRows) =>
        if a.backend == MySql then
          match MySqlExecute(Select, rows, insertId, affectedRows)
          case RowList(rs) => Done(o.adapter, call, rs)
          case ResultSetHeader(_, _) => assert false; Exited(ConnectFailed)
        else Done(o.adapter, call, rows)
  }

  /** `db.get`: the first row, or undefined when there is none. */
  function Get<R>(a: Adapter, connectOk: bool, sql: string, params: Option<seq<Param>>, reply: Reply<R>)
    : (r: Ended<Option<R>>)
    ensures Framed(a, connectOk, reply, r)
    ensures Calls(r, a, sql, params, SqliteGet(sql, ParamsOrEmpty(params)))
    ensures r.Done? ==> (r.value.None? <==> |reply.rows| == 0)
    ensures r.Done? && r.value.Some? ==> r.value.value == reply.rows[0]
  {
    match InitDB(a, connectOk)
    case Err(code) => Exited(code)
    case Ok(o) =>
      var ps := ParamsOrEmpty(params);
      var call := if a.backend == MySql then Execute(sql, ps) else SqliteGet(sql, ps);
      match reply
      case Refused(e) => Thrown(o.adapter, call, e)
      case Answer(rows, insertId, affectedRows) =>
        if a.backend == MySql then
          match MySqlExecute(Select, rows, insertId, affectedRows)
          case RowList(rs) => Done(o.adapter, call, First(rs))
          case ResultSetHeader(_, _) => assert false; Exited(ConnectFailed)
        else Done(o.adapter, call, First(rows))
  }

  /** `db.run`: `{lastID, changes}`, rebuilt from `insertId`/`affectedRows` on MySQL. */
  function Run<R>(a: Adapter, connectOk: bool, sql: string, params: Option<seq<Param>>, reply: Reply<R>)
    : (r: Ended<RunInfo>)
    ensures Framed(a, connectOk, reply, r)
    ensures Calls(r, a, sql, params, SqliteRun(sql, ParamsOrEmpty(params)))
    ensures r.Done? ==> r.value.lastID == reply.insertId && r.value.changes == reply.affectedRows
  {
    match InitDB(a, connectOk)
    case Err(code) => Exited(code)
    case Ok(o) =>
      var ps := ParamsOrEmpty(params);
      var call := if a.backend == MySql then Execute(sql, ps) else SqliteRun(sql, ps);
      match reply
      case Refused(e) => Thrown(o.adapter, call, e)
      case Answer(rows, insertId, affectedRows) =>
        if a.backend == MySql then
          match MySqlExecute(Write, rows, insertId, affectedRows)
          case ResultSetHeader(id, n) => Done(o.adapter, call, RunInfo(id, n))
          case RowList(_) => assert false; Exited(ConnectFailed)
        else Done(o.adapter, call, RunInfo(insertId, affectedRows))
  }

  /**
   * The caller sees the same outcome from either backend: the same value on
   * an answer, the same error on a refusal; only the driver call differs.
   */
  lemma VerbsBackendIndependent<R>(a: Adapter, b: Adapter, sql: string, params: Option<seq<Param>>, reply: Reply<R>)
    requires IsConnected(a) && IsConnected(b)
    ensures All(a, false, sql, params, reply).Done? <==> reply.Answer?
    ensures reply.Answer? ==> All(a, false, sql, params, reply).value == All(b, false, sql, params, reply).value
    ensures reply.Answer? ==> Get(a, false, sql, params, reply).value == Get(b, false, sql, params, reply).value
    ensures reply.Answer? ==> Run(a, false, sql, params, reply).value == Run(b, false, sql, params, reply).value
    ensures reply.Refused? ==> All(a, false, sql, params, reply).error == All(b, false, sql, params, reply).error
  {
  }
}

=== FILE: db_url.dfy ===
/**
 * How the Python service and its connection probe turn `DATABASE_URL` into
 * the URL handed to the database engine. `app/database.py` rewrites the
 * MySQL scheme only when the async driver is not already named, and drops
 * the whole query string once `ssl` appears; `test_db_conn.py` rewrites
 * unconditionally and drops only the `ssl=` parameters.
 */
module DbUrl {
  import opened Common
  import opened Text

  const AsyncScheme := "mysql+aiomysql://"
  const PlainScheme := "mysql://"
  const SqliteScheme := "sqlite+aiosqlite:///"

  /** The engine the service creates: a MySQL URL with or without an SSL context, or SQLite. */
  datatype Engine = MySqlEngine(url: string, ssl: bool) | SqliteEngine(url: string)

  /** The probe's connection attempt: the URL it connects to and whether it passes SSL. */
  datatype Probe = Probe(url: string, ssl: bool)

  /** `DATABASE_URL and "mysql" in DATABASE_URL`: the variable is set, non-empty and names MySQL. */
  predicate IsMySqlUrl(env: Option<string>) {
    env.Some? && env.value != "" && Contains(env.value, "mysql")
  }

  /**
   * The service's scheme rewrite: every `mysql://` becomes
   * `mysql+aiomysql://` unless the async scheme is already present.
   */
  function GuardedRewrite(u: string): (r: string)
    ensures Contains(u, PlainScheme) ==> Contains(r, AsyncScheme)
    ensures !Contains(u, PlainScheme) ==> r == u
    ensures Contains(u, AsyncScheme) ==> r == u
    ensures !Contains(u, AsyncScheme) ==> r == Join(SplitOn(u, PlainScheme), AsyncScheme)
  {
    if Contains(u, AsyncScheme) then u
    else
      var r := ReplaceAll(u, PlainScheme, AsyncScheme);
      assert Contains(u, PlainScheme) ==> OccursAt(r, AsyncScheme, IndexOf(u, PlainScheme).value);
      r
  }

  /** The async scheme holds the plain one (at 9), so text without the plain scheme lacks the async one too. */
  lemma AsyncHoldsPlain(x: string)
    ensures Contains(x, AsyncScheme) ==> Contains(x, PlainScheme)
  {
    if Contains(x, AsyncScheme) {
      var j := IndexOf(x, AsyncScheme).value;
      assert x[j + 9..j + 17] == x[j..j + 17][9..17];
      assert AsyncScheme[9..17] == PlainScheme;
      assert OccursAt(x, PlainScheme, j + 9);
    }
  }

  /**
   * In `a + AsyncScheme + rest` with no plain scheme in `a`, the async scheme
   * cannot start inside `a`: its closing `//` would have to sit inside the
   * inserted copy, where the only `//` follows the `:`.
   */
  lemma NoAsyncInsidePiece(a: string, rest: string, j: nat)
    requires !Contains(a, PlainScheme) && j < |a|
    ensures !OccursAt(a + AsyncScheme + rest, AsyncScheme, j)
  {
    var t := a + AsyncScheme + rest;
    if j + 17 <= |a| {
      assert t[j..j + 17] == a[j..j + 17];
      AsyncHoldsPlain(a);
      assert !OccursAt(a, AsyncScheme, j);
    } else if j + 17 <= |t| {
      var e := j + 16 - |a|;
      var w := t[j..j + 17];
      assert w[16] == AsyncScheme[e];
      if e == 0 {
        assert w[16] != AsyncScheme[16];
      } else {
        assert w[15] == AsyncScheme[e - 1];
        SlashesOfAsync(e);
        assert w[15] != AsyncScheme[15] || w[16] != AsyncScheme[16];
      }
    }
  }

  /** The async scheme has no `//` ending before its last character. */
  lemma SlashesOfAsync(e: nat)
    requires 1 <= e < 16
    ensures !(AsyncScheme[e] == '/' && AsyncScheme[e - 1] == '/')
  {
  }

  /** Splitting on the async scheme undoes joining plain-scheme-free pieces with it. */
  lemma {:induction false} SplitJoinAsync(ps: seq<string>)
    requires |ps| >= 1
    requires forall k :: 0 <= k < |ps| ==> !Contains(ps[k], PlainScheme)
    ensures SplitOn(Join(ps, AsyncScheme), AsyncScheme) == ps
    decreases |ps|
  {
    if |ps| == 1 {
      AsyncHoldsPlain(ps[0]);
    } else {
      var a := ps[0];
      var tail := Join(ps[1..], AsyncScheme);
      var t := a + AsyncScheme + tail;
      JoinCons(a, ps[1..], AsyncScheme);
      assert [a] + ps[1..] == ps;
      forall j: nat | j < |a|
        ensures !OccursAt(t, AsyncScheme, j)
      {
        NoAsyncInsidePiece(a, tail, j);
      }
      assert t[|a|..|a| + 17] == AsyncScheme;
      assert OccursAt(t, AsyncScheme, |a|);
      assert IndexOf(t, AsyncScheme) == Some(|a|);
      assert t[..|a|] == a;
      assert t[|a| + 17..] == tail;
      forall k | 0 <= k < |ps[1..]|
        ensures !Contains(ps[1..][k], PlainScheme)
      {
        assert ps[1..][k] == ps[k + 1];
      }
      SplitJoinAsync(ps[1..]);
    }
  }

  /**
   * The service's rewrite is undone by turning every async scheme back into
   * the plain one, whenever it rewrote at all: nothing but the scheme moved.
   */
  lemma GuardedRewriteRoundTrip(u: string)
    requires !Contains(u, AsyncScheme)
    ensures ReplaceAll(GuardedRewrite(u), AsyncScheme, PlainScheme) == u
  {
    var ps := SplitOn(u, PlainScheme);
    SplitJoinAsync(ps);
  }

  /** Rewriting an already rewritten URL changes nothing. */
  lemma GuardedRewriteIdempotent(u: string)
    ensures GuardedRewrite(GuardedRewrite(u)) == GuardedRewrite(u)
  {
  }

  /** `os.path.join(a, b)` for a relative `b`: a `/` is inserted unless `a` is empty or ends in one. */
  function PathJoin(a: string, b: string): (r: string)
    ensures EndsWith(r, b)
    ensures a != "" ==> StartsWith(r, a)
  {
    if a == "" then b
    else if EndsWith(a, "/") then a + b
    else a + "/" + b
  }

  /** The SQLite file next to the Node server, reached from the `app` directory. */
  function SqlitePath(appDir: string): string {
    PathJoin(PathJoin(PathJoin(appDir, ".."), "server"), "database.sqlite")
  }

  /** Everything before the first `?`: `url.split("?")[0]`. */
  function BeforeQuery(url: string): (r: string)
    ensures StartsWith(url, r) && '?' !in r
    ensures r == url || url[|r|] == '?'
  {
    match FindChar(url, '?')
    case None => url
    case Some(i) =>
      assert Split(url, '?')[0] == url[..i];
      Split(url, '?')[0]
  }

  /** The engine `app/database.py` builds from `DATABASE_URL` and the directory of the module. */
  function AppEngine(env: Option<string>, appDir: string): (r: Engine)
    ensures r.MySqlEngine? <==> IsMySqlUrl(env)
    ensures r.SqliteEngine? ==> r.url == SqliteScheme + SqlitePath(appDir)
    ensures r.MySqlEngine? ==> r.ssl == Contains(GuardedRewrite(env.value), "ssl")
    ensures r.MySqlEngine? && !r.ssl ==> r.url == GuardedRewrite(env.value)
    ensures r.MySqlEngine? && r.ssl ==>
      var u := GuardedRewrite(env.value);
      '?' !in r.url && StartsWith(u, r.url) && (r.url == u || u[|r.url|] == '?')
  {
    if IsMySqlUrl(env) then
      var u := GuardedRewrite(env.value);
      var ssl := Contains(u, "ssl");
      MySqlEngine(if ssl && '?' in u then BeforeQuery(u) else u, ssl)
    else
      SqliteEngine(SqliteScheme + SqlitePath(appDir))
  }

  /** The query parameters that do not start with `ssl=`, in their original order. */
  function DropSslParams(ps: seq<string>): (r: seq<string>)
    ensures |r| <= |ps|
    ensures forall k :: 0 <= k < |r| ==> !StartsWith(r[k], "ssl=")
    ensures forall k :: 0 <= k < |ps| && !StartsWith(ps[k], "ssl=") ==> ps[k] in r
    ensures forall p :: p in r ==> p in ps
  {
    if |ps| == 0 then []
    else (if StartsWith(ps[0], "ssl=") then [] else [ps[0]]) + DropSslParams(ps[1..])
  }

  /** Filtering is applied parameter by parameter, so it keeps their order. */
  lemma {:induction false} DropSslParamsAppend(a: seq<string>, b: seq<string>)
    ensures DropSslParams(a + b) == DropSslParams(a) + DropSslParams(b)
    decreases |a|
  {
    if |a| == 0 {
      assert a + b == b;
    } else {
      assert (a + b)[0] == a[0];
      assert (a + b)[1..] == a[1..] + b;
      DropSslParamsAppend(a[1..], b);
    }
  }

  /** Nothing survives exactly when every parameter is an `ssl=` one. */
  lemma DropSslParamsEmpty(ps: seq<string>)
    ensures |DropSslParams(ps)| == 0 <==> forall k :: 0 <= k < |ps| ==> StartsWith(ps[k], "ssl=")
  {
    var r := DropSslParams(ps);
    if |r| > 0 {
      assert r[0] in ps;
    }
  }

  /** The query string after the first `?`, split on `&`. */
  function QueryParams(url: string): seq<string>
    requires '?' in url
  {
    Split(url[FindChar(url, '?').value + 1..], '&')
  }

  /**
   * The probe's query cleaning: split at the first `?`, keep the parameters
   * not starting with `ssl=`, and re-attach `?` only if one survives.
   */
  function CleanQuery(url: string): (r: string)
    ensures '?' !in url ==> r == url
    ensures '?' in url ==>
      var base := BeforeQuery(url);
      var kept := DropSslParams(QueryParams(url));
      StartsWith(r, base) && (|kept| == 0 ==> r == base)
      && (|kept| > 0 ==> r[|base|..] == "?" + Join(kept, "&"))
  {
    match FindChar(url, '?')
    case None => url
    case Some(i) =>
      var kept := DropSslParams(Split(url[i + 1..], '&'));
      var r := url[..i] + (if |kept| > 0 then "?" + Join(kept, "&") else "");
      assert BeforeQuery(url) == url[..i];
      r
  }

  /** Lines 17-28 of the probe, applied to the rewritten URL. */
  function ProbeOf(url: string): (r: Probe)
    ensures r.ssl == Contains(url, "ssl")
    ensures !r.ssl ==> r.url == url
    ensures r.ssl ==> r.url == CleanQuery(url)
    ensures StartsWith(r.url, BeforeQuery(url))
  {
    var ssl := Contains(url, "ssl");
    Probe(if ssl then CleanQuery(url) else url, ssl)
  }

  /** `test_conn` as written: the scheme rewrite is not guarded. */
  function TestConnAsWritten(env: Option<string>): (r: Option<Probe>)
    ensures r.Some? <==> IsMySqlUrl(env)
    ensures r.Some? && !Contains(env.value, "ssl") && !Contains(env.value, PlainScheme) ==>
      r.value == Probe(env.value, false)
    ensures r.Some? ==> r.value == ProbeOf(Join(SplitOn(env.value, PlainScheme), AsyncScheme))
  {
    if IsMySqlUrl(env) then Some(ProbeOf(ReplaceAll(env.value, PlainScheme, AsyncScheme)))
    else None
  }

  /** `test_conn` with the service's guarded rewrite. */
  function TestConn(env: Option<string>): (r: Option<Probe>)
    ensures r.Some? <==> IsMySqlUrl(env)
    ensures r.Some? && !Contains(GuardedRewrite(env.value), "ssl") ==>
      r.value == Probe(GuardedRewrite(env.value), false)
    ensures r.Some? && Contains(GuardedRewrite(env.value), "ssl") ==>
      r.value == Probe(CleanQuery(GuardedRewrite(env.value)), true)
    ensures r.Some? && !Contains(env.value, AsyncScheme) ==>
      r.value == ProbeOf(Join(SplitOn(env.value, PlainScheme), AsyncScheme))
  {
    if IsMySqlUrl(env) then Some(ProbeOf(GuardedRewrite(env.value)))
    else None
  }

  /**
   * With the same rewrite, the probe and the service agree on SSL, and the
   * probe's URL extends the service's: it differs only by the non-`ssl=`
   * parameters the service throws away.
   */
  lemma ProbeExtendsApp(env: Option<string>, appDir: string)
    requires IsMySqlUrl(env)
    ensures
      var a := AppEngine(env, appDir);
      var t := TestConn(env).value;
      var u := GuardedRewrite(env.value);
      a.ssl == t.ssl && StartsWith(t.url, a.url)
      && (a.ssl && '?' in u ==>
            (t.url == a.url <==> forall k :: 0 <= k < |QueryParams(u)| ==> StartsWith(QueryParams(u)[k], "ssl=")))
  {
    var u := GuardedRewrite(env.value);
    var a := AppEngine(env, appDir);
    var t := TestConn(env).value;
    if a.ssl && '?' in u {
      var kept := DropSslParams(QueryParams(u));
      DropSslParamsEmpty(QueryParams(u));
      assert a.url == BeforeQuery(u);
      if |kept| > 0 {
        assert t.url[|a.url|..] == "?" + Join(kept, "&");
        assert |t.url| > |a.url|;
      }
    }
  }

  /** A query cut never shortens a prefix that holds no `?`. */
  lemma PrefixSurvivesQueryCut(u: string, p: string)
    requires StartsWith(u, p) && '?' !in p
    ensures StartsWith(BeforeQuery(u), p)
  {
    var b := BeforeQuery(u);
    if |b| < |p| {
      assert false;
    }
    assert b[..|p|] == u[..|p|];
  }

  /** In a URL that starts with the async scheme, the plain scheme first occurs inside it, at 9. */
  lemma PlainSchemeInsideAsync(rest: string)
    ensures IndexOf(AsyncScheme + rest, PlainScheme) == Some(9)
  {
    var u := AsyncScheme + rest;
    assert u[9..17] == PlainScheme;
    assert OccursAt(u, PlainScheme, 9);
    forall j: nat | j < 9
      ensures !OccursAt(u, PlainScheme, j)
    {
      assert u[j + 5] == AsyncScheme[j + 5] != ':';
      assert u[j..j + 8][5] == u[j + 5];
      assert PlainScheme[5] == ':';
    }
  }

  /** A URL that starts with the async scheme is a MySQL URL. */
  lemma AsyncSchemeIsMySql(rest: string)
    ensures IsMySqlUrl(Some(AsyncScheme + rest))
  {
    var u := AsyncScheme + rest;
    assert u[..5] == "mysql";
    assert OccursAt(u, "mysql", 0);
  }

  /** `mysql+aiomysql+aiomysql://`: the async scheme with the driver named twice. */
  const DoubledScheme := AsyncScheme[..9] + AsyncScheme

  /** Rewriting every `mysql://` in such a URL names the driver twice. */
  lemma ReplaceAllDoublesDriver(rest: string)
    ensures StartsWith(ReplaceAll(AsyncScheme + rest, PlainScheme, AsyncScheme), DoubledScheme)
  {
    var u := AsyncScheme + rest;
    PlainSchemeInsideAsync(rest);
    var w := ReplaceAll(u, PlainScheme, AsyncScheme);
    assert w[..9] == u[..9];
    assert OccursAt(w, AsyncScheme, 9);
    assert w[..26] == w[..9] + w[9..26];
    assert u[..9] == AsyncScheme[..9];
  }

  /** A URL that starts with the async scheme does not start with the doubled one. */
  lemma AsyncNotDoubled(x: string)
    requires StartsWith(x, AsyncScheme)
    ensures !StartsWith(x, DoubledScheme)
  {
    assert x[14] == AsyncScheme[14] == ':';
    assert DoubledScheme[14] == '+';
  }

  /** The probe rewrites a URL that already names the async driver a second time. */
  lemma UnguardedRewriteDoublesDriver(rest: string)
    ensures
      var p := TestConnAsWritten(Some(AsyncScheme + rest));
      p.Some? && StartsWith(p.value.url, DoubledScheme)
  {
    var u := AsyncScheme + rest;
    AsyncSchemeIsMySql(rest);
    ReplaceAllDoublesDriver(rest);
    PrefixSurvivesQueryCut(ReplaceAll(u, PlainScheme, AsyncScheme), DoubledScheme);
  }

  /** With the guard, such a URL keeps its single driver prefix. */
  lemma GuardedRewriteKeepsDriver(rest: string)
    ensures
      var p := TestConn(Some(AsyncScheme + rest));
      p.Some? && StartsWith(p.value.url, AsyncScheme) && !StartsWith(p.value.url, DoubledScheme)
  {
    var u := AsyncScheme + rest;
    AsyncSchemeIsMySql(rest);
    assert u[..|AsyncScheme|] == AsyncScheme;
    assert OccursAt(u, AsyncScheme, 0);
    assert GuardedRewrite(u) == u;
    PrefixSurvivesQueryCut(u, AsyncScheme);
    AsyncNotDoubled(ProbeOf(u).url);
  }
}

=== FILE: gallery_view.dfy ===
/**
 * The gallery page's URL choices and list bookkeeping
 * (`src/components/Gallery.jsx`): the Cloudinary transformation rewrite,
 * the thumbnail shown for each image, and how the folder and image lists
 * change after a create, an upload or a delete succeeded.
 */
module GalleryView {
  import opened Common
  import opened Text
  import opened ApiClient

  const DefaultWidth: nat := 400
  const UploadSegment := "/upload/"

  /** The transformation inserted after `/upload/` for a given width. */
  function Transformation(width: nat): string {
    "w_" + NatToString(width) + ",c_limit,q_auto,f_auto/"
  }

  predicate IsCloudinary(url: string) {
    Contains(url, "cloudinary.com") && Contains(url, UploadSegment)
  }

  /**
   * `getOptimizedUrl(url, width)`: a Cloudinary URL gets the transformation
   * right after its first `/upload/`; any other URL is returned as it is,
   * and an absent or empty one gives `''`.
   */
  function OptimizedUrl(url: Option<string>, width: nat): (r: string)
    ensures !Truthy(url) ==> r == ""
    ensures Truthy(url) && !IsCloudinary(url.value) ==> r == url.value
    ensures Truthy(url) && IsCloudinary(url.value) ==>
      var i := IndexOf(url.value, UploadSegment).value;
      var t := Transformation(width);
      |r| == |url.value| + |t|
      && r[..i + |UploadSegment|] == url.value[..i + |UploadSegment|]
      && r[i + |UploadSegment|..i + |UploadSegment| + |t|] == t
      && r[i + |UploadSegment| + |t|..] == url.value[i + |UploadSegment|..]
  {
    if !Truthy(url) then ""
    else if IsCloudinary(url.value) then
      var s := url.value;
      var i := IndexOf(s, UploadSegment).value;
      var t := Transformation(width);
      var r := ReplaceFirst(s, UploadSegment, UploadSegment + t);
      assert r[i..i + |UploadSegment| + |t|] == UploadSegment + t;
      assert s[i..i + |UploadSegment|] == UploadSegment;
      assert r[..i + |UploadSegment|] == r[..i] + r[i..i + |UploadSegment|];
      assert s[..i + |UploadSegment|] == s[..i] + s[i..i + |UploadSegment|];
      r
    else url.value
  }

  /** `getOptimizedUrl(url)` with the default width. */
  function DefaultOptimizedUrl(url: Option<string>): (r: string)
    ensures r == OptimizedUrl(url, DefaultWidth)
  {
    OptimizedUrl(url, 400)
  }

  /** Cutting the inserted transformation back out gives the original URL. */
  lemma OptimizedUrlInverse(url: string, width: nat)
    requires url != "" && IsCloudinary(url)
    ensures
      var r := OptimizedUrl(Some(url), width);
      var k := IndexOf(url, UploadSegment).value + |UploadSegment|;
      r[..k] + r[k + |Transformation(width)|..] == url
  {
    var k := IndexOf(url, UploadSegment).value + |UploadSegment|;
    assert url == url[..k] + url[k..];
  }

  // ---------------------------------------------------------------------------
  // Thumbnails

  /** `img.image_url || img.url`. */
  function FullUrl(imageUrl: Option<string>, url: Option<string>): Option<string> {
    if Truthy(imageUrl) then imageUrl else url
  }

  /** A URL starting with `https` already starts with `http`. */
  lemma HttpsIsHttp(s: string)
    requires StartsWith(s, "https")
    ensures StartsWith(s, "http")
  {
    assert s[..4] == s[..5][..4];
  }

  predicate IsExternal(full: Option<string>) {
    Truthy(full) && (StartsWith(full.value, "http") || StartsWith(full.value, "https"))
  }

  /** `fullUrl.split('/').pop()`, or `''` without a URL. */
  function FileName(full: Option<string>): (r: string)
    ensures '/' !in r
  {
    if Truthy(full) then LastSegment(full.value, '/') else ""
  }

  /** The prefix of the server's thumbnail endpoint, as built from a file name. */
  const ThumbnailRoute := "api/thumbnail/"

  /**
   * The thumbnail for an image: an external URL is optimised at the default
   * width, a local one is served by the thumbnail endpoint under its file
   * name, and a local URL with no file name gets none.
   */
  function Thumbnail(full: Option<string>): (r: string)
    ensures IsExternal(full) ==> r == OptimizedUrl(full, DefaultWidth)
    ensures !IsExternal(full) && FileName(full) == "" ==> r == ""
    ensures !IsExternal(full) && FileName(full) != "" ==>
      r == "/" + ThumbnailRoute + FileName(full)
  {
    if IsExternal(full) then OptimizedUrl(full, 400)
    else
      var name := FileName(full);
      if name != "" then
        var path := ThumbnailRoute + name;
        assert path[..4] != "http" by {
          assert path[..4] == "api/";
        }
        LocalImageUrlIsRooted(path);
        assert path[0] == 'a';
        GetImageUrl(Some(path))
      else ""
  }

  /** `thumbUrl || fullUrl`: the `src` the grid shows. */
  function DisplaySrc(full: Option<string>): (r: Option<string>)
    ensures Thumbnail(full) != "" ==> r == Some(Thumbnail(full))
    ensures Thumbnail(full) == "" ==> r == full
  {
    var t := Thumbnail(full);
    if t != "" then Some(t) else full
  }

  /** An image with a URL is always shown with some non-empty source. */
  lemma SrcPresentWhenUrlPresent(full: Option<string>)
    requires Truthy(full)
    ensures Truthy(DisplaySrc(full))
  {
  }

  /** A local thumbnail path names one file directly under the endpoint, never a directory. */
  lemma LocalThumbnailIsFlat(full: Option<string>)
    requires Truthy(full) && !StartsWith(full.value, "http") && FileName(full) != ""
    ensures
      var t := Thumbnail(full);
      StartsWith(t, "/" + ThumbnailRoute) && '/' !in t[|"/" + ThumbnailRoute|..]
  {
    if StartsWith(full.value, "https") {
      HttpsIsHttp(full.value);
    }
    var t := Thumbnail(full);
    assert t[..|"/" + ThumbnailRoute|] == "/" + ThumbnailRoute;
    assert t[|"/" + ThumbnailRoute|..] == FileName(full);
  }

  // ---------------------------------------------------------------------------
  // List bookkeeping

  /** A record the page holds, with the id the server gave it. */
  datatype Keyed<T> = Keyed(id: int, item: T)

  /** A folder card and an image tile as the page holds them. */
  datatype FolderCard = FolderCard(name: string, description: string, coverImage: Option<string>)
  datatype Photo = Photo(imageUrl: Option<string>, url: Option<string>, description: string)

  /** The page's lists and the open folder. */
  datatype Page = Page(folders: seq<Keyed<FolderCard>>, images: seq<Keyed<Photo>>, current: Option<Keyed<FolderCard>>)

  /** `a` is what remains of `b` after leaving some of its elements out, the rest in their order. */
  predicate Subsequence<T(==)>(a: seq<T>, b: seq<T>)
    decreases |b|
  {
    |a| == 0 || (|b| > 0 && ((a[0] == b[0] && Subsequence(a[1..], b[1..])) || Subsequence(a, b[1..])))
  }

  /** `xs.filter(x => x.id !== id)`. */
  function Without<T(!new)>(xs: seq<Keyed<T>>, id: int): (r: seq<Keyed<T>>)
    ensures forall x :: x in r <==> x in xs && x.id != id
    ensures |r| <= |xs|
  {
    if |xs| == 0 then []
    else (if xs[0].id == id then [] else [xs[0]]) + Without(xs[1..], id)
  }

  /**
   * Filtering keeps the survivors in their order, each as often as it
   * occurred, and drops every element carrying the id.
   */
  lemma {:induction false} WithoutKeepsOrder<T(!new)>(xs: seq<Keyed<T>>, id: int)
    ensures Subsequence(Without(xs, id), xs)
    ensures forall x :: multiset(Without(xs, id))[x] == if x.id == id then 0 else multiset(xs)[x]
    decreases |xs|
  {
    if |xs| > 0 {
      var rest := Without(xs[1..], id);
      WithoutKeepsOrder(xs[1..], id);
      assert xs == [xs[0]] + xs[1..];
      assert multiset(xs) == multiset([xs[0]]) + multiset(xs[1..]);
      if xs[0].id == id {
        assert Without(xs, id) == rest;
        assert |rest| > 0 ==> rest[0] in rest;
      } else {
        assert Without(xs, id) == [xs[0]] + rest;
        assert ([xs[0]] + rest)[1..] == rest;
      }
    }
  }

  /** Filtering works element by element, so the survivors keep their order. */
  lemma {:induction false} WithoutAppend<T(!new)>(a: seq<Keyed<T>>, b: seq<Keyed<T>>, id: int)
    ensures Without(a + b, id) == Without(a, id) + Without(b, id)
    decreases |a|
  {
    if |a| == 0 {
      assert a + b == b;
    } else {
      assert (a + b)[0] == a[0];
      assert (a + b)[1..] == a[1..] + b;
      WithoutAppend(a[1..], b, id);
    }
  }

  /** Removing an id nothing carries changes nothing. */
  lemma {:induction false} WithoutAbsent<T(!new)>(xs: seq<Keyed<T>>, id: int)
    requires forall k :: 0 <= k < |xs| ==> xs[k].id != id
    ensures Without(xs, id) == xs
    decreases |xs|
  {
    if |xs| > 0 {
      WithoutAbsent(xs[1..], id);
      assert xs == [xs[0]] + xs[1..];
    }
  }

  /**
   * The effect that runs whenever the open folder changes: closing it empties
   * the image list; opening one replaces the list by that folder's images as
   * loaded from the server, and a failed load leaves the list as it was.
   */
  function ShowFolder(p: Page, current: Option<Keyed<FolderCard>>, loaded: Option<seq<Keyed<Photo>>>): (r: Page)
    ensures r.folders == p.folders && r.current == current
    ensures current.None? ==> r.images == []
    ensures current.Some? && loaded.Some? ==> r.images == loaded.value
    ensures current.Some? && loaded.None? ==> r.images == p.images
  {
    match current
    case None => p.(current := None, images := [])
    case Some(_) => p.(current := current, images := loaded.GetOr(p.images))
  }

  /**
   * A created folder goes in front of the list and is opened; opening it
   * loads its images (`loaded`, absent when that request fails).
   */
  function CreateFolder(p: Page, f: Keyed<FolderCard>, loaded: Option<seq<Keyed<Photo>>>): (r: Page)
    ensures |r.folders| == |p.folders| + 1 && r.folders[0] == f && r.folders[1..] == p.folders
    ensures r.current == Some(f)
    ensures r.images == if loaded.Some? then loaded.value else p.images
  {
    ShowFolder(p.(folders := [f] + p.folders), Some(f), loaded)
  }

  /** Uploaded images go in front, in the order they were selected. */
  function Upload(p: Page, added: seq<Keyed<Photo>>): (r: Page)
    ensures |r.images| == |added| + |p.images|
    ensures r.images[..|added|] == added && r.images[|added|..] == p.images
    ensures r.folders == p.folders && r.current == p.current
  {
    p.(images := added + p.images)
  }

  /**
   * After a folder delete: that id's folders are gone; the open folder is
   * closed iff it was the one deleted, and closing it empties the image list.
   */
  function DeleteFolder(p: Page, id: int): (r: Page)
    ensures forall x :: x in r.folders <==> x in p.folders && x.id != id
    ensures Subsequence(r.folders, p.folders)
    ensures forall x :: multiset(r.folders)[x] == if x.id == id then 0 else multiset(p.folders)[x]
    ensures r.current.None? <==> p.current.None? || p.current.value.id == id
    ensures r.current.Some? ==> r.current == p.current
    ensures r.images == if p.current.Some? && p.current.value.id == id then [] else p.images
  {
    WithoutKeepsOrder(p.folders, id);
    var q := p.(folders := Without(p.folders, id));
    if p.current.Some? && p.current.value.id == id then ShowFolder(q, None, None) else q
  }

  /** After an image delete: that id's images are gone and nothing else changes. */
  function DeleteImage(p: Page, id: int): (r: Page)
    ensures forall x :: x in r.images <==> x in p.images && x.id != id
    ensures Subsequence(r.images, p.images)
    ensures forall x :: multiset(r.images)[x] == if x.id == id then 0 else multiset(p.images)[x]
    ensures r.folders == p.folders && r.current == p.current
  {
    WithoutKeepsOrder(p.images, id);
    p.(images := Without(p.images, id))
  }

  /**
   * Deleting a folder just created, under a fresh id, restores the folder
   * list, leaves none open and shows no images.
   */
  lemma DeleteUndoesCreate(p: Page, f: Keyed<FolderCard>, loaded: Option<seq<Keyed<Photo>>>)
    requires forall k :: 0 <= k < |p.folders| ==> p.folders[k].id != f.id
    ensures DeleteFolder(CreateFolder(p, f, loaded), f.id).folders == p.folders
    ensures DeleteFolder(CreateFolder(p, f, loaded), f.id).current.None?
    ensures DeleteFolder(CreateFolder(p, f, loaded), f.id).images == []
  {
    WithoutAppend([f], p.folders, f.id);
    WithoutAbsent(p.folders, f.id);
  }
}

=== FILE: maintenance.dfy ===
/**
 * The maintenance scripts that empty or rewrite content tables: the
 * interactive data manager, the two pillar image rewrites and the gallery
 * truncate. A statement that the database rejects leaves its table as it
 * was; which tables reject is a parameter.
 */
module Maintenance {
  import opened Common
  import opened Tables
  import opened Schema

  // ---------------------------------------------------------------------------
  // The data manager menu (server/scripts/manage_data.js)

  /** The tables the menu lists, in its order. */
  const ManagedTables: seq<TableName> :=
    [PressReleases, Clientele, Activities, CsrConnects, Volunteers, GalleryImages, GalleryFolders]

  /** `clearTable`: `DELETE FROM n`; an error is reported and the table stays as it was. */
  function ClearTable(s: Store, n: TableName, failing: set<TableName>): (r: Store)
    ensures n in failing ==> r == s
    ensures n !in failing ==> Count(r, n) == 0
    ensures SameExcept(s, r, {n})
    ensures Valid(s) ==> Valid(r)
  {
    if n in failing then s else Clear(s, n)
  }

  /** The tables of `names` whose delete succeeds. */
  function Cleared(names: seq<TableName>, failing: set<TableName>): set<TableName> {
    set n | n in names && n !in failing
  }

  /** `clearTable` on each of `names`, one after another. */
  function ClearInOrder(s: Store, names: seq<TableName>, failing: set<TableName>): (r: Store)
    ensures SameExcept(s, r, Cleared(names, failing))
    ensures forall n :: n in Cleared(names, failing) ==> Count(r, n) == 0
    ensures Valid(s) ==> Valid(r)
    decreases |names|
  {
    if names == [] then s
    else
      var s1 := ClearTable(s, names[0], failing);
      var r := ClearInOrder(s1, names[1..], failing);
      assert forall n :: n in names <==> n == names[0] || n in names[1..];
      assert forall n :: n in Cleared(names, failing) && n !in Cleared(names[1..], failing) ==> n == names[0];
      r
  }

  /** The tables a menu answer clears, in the order it clears them. */
  function OptionTables(answer: string): seq<TableName> {
    if answer == "1" then [PressReleases]
    else if answer == "2" then [Clientele]
    else if answer == "3" then [Activities]
    else if answer == "4" then [CsrConnects]
    else if answer == "5" then [Volunteers]
    else if answer == "6" then [GalleryImages, GalleryFolders]
    else if answer == "9" then ManagedTables
    else []
  }

  /**
   * One answer to the menu: the store afterwards, and whether the menu is
   * shown again (every answer but `0`, which closes the database).
   */
  function Menu(s: Store, answer: string, failing: set<TableName>): (r: (Store, bool))
    ensures r.1 <==> answer != "0"
    ensures SameExcept(s, r.0, Cleared(OptionTables(answer), failing))
    ensures forall n :: n in Cleared(OptionTables(answer), failing) ==> Count(r.0, n) == 0
    ensures Valid(s) ==> Valid(r.0)
  {
    (ClearInOrder(s, OptionTables(answer), failing), answer != "0")
  }

  /** With no failing delete, every table an answer lists is cleared. */
  lemma ClearedWithoutFailures(names: seq<TableName>)
    ensures Cleared(names, {}) == set n | n in names
  {
  }

  /** Answers `1` to `5` each empty exactly one table. */
  lemma MenuSingleTable(s: Store, answer: string, n: TableName)
    requires answer in {"1", "2", "3", "4", "5"}
    requires n == [PressReleases, Clientele, Activities, CsrConnects, Volunteers][(answer[0] as int) - ('1' as int)]
    ensures Count(Menu(s, answer, {}).0, n) == 0
    ensures SameExcept(s, Menu(s, answer, {}).0, {n})
  {
    assert OptionTables(answer) == [n];
    ClearedWithoutFailures([n]);
  }

  /** Answer `6` empties the images and then the folders, and nothing else. */
  lemma MenuGallery(s: Store)
    ensures var r := Menu(s, "6", {}).0;
      Count(r, GalleryImages) == 0 && Count(r, GalleryFolders) == 0 && SameExcept(s, r, {GalleryImages, GalleryFolders})
  {
    ClearedWithoutFailures([GalleryImages, GalleryFolders]);
    assert (set n | n in [GalleryImages, GalleryFolders]) == {GalleryImages, GalleryFolders};
  }

  /** Answer `9` empties all seven listed tables. */
  lemma MenuClearAll(s: Store)
    ensures forall n :: n in ManagedTables ==> Count(Menu(s, "9", {}).0, n) == 0
  {
    ClearedWithoutFailures(ManagedTables);
  }

  /** `0` and any unrecognised answer change nothing; only `0` ends the session. */
  lemma MenuOtherAnswers(s: Store, answer: string, failing: set<TableName>)
    requires answer !in {"1", "2", "3", "4", "5", "6", "9"}
    ensures Menu(s, answer, failing).0 == s
  {
    SameExceptNothing(s, Menu(s, answer, failing).0);
  }

  /** No answer ever touches `admin_users` or `pillars`, whatever fails. */
  lemma MenuKeepsAdminsAndPillars(s: Store, answer: string, failing: set<TableName>)
    ensures Menu(s, answer, failing).0.admins == s.admins
    ensures Menu(s, answer, failing).0.pillars == s.pillars
  {
    assert AdminUsers !in OptionTables(answer) && Pillars !in OptionTables(answer);
  }

  /** A whole session: answers are read until `0`; later input is never read. */
  function Session(s: Store, answers: seq<string>, failing: set<TableName>): (r: Store)
    ensures r.admins == s.admins && r.pillars == s.pillars && r.clock == s.clock
    ensures Valid(s) ==> Valid(r)
    ensures (forall k :: 0 <= k < |answers| ==> OptionTables(answers[k]) == []) ==> r == s
    ensures |answers| > 0 && answers[0] == "0" ==> r == s
    decreases |answers|
  {
    if answers == [] then s
    else
      var (s1, again) := Menu(s, answers[0], failing);
      MenuKeepsAdminsAndPillars(s, answers[0], failing);
      assert OptionTables(answers[0]) == [] ==> s1 == s by {
        if OptionTables(answers[0]) == [] {
          SameExceptNothing(s, s1);
        }
      }
      if again then Session(s1, answers[1..], failing) else s1
  }

  /** Whatever follows the first `0` is never read: the session ends there. */
  lemma {:induction false} SessionStopsAtZero(s: Store, answers: seq<string>, more: seq<string>, failing: set<TableName>)
    ensures Session(s, answers + ["0"] + more, failing) == Session(s, answers + ["0"], failing)
    decreases |answers|
  {
    var xs := answers + ["0"] + more;
    var ys := answers + ["0"];
    if answers == [] {
      assert xs[0] == "0" && ys[0] == "0";
    } else {
      assert xs[0] == answers[0] && ys[0] == answers[0];
      assert xs[1..] == answers[1..] + ["0"] + more;
      assert ys[1..] == answers[1..] + ["0"];
      var (s1, again) := Menu(s, answers[0], failing);
      if again {
        SessionStopsAtZero(s1, answers[1..], more, failing);
      }
    }
  }

  // ---------------------------------------------------------------------------
  // Pillar images (server/update_pillars_images.js, server/revert_pillars_images.js)

  /** `UPDATE pillars SET image_url = url WHERE title = title`. */
  datatype ImageUpdate = ImageUpdate(title: string, url: string)

  function SetImage(t: Table<Pillar>, u: ImageUpdate): Table<Pillar> {
    UpdateWhere(t, (p: Pillar) => p.title == u.title, (p: Pillar) => p.(imageUrl := u.url))
  }

  /** The url the last update naming `title` writes, if any names it. */
  function LastUrl(us: seq<ImageUpdate>, title: string): (r: Option<string>)
    ensures r.None? <==> forall k :: 0 <= k < |us| ==> us[k].title != title
    ensures r.Some? ==> exists k :: 0 <= k < |us| && us[k].title == title && us[k].url == r.value
    decreases |us|
  {
    if us == [] then None
    else if us[|us| - 1].title == title then Some(us[|us| - 1].url)
    else
      var r := LastUrl(us[..|us| - 1], title);
      assert forall k :: 0 <= k < |us| - 1 ==> us[..|us| - 1][k] == us[k];
      r
  }

  /** A pillar after the updates: its image is the last url written for its title. */
  function Retitled(p: Pillar, us: seq<ImageUpdate>): Pillar {
    match LastUrl(us, p.title)
    case Some(u) => p.(imageUrl := u)
    case None => p
  }

  /**
   * The update statements run one after another. Each row keeps its key,
   * tick, title, description and icon, and ends with the image the last
   * update for its title wrote.
   */
  function ApplyUpdates(t: Table<Pillar>, us: seq<ImageUpdate>): (r: Table<Pillar>)
    ensures r.nextId == t.nextId && |r.rows| == |t.rows|
    ensures forall i :: 0 <= i < |t.rows| ==>
      r.rows[i] == t.rows[i].(data := Retitled(t.rows[i].data, us))
    ensures forall c: nat :: WellFormed(t, c) ==> WellFormed(r, c)
    decreases |us|
  {
    if us == [] then t
    else
      var u := us[|us| - 1];
      var t1 := ApplyUpdates(t, us[..|us| - 1]);
      var r := SetImage(t1, u);
      assert forall i :: 0 <= i < |t.rows| ==> t1.rows[i].data.title == t.rows[i].data.title;
      r
  }

  /** Some update names `title`. */
  predicate NamesTitle(us: seq<ImageUpdate>, title: string) {
    exists k :: 0 <= k < |us| && us[k].title == title
  }

  /** Updates whose titles all reappear later are overwritten: only the later ones matter. */
  lemma LaterUpdatesWin(t: Table<Pillar>, a: seq<ImageUpdate>, b: seq<ImageUpdate>)
    requires forall i :: 0 <= i < |a| ==> NamesTitle(b, a[i].title)
    ensures ApplyUpdates(ApplyUpdates(t, a), b) == ApplyUpdates(t, b)
  {
    var r1 := ApplyUpdates(ApplyUpdates(t, a), b);
    var r2 := ApplyUpdates(t, b);
    forall i | 0 <= i < |t.rows|
      ensures r1.rows[i] == r2.rows[i]
    {
      var p := t.rows[i].data;
      if LastUrl(b, p.title).None? && LastUrl(a, p.title).Some? {
        assert false;
      }
    }
    assert r1.rows == r2.rows;
  }

  /** Running the same updates twice is the same as running them once. */
  lemma ApplyUpdatesIdempotent(t: Table<Pillar>, us: seq<ImageUpdate>)
    ensures ApplyUpdates(ApplyUpdates(t, us), us) == ApplyUpdates(t, us)
  {
    forall i | 0 <= i < |us|
      ensures NamesTitle(us, us[i].title)
    {
      assert us[i].title == us[i].title;
    }
    LaterUpdatesWin(t, us, us);
  }

  /** The Unsplash images `update_pillars_images.js` writes, in statement order. */
  const RemoteImages: seq<ImageUpdate> := [
    ImageUpdate("Education", "https://images.unsplash.com/photo-1544716278-ca5e3f4abd8c?q=80&w=1000"),
    ImageUpdate("Support", "https://images.unsplash.com/photo-1532629345422-7515f3d16bb6?q=80&w=1000"),
    ImageUpdate("Hope", "https://images.unsplash.com/photo-1594708767771-a7502209ff51?q=80&w=1000"),
    ImageUpdate("Love", "https://images.unsplash.com/photo-1518398046578-8cca57782e36?q=80&w=1000")
  ]

  /** The local images `revert_pillars_images.js` writes, in statement order. */
  const LocalImages: seq<ImageUpdate> := [
    ImageUpdate("Education", "/pillar_education.jpg"),
    ImageUpdate("Support", "/pillar_nutrition.jpg"),
    ImageUpdate("Hope", "/pillar_livelihood.jpg"),
    ImageUpdate("Love", "/pillar_love.jpg")
  ]

  /**
   * A script's effect: its statements run in order inside one `try`, so a
   * failure (or a failed open, `completed == 0`) skips the rest; `completed`
   * is how many statements ran.
   */
  function RunImageScript(s: Store, us: seq<ImageUpdate>, completed: nat): (r: Store)
    ensures SameExcept(s, r, {Pillars})
    ensures r.pillars == ApplyUpdates(s.pillars, us[..if completed < |us| then completed else |us|])
    ensures Valid(s) ==> Valid(r)
  {
    s.(pillars := ApplyUpdates(s.pillars, us[..if completed < |us| then completed else |us|]))
  }

  function UpdatePillarsImages(s: Store, completed: nat): (r: Store)
    ensures SameExcept(s, r, {Pillars})
    ensures |r.pillars.rows| == |s.pillars.rows|
    ensures completed >= 4 ==> forall i :: 0 <= i < |s.pillars.rows| ==>
      r.pillars.rows[i] == s.pillars.rows[i].(data := Retitled(s.pillars.rows[i].data, RemoteImages))
    ensures Valid(s) ==> Valid(r)
  {
    assert RemoteImages[..4] == RemoteImages;
    RunImageScript(s, RemoteImages, completed)
  }

  function RevertPillarsImages(s: Store, completed: nat): (r: Store)
    ensures SameExcept(s, r, {Pillars})
    ensures |r.pillars.rows| == |s.pillars.rows|
    ensures completed >= 4 ==> forall i :: 0 <= i < |s.pillars.rows| ==>
      r.pillars.rows[i] == s.pillars.rows[i].(data := Retitled(s.pillars.rows[i].data, LocalImages))
    ensures Valid(s) ==> Valid(r)
  {
    assert LocalImages[..4] == LocalImages;
    RunImageScript(s, LocalImages, completed)
  }

  /** No two updates name the same title. */
  predicate DistinctTitles(us: seq<ImageUpdate>) {
    forall i, j :: 0 <= i < j < |us| ==> us[i].title != us[j].title
  }

  /** With distinct titles each listed title gets exactly its own url. */
  lemma {:induction false} LastUrlOfListed(us: seq<ImageUpdate>, k: nat)
    requires DistinctTitles(us) && k < |us|
    ensures LastUrl(us, us[k].title) == Some(us[k].url)
    decreases |us|
  {
    if k < |us| - 1 {
      var init := us[..|us| - 1];
      assert init[k] == us[k];
      LastUrlOfListed(init, k);
    }
  }

  lemma RemoteTitlesDistinct()
    ensures DistinctTitles(RemoteImages)
  {
  }

  lemma LocalTitlesDistinct()
    ensures DistinctTitles(LocalImages)
  {
  }

  /** The revert writes exactly the image urls the bootstrap seeds, title by title. */
  lemma LocalImagesAreSeeded()
    ensures |LocalImages| == |DefaultPillars|
    ensures forall k :: 0 <= k < |LocalImages| ==>
      LocalImages[k].title == DefaultPillars[k].title && LocalImages[k].url == DefaultPillars[k].imageUrl
  {
  }

  /** Some update writes exactly this pillar's title and image. */
  predicate Lists(us: seq<ImageUpdate>, p: Pillar) {
    exists k :: 0 <= k < |us| && us[k].title == p.title && us[k].url == p.imageUrl
  }

  /** Updates that write every row's current image again leave the table as it is. */
  lemma UpdatesAlreadyApplied(t: Table<Pillar>, us: seq<ImageUpdate>)
    requires DistinctTitles(us)
    requires forall i :: 0 <= i < |t.rows| ==> Lists(us, t.rows[i].data)
    ensures ApplyUpdates(t, us) == t
  {
    var r := ApplyUpdates(t, us);
    forall i | 0 <= i < |t.rows|
      ensures r.rows[i] == t.rows[i]
    {
      assert Lists(us, t.rows[i].data);
      var k :| 0 <= k < |us| && us[k].title == t.rows[i].data.title && us[k].url == t.rows[i].data.imageUrl;
      LastUrlOfListed(us, k);
    }
    assert r.rows == t.rows;
  }

  /** Reverting the seeded pillars changes nothing. */
  lemma RevertKeepsSeed(t: Table<Pillar>)
    requires Datas(t.rows) == DefaultPillars
    ensures ApplyUpdates(t, LocalImages) == t
  {
    LocalImagesAreSeeded();
    LocalTitlesDistinct();
    forall i | 0 <= i < |t.rows|
      ensures Lists(LocalImages, t.rows[i].data)
    {
      assert t.rows[i].data == Datas(t.rows)[i];
      assert LocalImages[i].title == t.rows[i].data.title;
    }
    UpdatesAlreadyApplied(t, LocalImages);
  }

  /** Update then revert on freshly seeded pillars gives back the seeded rows. */
  lemma UpdateThenRevertRestoresSeed(s: Store)
    requires Datas(s.pillars.rows) == DefaultPillars
    ensures RevertPillarsImages(UpdatePillarsImages(s, 4), 4) == s
  {
    assert RemoteImages[..4] == RemoteImages && LocalImages[..4] == LocalImages;
    forall i | 0 <= i < |RemoteImages|
      ensures NamesTitle(LocalImages, RemoteImages[i].title)
    {
      assert LocalImages[i].title == RemoteImages[i].title;
    }
    LaterUpdatesWin(s.pillars, RemoteImages, LocalImages);
    RevertKeepsSeed(s.pillars);
  }

  // ---------------------------------------------------------------------------
  // Gallery truncate (server/clear_gallery.js)

  /** The statements `clear_gallery.js` sends, in order. */
  datatype GalleryStatement = ForeignKeyChecks(on: bool) | TruncateTable(n: TableName)

  const ClearGalleryStatements: seq<GalleryStatement> := [
    ForeignKeyChecks(false), TruncateTable(GalleryImages), TruncateTable(GalleryFolders), ForeignKeyChecks(true)
  ]

  /** A MySQL connection: the store and the session's `FOREIGN_KEY_CHECKS` setting. */
  datatype Connection = Connection(store: Store, foreignKeyChecks: bool)

  /** `gallery_folders` is the table a foreign key (`gallery_images.folder_id`) points at. */
  predicate Referenced(n: TableName) {
    n == GalleryFolders
  }

  /** `TRUNCATE TABLE n`: the table is emptied and its key counter restarts. */
  function TruncateIn(s: Store, n: TableName): (r: Store)
    ensures Count(r, n) == 0 && NextId(r, n) == 1
    ensures SameExcept(s, r, {n})
    ensures Valid(s) ==> Valid(r)
  {
    EmptyWellFormed<AdminUser>(s.clock);
    EmptyWellFormed<Folder>(s.clock);
    EmptyWellFormed<Image>(s.clock);
    EmptyWellFormed<PressRelease>(s.clock);
    EmptyWellFormed<Client>(s.clock);
    EmptyWellFormed<Activity>(s.clock);
    EmptyWellFormed<CsrConnect>(s.clock);
    EmptyWellFormed<Volunteer>(s.clock);
    EmptyWellFormed<Pillar>(s.clock);
    match n
    case AdminUsers => s.(admins := Truncate(s.admins))
    case GalleryFolders => s.(folders := Truncate(s.folders))
    case GalleryImages => s.(images := Truncate(s.images))
    case PressReleases => s.(press := Truncate(s.press))
    case Clientele => s.(clientele := Truncate(s.clientele))
    case Activities => s.(activities := Truncate(s.activities))
    case CsrConnects => s.(csr := Truncate(s.csr))
    case Volunteers => s.(volunteers := Truncate(s.volunteers))
    case Pillars => s.(pillars := Truncate(s.pillars))
  }

  /**
   * One statement. MySQL refuses to truncate a table that a foreign key
   * references while checks are on; a table in `failing` refuses for any
   * other reason. A refused statement is logged and changes nothing.
   */
  function Exec(c: Connection, st: GalleryStatement, failing: set<TableName>): (r: Connection)
    ensures st.ForeignKeyChecks? ==> r == c.(foreignKeyChecks := st.on)
    ensures st.TruncateTable? ==> r.foreignKeyChecks == c.foreignKeyChecks
    ensures st.TruncateTable? && (st.n in failing || (c.foreignKeyChecks && Referenced(st.n))) ==> r == c
    ensures st.TruncateTable? && st.n !in failing && !(c.foreignKeyChecks && Referenced(st.n)) ==>
      r.store == TruncateIn(c.store, st.n)
  {
    match st
    case ForeignKeyChecks(on) => c.(foreignKeyChecks := on)
    case TruncateTable(n) =>
      if n in failing || (c.foreignKeyChecks && Referenced(n)) then c
      else c.(store := TruncateIn(c.store, n))
  }

  /** Each statement runs in its predecessor's callback, whatever that one's outcome. */
  function ExecAll(c: Connection, sts: seq<GalleryStatement>, failing: set<TableName>): (r: Connection)
    decreases |sts|
  {
    if sts == [] then c else ExecAll(Exec(c, sts[0], failing), sts[1..], failing)
  }

  /**
   * `clear_gallery.js`: exit 1 without a change when the connection fails;
   * otherwise both gallery tables are emptied (each unless its own truncate
   * fails), checks end up on again, and the exit code is 0.
   */
  function ClearGallery(s: Store, connected: bool, failing: set<TableName>): (r: (Store, int))
    ensures !connected ==> r == (s, 1)
    ensures connected ==> r.1 == 0 && SameExcept(s, r.0, {GalleryImages, GalleryFolders})
    ensures connected && GalleryImages !in failing ==> r.0.images == Empty()
    ensures connected && GalleryFolders !in failing ==> r.0.folders == Empty()
    ensures connected && GalleryImages in failing ==> r.0.images == s.images
    ensures connected && GalleryFolders in failing ==> r.0.folders == s.folders
    ensures Valid(s) ==> Valid(r.0)
  {
    if !connected then (s, 1)
    else
      var c := ExecAll(Connection(s, true), ClearGalleryStatements, failing);
      (c.store, 0)
  }

  /** Checks are on again when the script ends. */
  lemma ClearGalleryRestoresChecks(s: Store, failing: set<TableName>)
    ensures ExecAll(Connection(s, true), ClearGalleryStatements, failing).foreignKeyChecks
  {
  }

  /** Without switching the checks off, the folders truncate would always be refused. */
  lemma ChecksOnBlockFolders(s: Store, failing: set<TableName>)
    ensures ExecAll(Connection(s, true), [TruncateTable(GalleryImages), TruncateTable(GalleryFolders)], failing).store.folders == s.folders
  {
    var sts := [TruncateTable(GalleryImages), TruncateTable(GalleryFolders)];
    var c1 := Exec(Connection(s, true), sts[0], failing);
    assert c1.store.folders == s.folders && c1.foreignKeyChecks;
    assert sts[1..][1..] == [];
  }
}

=== FILE: node_api.dfy ===
/**
 * The request handlers of the Node server (server/server.js) that hold a
 * rule: the login lookup, the image filter, the delete routes and the
 * `UPDATE ... SET ... WHERE id = ?` statements the five PUT routes build.
 * Request bodies and route parameters arrive as text; a text parameter
 * compared with an INTEGER column matches when it reads as that number.
 */
module NodeApi {
  import opened Common
  import opened Text
  import opened Tables
  import opened Schema
  import opened Queries
  import Db

  // ---------------------------------------------------------------------------
  // Login

  /** `row.role || 'admin'`: an empty role reads as false and falls back to 'admin'. */
  function RoleOrAdmin(role: string): (r: string)
    ensures r != ""
    ensures role != "" ==> r == role
    ensures role == "" ==> r == "admin"
  {
    if role == "" then "admin" else role
  }

  /**
   * `POST /api/auth/login`: `db.get` with both columns as conditions; the
   * first matching row in storage order answers. `dbOk` is false when the
   * query throws.
   */
  function Login(s: Store, email: string, password: string, dbOk: bool): (r: LoginReply)
    ensures r.ServerError? <==> !dbOk
    ensures dbOk ==> (r.Unauthorized? <==> forall x :: x in s.admins.rows ==> !Matches(x.data, email, password))
    ensures r.LoggedIn? ==> exists x :: (x in s.admins.rows && Matches(x.data, email, password)
      && r == LoggedIn(x.data.email, x.id, RoleOrAdmin(x.data.role)))
    ensures r.LoggedIn? ==> r.email == email && r.role != ""
  {
    if !dbOk then ServerError
    else
      var m := Matching(s.admins, email, password);
      if |m| == 0 then Unauthorized
      else
        assert m[0] in m;
        LoggedIn(m[0].data.email, m[0].id, RoleOrAdmin(m[0].data.role))
  }

  /** With unique emails the login answer names the one matching row. */
  lemma LoginNamesTheMatch(s: Store, email: string, password: string, x: Rec<AdminUser>)
    requires Valid(s)
    requires x in s.admins.rows && Matches(x.data, email, password)
    ensures Login(s, email, password, true) == LoggedIn(email, x.id, RoleOrAdmin(x.data.role))
  {
    var r := Login(s, email, password, true);
    var y :| y in s.admins.rows && Matches(y.data, email, password)
      && r == LoggedIn(y.data.email, y.id, RoleOrAdmin(y.data.role));
    SameEmailSameRow(s.admins, x, y);
  }

  // ---------------------------------------------------------------------------
  // Images

  /** `folder_id = ?` with a text parameter against the INTEGER column. */
  predicate InFolder(x: Image, key: string) {
    var k := DecimalKey(key);
    k.Some? && k.value == x.folderId
  }

  /** `GET /api/images[?folderId=...]`, newest first. */
  function GetImages(s: Store, folderId: Option<string>): (r: seq<Rec<Image>>)
    ensures Truthy(folderId) ==> forall x :: x in r <==> x in s.images.rows && InFolder(x.data, folderId.value)
    ensures !Truthy(folderId) ==> forall x :: x in r <==> x in s.images.rows
    ensures !Truthy(folderId) ==> multiset(r) == multiset(s.images.rows)
    ensures Truthy(folderId) ==> forall x ::
      multiset(r)[x] == if InFolder(x.data, folderId.value) then multiset(s.images.rows)[x] else 0
    ensures Ordered(s.images.rows) ==> forall i, j :: 0 <= i < j < |r| ==> r[i].created >= r[j].created
  {
    if Truthy(folderId) then ImagesWhere(s, (x: Image) => InFolder(x, folderId.value))
    else
      SelectAll(s.images.rows, (x: Image) => true);
      ImagesWhere(s, (x: Image) => true)
  }

  /** Asking for a folder by its rendered key lists exactly that folder's images, folder 0 included. */
  lemma GetImagesOfFolder(s: Store, f: nat)
    ensures forall x :: x in GetImages(s, Some(NatToString(f))) <==> x in s.images.rows && x.data.folderId == f
  {
    DecimalKeyNatToString(f);
  }

  // ---------------------------------------------------------------------------
  // Deletes

  /** The JSON body a handler answers with. */
  datatype Reply = Deleted | Failed

  /**
   * `DELETE /api/<table>/:id`: the statement runs whatever the key, and the
   * answer is 'Deleted' whether or not a row went; only a thrown query
   * (`dbOk` false) answers 500, and then nothing changed.
   */
  function Delete(s: Store, n: TableName, id: string, cascade: bool, dbOk: bool): (r: (Store, Reply))
    ensures r.1 == Deleted <==> dbOk
    ensures !dbOk ==> r.0 == s
    ensures SameExcept(s, r.0, {n, GalleryImages})
    ensures forall k :: HasKey(r.0, n, k) <==> HasKey(s, n, k) && !(dbOk && DecimalKey(id) == Some(k))
    ensures dbOk && DecimalKey(id).None? ==> r.0 == s
    ensures dbOk && DecimalKey(id).Some? ==> RemovesOnly(s, r.0, n, DecimalKey(id).value)
    ensures n != GalleryImages && !(n == GalleryFolders && cascade) ==> r.0.images == s.images
    ensures Valid(s) ==> Valid(r.0)
  {
    if !dbOk then (s, Failed)
    else
      match DecimalKey(id)
      case None => (s, Deleted)
      case Some(k) => (DeleteRow(s, n, k, cascade), Deleted)
  }

  // ---------------------------------------------------------------------------
  // The PUT statement builder

  /** An SQL statement with its positional parameters. */
  datatype Statement = Statement(sql: string, params: seq<Db.Param>)

  /** The assignment list `c1 = ?, c2 = ?, ...` of an UPDATE. */
  function SetList(cols: seq<string>): (r: string)
  {
    if |cols| == 0 then ""
    else if |cols| == 1 then cols[0] + " = ?"
    else SetList(cols[..|cols| - 1]) + ", " + cols[|cols| - 1] + " = ?"
  }

  /** `UPDATE <table> SET c1 = ?, c2 = ?, ...`: the fixed part a PUT route starts from. */
  function UpdatePrefix(table: string, cols: seq<string>): (r: string)
  {
    "UPDATE " + table + " SET " + SetList(cols)
  }

  /** The statement that sets `cols` of the row with a given key. */
  function UpdateById(table: string, cols: seq<string>): (r: string)
  {
    UpdatePrefix(table, cols) + " WHERE id = ?"
  }

  /** A name usable as a table or column: no placeholder inside. */
  predicate PlainNames(cols: seq<string>) {
    forall k :: 0 <= k < |cols| ==> '?' !in cols[k]
  }

  /** Each assignment holds one placeholder. */
  lemma {:induction false} SetListPlaceholders(cols: seq<string>)
    requires PlainNames(cols)
    ensures CountChar(SetList(cols), '?') == |cols|
    decreases |cols|
  {
    if |cols| == 1 {
      CountCharAbsent(cols[0], '?');
      CountCharAppend(cols[0], " = ?", '?');
    } else if |cols| > 1 {
      var init := cols[..|cols| - 1];
      var c := cols[|cols| - 1];
      assert PlainNames(init) by {
        forall k | 0 <= k < |init|
          ensures '?' !in init[k]
        {
          assert init[k] == cols[k];
        }
      }
      SetListPlaceholders(init);
      CountCharAbsent(c, '?');
      CountCharAppend(SetList(init), ", ", '?');
      CountCharAppend(SetList(init) + ", ", c, '?');
      CountCharAppend(SetList(init) + ", " + c, " = ?", '?');
    }
  }

  /** The fixed words of an UPDATE: only `WHERE id = ?` holds a placeholder. */
  lemma KeywordPlaceholders()
    ensures CountChar("UPDATE ", '?') == 0 && CountChar(" SET ", '?') == 0
    ensures CountChar(" WHERE id = ?", '?') == 1
  {
    UpdateWordPlain();
    SetWordPlain();
    WhereIdPlaceholder();
  }

  lemma UpdateWordPlain()
    ensures CountChar("UPDATE ", '?') == 0
  {
  }

  lemma SetWordPlain()
    ensures CountChar(" SET ", '?') == 0
  {
  }

  lemma WhereIdPlaceholder()
    ensures CountChar(" WHERE id = ?", '?') == 1
  {
  }

  /** An UPDATE by key holds one placeholder per column plus one for the key. */
  lemma UpdateByIdPlaceholders(table: string, cols: seq<string>)
    requires '?' !in table && PlainNames(cols)
    ensures CountChar(UpdateById(table, cols), '?') == |cols| + 1
  {
    SetListPlaceholders(cols);
    CountCharAbsent(table, '?');
    KeywordPlaceholders();
    CountCharAppend("UPDATE ", table, '?');
    CountCharAppend("UPDATE " + table, " SET ", '?');
    CountCharAppend("UPDATE " + table + " SET ", SetList(cols), '?');
    CountCharAppend("UPDATE " + table + " SET " + SetList(cols), " WHERE id = ?", '?');
  }

  /** Appending a column to a non-empty list appends its assignment. */
  lemma SetListSnoc(cols: seq<string>, c: string)
    requires |cols| > 0
    ensures SetList(cols + [c]) == SetList(cols) + ", " + c + " = ?"
  {
    var all := cols + [c];
    assert all[..|all| - 1] == cols;
    assert all[|all| - 1] == c;
  }

  /** The optional file assignment adds one placeholder and `WHERE id = ?` another. */
  lemma PlaceholderSuffix(base: string, column: string, file: bool)
    requires '?' !in column
    ensures CountChar((if file then base + ", " + column + " = ?" else base) + " WHERE id = ?", '?')
      == CountChar(base, '?') + (if file then 2 else 1)
  {
    var sql := if file then base + ", " + column + " = ?" else base;
    CountCharAppend(sql, " WHERE id = ?", '?');
    WhereIdPlaceholder();
    if file {
      CountCharAbsent(column, '?');
      CountCharAppend(base, ", ", '?');
      CountCharAppend(base + ", ", column, '?');
      CountCharAppend(base + ", " + column, " = ?", '?');
      CommaPlain();
      AssignPlaceholder();
    }
  }

  lemma CommaPlain()
    ensures CountChar(", ", '?') == 0
  {
  }

  lemma AssignPlaceholder()
    ensures CountChar(" = ?", '?') == 1
  {
  }

  /**
   * What every PUT route does to build its statement: start from the fixed
   * assignments and their parameters, add `, <column> = ?` and the uploaded
   * file's path when a file came with the request, then `WHERE id = ?` and
   * the route's id.
   */
  function BuildPut(base: string, fields: seq<Db.Param>, column: string, file: Option<string>, id: string)
    : (r: Statement)
    ensures StartsWith(r.sql, base) && EndsWith(r.sql, " WHERE id = ?")
    ensures |r.params| == |fields| + (if file.Some? then 2 else 1)
    ensures r.params[..|fields|] == fields && r.params[|r.params| - 1] == Db.StrParam(id)
    ensures file.Some? ==> r.params[|fields|] == Db.StrParam(file.value)
    ensures '?' !in column ==> CountChar(r.sql, '?') + |fields| == CountChar(base, '?') + |r.params|
  {
    var sql := if file.Some? then base + ", " + column + " = ?" else base;
    var params := if file.Some? then fields + [Db.StrParam(file.value)] else fields;
    var r := Statement(sql + " WHERE id = ?", params + [Db.StrParam(id)]);
    assert r.sql[..|base|] == base;
    assert r.params[..|fields|] == fields;
    assert '?' !in column ==> CountChar(r.sql, '?') + |fields| == CountChar(base, '?') + |r.params| by {
      if '?' !in column {
        PlaceholderSuffix(base, column, file.Some?);
      }
    }
    r
  }

  /** The column a route's upload lands in, when there is an upload. */
  function FileColumn(file: Option<string>, column: string): (r: seq<string>)
    ensures |r| == if file.Some? then 1 else 0
  {
    if file.Some? then [column] else []
  }

  function FileParam(file: Option<string>): (r: seq<Db.Param>)
    ensures |r| == if file.Some? then 1 else 0
  {
    if file.Some? then [Db.StrParam(file.value)] else []
  }

  /** Shared proof of the five routes: the built statement is the UPDATE of `cols` (plus the file column) by key. */
  lemma BuildPutIsUpdate(table: string, cols: seq<string>, fields: seq<Db.Param>, column: string,
                         file: Option<string>, id: string)
    requires |cols| > 0 && |cols| == |fields|
    requires '?' !in table && PlainNames(cols) && '?' !in column
    ensures var r := BuildPut(UpdatePrefix(table, cols), fields, column, file, id);
      && r.sql == UpdateById(table, cols + FileColumn(file, column))
      && r.params == fields + FileParam(file) + [Db.StrParam(id)]
      && CountChar(r.sql, '?') == |r.params|
  {
    var all := cols + FileColumn(file, column);
    var r := BuildPut(UpdatePrefix(table, cols), fields, column, file, id);
    if file.Some? {
      SetListSnoc(cols, column);
      assert UpdatePrefix(table, all) == UpdatePrefix(table, cols) + ", " + column + " = ?";
      assert r.sql == UpdatePrefix(table, all) + " WHERE id = ?";
      assert r.params == fields + [Db.StrParam(file.value)] + [Db.StrParam(id)];
    } else {
      assert all == cols;
      assert r.sql == UpdatePrefix(table, all) + " WHERE id = ?";
      assert r.params == fields + [Db.StrParam(id)];
    }
    PlainNamesAppend(cols, FileColumn(file, column));
    UpdateByIdPlaceholders(table, all);
  }

  /** Adding names without a placeholder keeps a list of plain names plain. */
  lemma PlainNamesAppend(cols: seq<string>, more: seq<string>)
    requires PlainNames(cols) && PlainNames(more)
    ensures PlainNames(cols + more)
  {
    var all := cols + more;
    forall k | 0 <= k < |all|
      ensures '?' !in all[k]
    {
      if k < |cols| {
        assert all[k] == cols[k];
      } else {
        assert all[k] == more[k - |cols|];
      }
    }
  }

  function Str(s: string): Db.Param {
    Db.StrParam(s)
  }

  /*
   * The five routes. Each fixed statement is written as its table and its
   * column list; `UpdatePrefix` spells them out as the route's literal
   * (`UPDATE pillars SET title = ?, description = ?, icon = ?` and so on).
   */

  /** `PUT /api/pillars/:id`. */
  function PillarPut(title: string, description: string, icon: string, file: Option<string>, id: string)
    : (r: Statement)
    ensures r.sql == UpdateById("pillars", ["title", "description", "icon"] + FileColumn(file, "image_url"))
    ensures r.params == [Str(title), Str(description), Str(icon)] + FileParam(file) + [Str(id)]
    ensures CountChar(r.sql, '?') == |r.params|
  {
    var cols := ["title", "description", "icon"];
    var fields := [Str(title), Str(description), Str(icon)];
    BuildPutIsUpdate("pillars", cols, fields, "image_url", file, id);
    BuildPut(UpdatePrefix("pillars", cols), fields, "image_url", file, id)
  }

  /** `PUT /api/press-releases/:id`. */
  function PressPut(title: string, date: string, content: string, file: Option<string>, id: string)
    : (r: Statement)
    ensures r.sql == UpdateById("press_releases", ["title", "date", "content"] + FileColumn(file, "image_url"))
    ensures r.params == [Str(title), Str(date), Str(content)] + FileParam(file) + [Str(id)]
    ensures CountChar(r.sql, '?') == |r.params|
  {
    var cols := ["title", "date", "content"];
    var fields := [Str(title), Str(date), Str(content)];
    BuildPutIsUpdate("press_releases", cols, fields, "image_url", file, id);
    BuildPut(UpdatePrefix("press_releases", cols), fields, "image_url", file, id)
  }

  /** `PUT /api/clientele/:id`. */
  function ClientPut(name: string, description: string, file: Option<string>, id: string)
    : (r: Statement)
    ensures r.sql == UpdateById("clientele", ["name", "description"] + FileColumn(file, "logo_url"))
    ensures r.params == [Str(name), Str(description)] + FileParam(file) + [Str(id)]
    ensures CountChar(r.sql, '?') == |r.params|
  {
    var cols := ["name", "description"];
    var fields := [Str(name), Str(description)];
    BuildPutIsUpdate("clientele", cols, fields, "logo_url", file, id);
    BuildPut(UpdatePrefix("clientele", cols), fields, "logo_url", file, id)
  }

  /** `PUT /api/activities/:id`. */
  function ActivityPut(title: string, date: string, location: string, description: string,
                       file: Option<string>, id: string)
    : (r: Statement)
    ensures r.sql == UpdateById("activities", ["title", "date", "location", "description"] + FileColumn(file, "image_url"))
    ensures r.params == [Str(title), Str(date), Str(location), Str(description)] + FileParam(file) + [Str(id)]
    ensures CountChar(r.sql, '?') == |r.params|
  {
    var cols := ["title", "date", "location", "description"];
    var fields := [Str(title), Str(date), Str(location), Str(description)];
    BuildPutIsUpdate("activities", cols, fields, "image_url", file, id);
    BuildPut(UpdatePrefix("activities", cols), fields, "image_url", file, id)
  }

  /** `PUT /api/csr-connects/:id`. */
  function CsrPut(companyName: string, description: string, websiteUrl: string, file: Option<string>, id: string)
    : (r: Statement)
    ensures r.sql == UpdateById("csr_connects", ["company_name", "description", "website_url"] + FileColumn(file, "logo_url"))
    ensures r.params == [Str(companyName), Str(description), Str(websiteUrl)] + FileParam(file) + [Str(id)]
    ensures CountChar(r.sql, '?') == |r.params|
  {
    var cols := ["company_name", "description", "website_url"];
    var fields := [Str(companyName), Str(description), Str(websiteUrl)];
    BuildPutIsUpdate("csr_connects", cols, fields, "logo_url", file, id);
    BuildPut(UpdatePrefix("csr_connects", cols), fields, "logo_url", file, id)
  }
}

=== FILE: py_api.dfy ===
/**
 * The request handlers of the Python server (app/main.py) that hold a
 * rule: the CORS origin list, the login lookup, the image filter, the
 * delete and update routes with their 404 answers, and the catch-all route
 * that serves the front end. Route parameters arrive already converted to
 * integers; an uploaded file is the URL the image host returned for it.
 */
module PyApi {
  import opened Common
  import opened Text
  import opened Tables
  import opened Schema
  import opened Queries
  import NodeApi

  // ---------------------------------------------------------------------------
  // CORS

  /**
   * `ALLOWED_ORIGINS`, default '*': '*' allows every origin; anything else
   * is a comma-separated list whose entries are stripped of surrounding
   * white space.
   */
  function AllowedOrigins(env: Option<string>): (r: seq<string>)
    ensures env.GetOr("*") == "*" ==> r == ["*"]
    ensures env.GetOr("*") != "*" ==>
      |r| == |Split(env.GetOr("*"), ',')| == CountChar(env.GetOr("*"), ',') + 1
      && forall k :: 0 <= k < |r| ==> r[k] == Strip(Split(env.GetOr("*"), ',')[k])
  {
    var v := env.GetOr("*");
    if v == "*" then ["*"]
    else
      var parts := Split(v, ',');
      SplitCount(v, ',');
      seq(|parts|, k requires 0 <= k < |parts| => Strip(parts[k]))
  }

  /** A clean origin: no comma inside and nothing to strip. */
  predicate CleanOrigin(o: string) {
    ',' !in o && (|o| > 0 ==> !IsSpace(o[0]) && !IsSpace(o[|o| - 1]))
  }

  /** Writing a list of clean origins joined by commas configures exactly that list. */
  lemma AllowedOriginsJoin(origins: seq<string>)
    requires |origins| >= 1
    requires forall k :: 0 <= k < |origins| ==> CleanOrigin(origins[k])
    ensures AllowedOrigins(Some(Join(origins, [',']))) == origins
  {
    var v := Join(origins, [',']);
    SplitJoin(origins, ',');
    if v == "*" {
      SplitAbsent(v, ',');
      assert origins == ["*"];
    } else {
      var r := AllowedOrigins(Some(v));
      forall k | 0 <= k < |origins|
        ensures r[k] == origins[k]
      {
        StripNoop(origins[k]);
      }
    }
  }

  /** A string without the separator splits into itself alone. */
  lemma SplitAbsent(s: string, c: char)
    requires c !in s
    ensures Split(s, c) == [s]
  {
  }

  // ---------------------------------------------------------------------------
  // Login

  /**
   * `POST /api/auth/login`: `scalar_one_or_none` over the rows matching both
   * columns. No row answers 401; one row answers its email, key and role as
   * stored; more than one raises, which answers 500.
   */
  function Login(s: Store, email: string, password: string): (r: LoginReply)
    ensures r.Unauthorized? <==> forall x :: x in s.admins.rows ==> !Matches(x.data, email, password)
    ensures r.ServerError? <==> |Matching(s.admins, email, password)| > 1
    ensures r.LoggedIn? ==> exists x :: (x in s.admins.rows && Matches(x.data, email, password)
      && r == LoggedIn(x.data.email, x.id, x.data.role))
  {
    var m := Matching(s.admins, email, password);
    if |m| == 0 then Unauthorized
    else
      assert m[0] in m;
      if |m| > 1 then ServerError
      else LoggedIn(m[0].data.email, m[0].id, m[0].data.role)
  }

  /** On a database that keeps its invariants the Python login never fails with 500. */
  lemma LoginNeverAmbiguous(s: Store, email: string, password: string)
    requires Valid(s)
    ensures !Login(s, email, password).ServerError?
  {
    AtMostOneMatch(s.admins, email, password);
  }

  /**
   * The two servers agree on who may log in and which row answers; they
   * differ only in that Node reports an empty role as 'admin'.
   */
  lemma LoginsAgree(s: Store, email: string, password: string)
    requires Valid(s)
    ensures var py := Login(s, email, password);
      var node := NodeApi.Login(s, email, password, true);
      && (py.Unauthorized? <==> node.Unauthorized?)
      && (py.LoggedIn? ==> node == LoggedIn(py.email, py.id, NodeApi.RoleOrAdmin(py.role)))
  {
    var py := Login(s, email, password);
    LoginNeverAmbiguous(s, email, password);
    if py.LoggedIn? {
      var x :| x in s.admins.rows && Matches(x.data, email, password)
        && py == LoggedIn(x.data.email, x.id, x.data.role);
      NodeApi.LoginNamesTheMatch(s, email, password, x);
    }
  }

  // ---------------------------------------------------------------------------
  // Images

  /** `GET /api/images[?folderId=n]`: the filter applies only when `n` is truthy, that is non-zero. */
  function GetImages(s: Store, folderId: Option<int>): (r: seq<Rec<Image>>)
    ensures folderId.Some? && folderId.value != 0 ==>
      forall x :: x in r <==> x in s.images.rows && x.data.folderId == folderId.value
    ensures folderId.None? || folderId.value == 0 ==> forall x :: x in r <==> x in s.images.rows
    ensures folderId.None? || folderId.value == 0 ==> multiset(r) == multiset(s.images.rows)
    ensures folderId.Some? && folderId.value != 0 ==> forall x ::
      multiset(r)[x] == if x.data.folderId == folderId.value then multiset(s.images.rows)[x] else 0
    ensures Ordered(s.images.rows) ==> forall i, j :: 0 <= i < j < |r| ==> r[i].created >= r[j].created
  {
    if folderId.Some? && folderId.value != 0 then ImagesWhere(s, (x: Image) => x.folderId == folderId.value)
    else
      SelectAll(s.images.rows, (x: Image) => true);
      ImagesWhere(s, (x: Image) => true)
  }

  /**
   * Folder 0: the Python server lists every image while the Node server,
   * reading the query string '0' as true, lists only the images of folder 0.
   */
  lemma FolderZeroDiffers(s: Store)
    ensures forall x :: x in GetImages(s, Some(0)) <==> x in s.images.rows
    ensures forall x :: x in NodeApi.GetImages(s, Some("0")) <==> x in s.images.rows && x.data.folderId == 0
  {
    NodeApi.GetImagesOfFolder(s, 0);
    assert NatToString(0) == "0";
  }

  /** For any other folder the two servers list the same images. */
  lemma GetImagesAgree(s: Store, f: nat)
    requires f != 0
    ensures forall x :: x in GetImages(s, Some(f)) <==> x in NodeApi.GetImages(s, Some(NatToString(f)))
  {
    NodeApi.GetImagesOfFolder(s, f);
  }

  // ---------------------------------------------------------------------------
  // Deletes

  /** The status of an `HTTPException` for a missing row. */
  const NotFound := 404

  /**
   * `DELETE /api/<table>/{id}`: look the row up first; a missing key answers
   * 404 and changes nothing, otherwise the row is deleted and committed.
   */
  function Delete(s: Store, n: TableName, id: int, cascade: bool): (r: Result<Store, int>)
    ensures r.Err? <==> !HasKey(s, n, id)
    ensures r.Err? ==> r.error == NotFound
    ensures r.Ok? ==> SameExcept(s, r.value, {n, GalleryImages})
    ensures r.Ok? ==> forall k :: HasKey(r.value, n, k) <==> HasKey(s, n, k) && k != id
    ensures r.Ok? ==> RemovesOnly(s, r.value, n, id)
    ensures r.Ok? && n != GalleryImages && !(n == GalleryFolders && cascade) ==> r.value.images == s.images
    ensures r.Ok? && Valid(s) ==> Valid(r.value)
  {
    if !HasKey(s, n, id) then Err(NotFound) else Ok(DeleteRow(s, n, id, cascade))
  }

  /**
   * Both servers leave the same database behind; they differ in the answer
   * for a missing key, which Node reports as deleted.
   */
  lemma DeletesAgree(s: Store, n: TableName, id: nat, cascade: bool)
    ensures var node := NodeApi.Delete(s, n, NatToString(id), cascade, true);
      && node.1 == NodeApi.Deleted
      && node.0 == (match Delete(s, n, id, cascade) case Ok(s') => s' case Err(_) => s)
  {
    DecimalKeyNatToString(id);
  }

  // ---------------------------------------------------------------------------
  // Updates

  /** A new upload replaces the stored URL; without one the URL stays. */
  function NewUrl(upload: Option<string>, stored: string): (r: string)
    ensures upload.Some? ==> r == upload.value
    ensures upload.None? ==> r == stored
  {
    upload.GetOr(stored)
  }

  /** `PUT /api/pillars/{id}`: 404 for a missing key, else the text fields are overwritten. */
  function UpdatePillar(s: Store, id: int, title: string, description: string, icon: string,
                        upload: Option<string>): (r: Result<Store, int>)
    ensures r.Err? <==> !HasId(s.pillars, id)
    ensures r.Err? ==> r.error == NotFound
    ensures r.Ok? ==> SameExcept(s, r.value, {Pillars}) && |r.value.pillars.rows| == |s.pillars.rows|
    ensures r.Ok? ==> forall i :: 0 <= i < |s.pillars.rows| ==>
      var (was, now) := (s.pillars.rows[i], r.value.pillars.rows[i]);
      now.id == was.id && now.created == was.created
      && (was.id == id ==> now.data == Pillar(title, description, NewUrl(upload, was.data.imageUrl), icon))
      && (was.id != id ==> now == was)
    ensures r.Ok? && Valid(s) ==> Valid(r.value)
  {
    if !HasId(s.pillars, id) then Err(NotFound)
    else Ok(s.(pillars := UpdateId(s.pillars, id,
      (p: Pillar) => Pillar(title, description, NewUrl(upload, p.imageUrl), icon))))
  }

  /** `PUT /api/press-releases/{id}`. */
  function UpdatePress(s: Store, id: int, title: string, date: string, content: string,
                       upload: Option<string>): (r: Result<Store, int>)
    ensures r.Err? <==> !HasId(s.press, id)
    ensures r.Err? ==> r.error == NotFound
    ensures r.Ok? ==> SameExcept(s, r.value, {PressReleases}) && |r.value.press.rows| == |s.press.rows|
    ensures r.Ok? ==> forall i :: 0 <= i < |s.press.rows| ==>
      var (was, now) := (s.press.rows[i], r.value.press.rows[i]);
      now.id == was.id && now.created == was.created
      && (was.id == id ==> now.data == PressRelease(title, date, content, NewUrl(upload, was.data.imageUrl)))
      && (was.id != id ==> now == was)
    ensures r.Ok? && Valid(s) ==> Valid(r.value)
  {
    if !HasId(s.press, id) then Err(NotFound)
    else Ok(s.(press := UpdateId(s.press, id,
      (p: PressRelease) => PressRelease(title, date, content, NewUrl(upload, p.imageUrl)))))
  }

  /** `PUT /api/clientele/{id}`; an omitted description is stored as NULL, here the empty string. */
  function UpdateClient(s: Store, id: int, name: string, description: Option<string>,
                        upload: Option<string>): (r: Result<Store, int>)
    ensures r.Err? <==> !HasId(s.clientele, id)
    ensures r.Err? ==> r.error == NotFound
    ensures r.Ok? ==> SameExcept(s, r.value, {Clientele}) && |r.value.clientele.rows| == |s.clientele.rows|
    ensures r.Ok? ==> forall i :: 0 <= i < |s.clientele.rows| ==>
      var (was, now) := (s.clientele.rows[i], r.value.clientele.rows[i]);
      now.id == was.id && now.created == was.created
      && (was.id == id ==> now.data == Client(name, description.GetOr(""), NewUrl(upload, was.data.logoUrl)))
      && (was.id != id ==> now == was)
    ensures r.Ok? && Valid(s) ==> Valid(r.value)
  {
    if !HasId(s.clientele, id) then Err(NotFound)
    else Ok(s.(clientele := UpdateId(s.clientele, id,
      (c: Client) => Client(name, description.GetOr(""), NewUrl(upload, c.logoUrl)))))
  }

  /** `PUT /api/activities/{id}`. */
  function UpdateActivity(s: Store, id: int, title: string, date: string, location: string,
                          description: string, upload: Option<string>): (r: Result<Store, int>)
    ensures r.Err? <==> !HasId(s.activities, id)
    ensures r.Err? ==> r.error == NotFound
    ensures r.Ok? ==> SameExcept(s, r.value, {Activities}) && |r.value.activities.rows| == |s.activities.rows|
    ensures r.Ok? ==> forall i :: 0 <= i < |s.activities.rows| ==>
      var (was, now) := (s.activities.rows[i], r.value.activities.rows[i]);
      now.id == was.id && now.created == was.created
      && (was.id == id ==> now.data == Activity(title, date, location, description, NewUrl(upload, was.data.imageUrl)))
      && (was.id != id ==> now == was)
    ensures r.Ok? && Valid(s) ==> Valid(r.value)
  {
    if !HasId(s.activities, id) then Err(NotFound)
    else Ok(s.(activities := UpdateId(s.activities, id,
      (a: Activity) => Activity(title, date, location, description, NewUrl(upload, a.imageUrl)))))
  }

  /** `PUT /api/csr-connects/{id}`; an omitted website is stored as NULL, here the empty string. */
  function UpdateCsr(s: Store, id: int, companyName: string, description: string,
                     websiteUrl: Option<string>, upload: Option<string>): (r: Result<Store, int>)
    ensures r.Err? <==> !HasId(s.csr, id)
    ensures r.Err? ==> r.error == NotFound
    ensures r.Ok? ==> SameExcept(s, r.value, {CsrConnects}) && |r.value.csr.rows| == |s.csr.rows|
    ensures r.Ok? ==> forall i :: 0 <= i < |s.csr.rows| ==>
      var (was, now) := (s.csr.rows[i], r.value.csr.rows[i]);
      now.id == was.id && now.created == was.created
      && (was.id == id ==> now.data == CsrConnect(companyName, description, NewUrl(upload, was.data.logoUrl), websiteUrl.GetOr("")))
      && (was.id != id ==> now == was)
    ensures r.Ok? && Valid(s) ==> Valid(r.value)
  {
    if !HasId(s.csr, id) then Err(NotFound)
    else Ok(s.(csr := UpdateId(s.csr, id,
      (c: CsrConnect) => CsrConnect(companyName, description, NewUrl(upload, c.logoUrl), websiteUrl.GetOr("")))))
  }

  /** Sending the same pillar update twice leaves what sending it once left. */
  lemma {:induction false} UpdatePillarIdempotent(s: Store, id: int, title: string, description: string,
                                                  icon: string, upload: Option<string>)
    requires UpdatePillar(s, id, title, description, icon, upload).Ok?
    ensures var s1 := UpdatePillar(s, id, title, description, icon, upload).value;
      UpdatePillar(s1, id, title, description, icon, upload) == Ok(s1)
  {
    var s1 := UpdatePillar(s, id, title, description, icon, upload).value;
    var i :| 0 <= i < |s.pillars.rows| && s.pillars.rows[i].id == id;
    assert s1.pillars.rows[i].id == id;
    var s2 := UpdatePillar(s1, id, title, description, icon, upload).value;
    assert s2.pillars.rows == s1.pillars.rows;
  }

  // ---------------------------------------------------------------------------
  // The front end

  datatype Page = IndexHtml | NotFoundPage

  /**
   * `GET /{rest_of_path}`, registered only when the build directory exists:
   * API and upload paths are 404, everything else is index.html when that
   * file exists. Without the build directory no route answers, which is a
   * 404 as well.
   */
  function ServeFrontend(path: string, buildExists: bool, indexExists: bool): (r: Page)
    ensures r == IndexHtml <==>
      buildExists && indexExists && !StartsWith(path, "api/") && !StartsWith(path, "uploads/")
  {
    if !buildExists then NotFoundPage
    else if StartsWith(path, "api/") || StartsWith(path, "uploads/") then NotFoundPage
    else if indexExists then IndexHtml
    else NotFoundPage
  }

  /** An unknown API path is never answered with the application page. */
  lemma ApiPathsNeverServeIndex(rest: string, buildExists: bool, indexExists: bool)
    ensures ServeFrontend("api/" + rest, buildExists, indexExists) == NotFoundPage
  {
    assert StartsWith("api/" + rest, "api/");
  }
}

=== FILE: queries.dfy ===
/**
 * Database work that the Node and the Python servers share: the login
 * lookup, the folder listing with cover images, the image listing and the
 * delete by key. Both servers order by a timestamp; here that is the
 * insertion tick, and rows with equal ticks may come back in either order.
 */
module Queries {
  import opened Common
  import opened Tables
  import opened Schema

  // ---------------------------------------------------------------------------
  // Login

  /** `WHERE email = ? AND password_hash = ?`: passwords are stored and compared as plain text. */
  predicate Matches(u: AdminUser, email: string, password: string) {
    u.email == email && u.passwordHash == password
  }

  function Matching(t: Table<AdminUser>, email: string, password: string): (r: seq<Rec<AdminUser>>)
    ensures forall x :: x in r <==> x in t.rows && Matches(x.data, email, password)
  {
    Select(t.rows, (u: AdminUser) => Matches(u, email, password))
  }

  /** With unique emails, two rows with the same email are the same row. */
  lemma SameEmailSameRow(t: Table<AdminUser>, x: Rec<AdminUser>, y: Rec<AdminUser>)
    requires UniqueEmails(t)
    requires x in t.rows && y in t.rows && x.data.email == y.data.email
    ensures x == y
  {
    var p :| 0 <= p < |t.rows| && t.rows[p] == x;
    var q :| 0 <= q < |t.rows| && t.rows[q] == y;
    if p < q {
      assert false;
    } else if q < p {
      assert false;
    }
  }

  /** With unique emails, at most one row can match a login. */
  lemma AtMostOneMatch(t: Table<AdminUser>, email: string, password: string)
    requires UniqueEmails(t) && Ordered(t.rows)
    ensures |Matching(t, email, password)| <= 1
  {
    var m := Matching(t, email, password);
    if |m| >= 2 {
      SelectOrdered(t.rows, (u: AdminUser) => Matches(u, email, password));
      SameEmailSameRow(t, m[0], m[1]);
      assert false;
    }
  }

  /** The user object a successful login returns, or the reason it did not succeed. */
  datatype LoginReply =
    | LoggedIn(email: string, id: nat, role: string)
    | Unauthorized     // 401 Invalid Credentials
    | ServerError      // 500

  // ---------------------------------------------------------------------------
  // Folders and their covers

  /** Position `i` holds the first image of folder `folderId` in storage order. */
  predicate FirstOfFolder(rows: seq<Rec<Image>>, folderId: int, i: nat) {
    && i < |rows| && rows[i].data.folderId == folderId
    && forall j :: 0 <= j < i ==> rows[j].data.folderId != folderId
  }

  function FirstImageOf(rows: seq<Rec<Image>>, folderId: int): (r: Option<nat>)
    ensures r.Some? ==> FirstOfFolder(rows, folderId, r.value)
    ensures r.None? <==> forall j :: 0 <= j < |rows| ==> rows[j].data.folderId != folderId
  {
    if |rows| == 0 then None
    else if rows[0].data.folderId == folderId then Some(0)
    else
      match FirstImageOf(rows[1..], folderId)
      case None => None
      case Some(k) =>
        assert forall j :: 1 <= j < k + 1 ==> rows[j] == rows[1..][j - 1];
        Some(k + 1)
  }

  /**
   * `(SELECT image_url FROM gallery_images WHERE folder_id = f.id ORDER BY
   * created_at ASC LIMIT 1)`: the url of the folder's first stored image,
   * or none when the folder is empty.
   */
  function Cover(rows: seq<Rec<Image>>, folderId: int): (r: Option<string>)
    ensures r.None? <==> forall j :: 0 <= j < |rows| ==> rows[j].data.folderId != folderId
  {
    match FirstImageOf(rows, folderId)
    case None => None
    case Some(i) => Some(rows[i].data.imageUrl)
  }

  /** In a table kept in tick order, the cover comes from an image no later than any other of the folder. */
  lemma CoverIsEarliest(rows: seq<Rec<Image>>, folderId: int)
    requires Ordered(rows)
    requires Cover(rows, folderId).Some?
    ensures exists i :: (0 <= i < |rows| && rows[i].data.folderId == folderId
      && rows[i].data.imageUrl == Cover(rows, folderId).value
      && forall j :: 0 <= j < |rows| && rows[j].data.folderId == folderId ==> rows[i].created <= rows[j].created)
  {
    var i := FirstImageOf(rows, folderId).value;
    forall j | 0 <= j < |rows| && rows[j].data.folderId == folderId
      ensures rows[i].created <= rows[j].created
    {
      if j < i {
        assert false;
      }
    }
  }

  datatype FolderView = FolderView(folder: Rec<Folder>, coverImage: Option<string>)

  /** `GET /api/folders`: every folder, newest first, each with its cover image. */
  function FolderListing(s: Store): (r: seq<FolderView>)
    ensures |r| == |s.folders.rows|
    ensures forall k :: 0 <= k < |r| ==> r[k].folder in s.folders.rows
    ensures forall x :: x in s.folders.rows ==> exists k :: 0 <= k < |r| && r[k].folder == x
    ensures forall k :: 0 <= k < |r| ==> r[k].coverImage == Cover(s.images.rows, r[k].folder.id)
    ensures Ordered(s.folders.rows) ==>
      forall i, j :: 0 <= i < j < |r| ==> r[i].folder.created >= r[j].folder.created
  {
    var fs := NewestFirst(s.folders.rows);
    var r := seq(|fs|, k requires 0 <= k < |fs| => FolderView(fs[k], Cover(s.images.rows, fs[k].id)));
    assert forall x :: x in s.folders.rows ==> exists k :: 0 <= k < |r| && r[k].folder == x by {
      forall x | x in s.folders.rows
        ensures exists k :: 0 <= k < |r| && r[k].folder == x
      {
        assert x in fs;
        var k :| 0 <= k < |fs| && fs[k] == x;
        assert r[k].folder == x;
      }
    }
    r
  }

  // ---------------------------------------------------------------------------
  // Images

  /** `SELECT * FROM gallery_images [WHERE ...] ORDER BY created_at DESC`. */
  function ImagesWhere(s: Store, keep: Image -> bool): (r: seq<Rec<Image>>)
    ensures forall x :: x in r <==> x in s.images.rows && keep(x.data)
    ensures multiset(r) == multiset(Select(s.images.rows, keep))
    ensures forall x :: multiset(r)[x] == if keep(x.data) then multiset(s.images.rows)[x] else 0
    ensures Ordered(s.images.rows) ==> forall i, j :: 0 <= i < j < |r| ==> r[i].created >= r[j].created
  {
    var sel := Select(s.images.rows, keep);
    NewestFirstPermutes(sel);
    SelectCounts(s.images.rows, keep);
    assert Ordered(s.images.rows) ==> Ordered(sel) by {
      if Ordered(s.images.rows) {
        SelectOrdered(s.images.rows, keep);
      }
    }
    NewestFirst(sel)
  }

  // ---------------------------------------------------------------------------
  // Delete by key

  /**
   * `DELETE FROM n WHERE id = ?`. `gallery_images.folder_id` is declared
   * `ON DELETE CASCADE`; `cascade` says whether the database enforces it
   * (MySQL does; SQLite only after `PRAGMA foreign_keys = ON`, which neither
   * server issues). The cascade fires only when a folder row really goes.
   */
  function DeleteRow(s: Store, n: TableName, key: int, cascade: bool): (r: Store)
    ensures SameExcept(s, r, {n, GalleryImages})
    ensures n != GalleryImages && !(n == GalleryFolders && cascade) ==> r.images == s.images
    ensures forall k :: HasKey(r, n, k) <==> HasKey(s, n, k) && k != key
    ensures RemovesOnly(s, r, n, key)
    ensures n == GalleryFolders && cascade && HasKey(s, n, key) ==>
      forall x :: x in r.images.rows <==> x in s.images.rows && x.data.folderId != key
    ensures !HasKey(s, n, key) ==> r == s
    ensures Valid(s) ==> Valid(r)
  {
    var s1 := DeleteKey(s, n, key);
    if n == GalleryFolders && cascade && HasKey(s, n, key) then
      s1.(images := DeleteWhere(s1.images, (x: Image) => x.folderId == key))
    else s1
  }

  /** Without an enforced cascade, the images of a deleted folder stay behind and point at no folder. */
  lemma DeleteFolderOrphans(s: Store, key: int, x: Rec<Image>)
    requires x in s.images.rows && x.data.folderId == key
    ensures x in DeleteRow(s, GalleryFolders, key, false).images.rows
    ensures !HasKey(DeleteRow(s, GalleryFolders, key, false), GalleryFolders, x.data.folderId)
  {
  }
}

=== FILE: schema.dfy ===
/**
 * The nine tables the server creates (server/server.js and app/models.py),
 * one entity datatype per table, and the whole database as one value.
 * Columns are modelled as strings; a NULL column is not distinguished from
 * the empty string.
 */
module Schema {
  import opened Common
  import opened Tables

  datatype AdminUser = AdminUser(email: string, passwordHash: string, role: string)
  datatype Folder = Folder(name: string, description: string)
  datatype Image = Image(folderId: int, imageUrl: string, description: string)
  datatype PressRelease = PressRelease(title: string, date: string, content: string, imageUrl: string)
  datatype Client = Client(name: string, description: string, logoUrl: string)
  datatype Activity = Activity(title: string, date: string, location: string, description: string, imageUrl: string)
  datatype CsrConnect = CsrConnect(companyName: string, description: string, logoUrl: string, websiteUrl: string)
  datatype Volunteer = Volunteer(name: string, email: string, phone: string, message: string)
  datatype Pillar = Pillar(title: string, description: string, imageUrl: string, icon: string)

  /** The value of `admin_users.role` when an insert does not name one. */
  const DefaultRole := "volunteer"

  datatype TableName =
    | AdminUsers | GalleryFolders | GalleryImages | PressReleases | Clientele
    | Activities | CsrConnects | Volunteers | Pillars

  /** The database: every table, and the current tick for `created_at`. */
  datatype Store = Store(
    admins: Table<AdminUser>,
    folders: Table<Folder>,
    images: Table<Image>,
    press: Table<PressRelease>,
    clientele: Table<Client>,
    activities: Table<Activity>,
    csr: Table<CsrConnect>,
    volunteers: Table<Volunteer>,
    pillars: Table<Pillar>,
    clock: nat)

  /** The database right after the `CREATE TABLE` statements ran on an empty file. */
  function Fresh(): (s: Store)
    ensures Valid(s)
    ensures forall n :: Count(s, n) == 0
  {
    Store(Empty(), Empty(), Empty(), Empty(), Empty(), Empty(), Empty(), Empty(), Empty(), 0)
  }

  /** `email` is declared UNIQUE on `admin_users`. */
  predicate UniqueEmails(t: Table<AdminUser>) {
    forall i, j :: 0 <= i < j < |t.rows| ==> t.rows[i].data.email != t.rows[j].data.email
  }

  /** Some admin row has this email. */
  predicate HasEmail(t: Table<AdminUser>, email: string) {
    exists i :: 0 <= i < |t.rows| && t.rows[i].data.email == email
  }

  /** Every table keeps its invariant and admin emails are unique. */
  predicate Valid(s: Store) {
    && WellFormed(s.admins, s.clock)
    && WellFormed(s.folders, s.clock)
    && WellFormed(s.images, s.clock)
    && WellFormed(s.press, s.clock)
    && WellFormed(s.clientele, s.clock)
    && WellFormed(s.activities, s.clock)
    && WellFormed(s.csr, s.clock)
    && WellFormed(s.volunteers, s.clock)
    && WellFormed(s.pillars, s.clock)
    && UniqueEmails(s.admins)
  }

  /** `SELECT count(*) FROM n`. */
  function Count(s: Store, n: TableName): nat
  {
    match n
    case AdminUsers => |s.admins.rows|
    case GalleryFolders => |s.folders.rows|
    case GalleryImages => |s.images.rows|
    case PressReleases => |s.press.rows|
    case Clientele => |s.clientele.rows|
    case Activities => |s.activities.rows|
    case CsrConnects => |s.csr.rows|
    case Volunteers => |s.volunteers.rows|
    case Pillars => |s.pillars.rows|
  }

  /** Only the tables in `names` may differ between `s` and `s'`; the clock does not move. */
  predicate SameExcept(s: Store, s': Store, names: set<TableName>) {
    && (AdminUsers !in names ==> s'.admins == s.admins)
    && (GalleryFolders !in names ==> s'.folders == s.folders)
    && (GalleryImages !in names ==> s'.images == s.images)
    && (PressReleases !in names ==> s'.press == s.press)
    && (Clientele !in names ==> s'.clientele == s.clientele)
    && (Activities !in names ==> s'.activities == s.activities)
    && (CsrConnects !in names ==> s'.csr == s.csr)
    && (Volunteers !in names ==> s'.volunteers == s.volunteers)
    && (Pillars !in names ==> s'.pillars == s.pillars)
    && s'.clock == s.clock
  }

  lemma SameExceptNothing(s: Store, s': Store)
    requires SameExcept(s, s', {})
    ensures s' == s
  {
  }

  /** Time passes between requests; nothing else changes. */
  function Tick(s: Store): (r: Store)
    ensures r.clock == s.clock + 1
    ensures Valid(s) ==> Valid(r)
  {
    s.(clock := s.clock + 1)
  }

  /** `DELETE FROM n`: the table is emptied and nothing else changes. */
  function Clear(s: Store, n: TableName): (r: Store)
    ensures Count(r, n) == 0
    ensures SameExcept(s, r, {n})
    ensures Valid(s) ==> Valid(r)
  {
    match n
    case AdminUsers => s.(admins := DeleteAll(s.admins))
    case GalleryFolders => s.(folders := DeleteAll(s.folders))
    case GalleryImages => s.(images := DeleteAll(s.images))
    case PressReleases => s.(press := DeleteAll(s.press))
    case Clientele => s.(clientele := DeleteAll(s.clientele))
    case Activities => s.(activities := DeleteAll(s.activities))
    case CsrConnects => s.(csr := DeleteAll(s.csr))
    case Volunteers => s.(volunteers := DeleteAll(s.volunteers))
    case Pillars => s.(pillars := DeleteAll(s.pillars))
  }

  /** Some row of table `n` has primary key `id`. */
  predicate HasKey(s: Store, n: TableName, id: int)
  {
    match n
    case AdminUsers => HasId(s.admins, id)
    case GalleryFolders => HasId(s.folders, id)
    case GalleryImages => HasId(s.images, id)
    case PressReleases => HasId(s.press, id)
    case Clientele => HasId(s.clientele, id)
    case Activities => HasId(s.activities, id)
    case CsrConnects => HasId(s.csr, id)
    case Volunteers => HasId(s.volunteers, id)
    case Pillars => HasId(s.pillars, id)
  }

  /**
   * Table `n` of `r` holds exactly the rows of table `n` of `s` whose key is
   * not `id`, each with its contents unchanged.
   */
  ghost predicate RemovesOnly(s: Store, r: Store, n: TableName, id: int)
  {
    match n
    case AdminUsers => forall x :: x in r.admins.rows <==> x in s.admins.rows && x.id != id
    case GalleryFolders => forall x :: x in r.folders.rows <==> x in s.folders.rows && x.id != id
    case GalleryImages => forall x :: x in r.images.rows <==> x in s.images.rows && x.id != id
    case PressReleases => forall x :: x in r.press.rows <==> x in s.press.rows && x.id != id
    case Clientele => forall x :: x in r.clientele.rows <==> x in s.clientele.rows && x.id != id
    case Activities => forall x :: x in r.activities.rows <==> x in s.activities.rows && x.id != id
    case CsrConnects => forall x :: x in r.csr.rows <==> x in s.csr.rows && x.id != id
    case Volunteers => forall x :: x in r.volunteers.rows <==> x in s.volunteers.rows && x.id != id
    case Pillars => forall x :: x in r.pillars.rows <==> x in s.pillars.rows && x.id != id
  }

  /** Keeping only some rows of an ordered table keeps the emails distinct. */
  lemma UniqueEmailsSub(t: Table<AdminUser>, r: Table<AdminUser>)
    requires UniqueEmails(t) && Ordered(r.rows)
    requires forall x :: x in r.rows ==> x in t.rows
    ensures UniqueEmails(r)
  {
    forall i, j | 0 <= i < j < |r.rows|
      ensures r.rows[i].data.email != r.rows[j].data.email
    {
      assert r.rows[i].id < r.rows[j].id;
      assert r.rows[i] in t.rows && r.rows[j] in t.rows;
      var p :| 0 <= p < |t.rows| && t.rows[p] == r.rows[i];
      var q :| 0 <= q < |t.rows| && t.rows[q] == r.rows[j];
      assert p != q;
    }
  }

  /** `DELETE FROM n WHERE id = ?`: exactly the row with that key goes, if there is one. */
  function DeleteKey(s: Store, n: TableName, id: int): (r: Store)
    ensures SameExcept(s, r, {n})
    ensures RemovesOnly(s, r, n, id)
    ensures !HasKey(r, n, id)
    ensures forall k :: k != id ==> (HasKey(r, n, k) <==> HasKey(s, n, k))
    ensures !HasKey(s, n, id) ==> r == s
    ensures Valid(s) ==> Valid(r)
  {
    match n
    case AdminUsers =>
      var t := DeleteId(s.admins, id);
      assert Valid(s) ==> UniqueEmails(t) by {
        if Valid(s) {
          UniqueEmailsSub(s.admins, t);
        }
      }
      s.(admins := t)
    case GalleryFolders => s.(folders := DeleteId(s.folders, id))
    case GalleryImages => s.(images := DeleteId(s.images, id))
    case PressReleases => s.(press := DeleteId(s.press, id))
    case Clientele => s.(clientele := DeleteId(s.clientele, id))
    case Activities => s.(activities := DeleteId(s.activities, id))
    case CsrConnects => s.(csr := DeleteId(s.csr, id))
    case Volunteers => s.(volunteers := DeleteId(s.volunteers, id))
    case Pillars => s.(pillars := DeleteId(s.pillars, id))
  }

  // ---------------------------------------------------------------------------
  // Rows of any table, for statements that insert

  datatype Row =
    | AdminRow(admin: AdminUser)
    | FolderRow(folder: Folder)
    | ImageRow(image: Image)
    | PressRow(press: PressRelease)
    | ClientRow(client: Client)
    | ActivityRow(activity: Activity)
    | CsrRow(csr: CsrConnect)
    | VolunteerRow(volunteer: Volunteer)
    | PillarRow(pillar: Pillar)

  function TableOf(row: Row): TableName
  {
    match row
    case AdminRow(_) => AdminUsers
    case FolderRow(_) => GalleryFolders
    case ImageRow(_) => GalleryImages
    case PressRow(_) => PressReleases
    case ClientRow(_) => Clientele
    case ActivityRow(_) => Activities
    case CsrRow(_) => CsrConnects
    case VolunteerRow(_) => Volunteers
    case PillarRow(_) => Pillars
  }

  /** The key the next insert into `n` receives. */
  function NextId(s: Store, n: TableName): nat
  {
    match n
    case AdminUsers => s.admins.nextId
    case GalleryFolders => s.folders.nextId
    case GalleryImages => s.images.nextId
    case PressReleases => s.press.nextId
    case Clientele => s.clientele.nextId
    case Activities => s.activities.nextId
    case CsrConnects => s.csr.nextId
    case Volunteers => s.volunteers.nextId
    case Pillars => s.pillars.nextId
  }

  /** Why a statement failed. */
  datatype DbError = Fault | UniqueViolation

  /**
   * `INSERT INTO <table of row> ...`: the row is appended with the table's
   * next key, which is returned as the statement's `lastID`. An admin row
   * whose email is already present violates the UNIQUE constraint.
   */
  function InsertRow(s: Store, row: Row): (r: Result<(Store, nat), DbError>)
    ensures r.Err? <==> row.AdminRow? && HasEmail(s.admins, row.admin.email)
    ensures r.Err? ==> r.error == UniqueViolation
    ensures r.Ok? ==> var (s', id) := r.value;
      && id == NextId(s, TableOf(row))
      && Count(s', TableOf(row)) == Count(s, TableOf(row)) + 1
      && NextId(s', TableOf(row)) == id + 1
      && SameExcept(s, s', {TableOf(row)})
      && (Valid(s) ==> Valid(s'))
  {
    if row.AdminRow? && HasEmail(s.admins, row.admin.email) then Err(UniqueViolation)
    else
      PutGrows(s, row);
      PutSameExcept(s, row);
      PutValid(s, row);
      Ok((Put(s, row), NextId(s, TableOf(row))))
  }

  /** The row appended to its own table, with no constraint checked. */
  function Put(s: Store, row: Row): Store
  {
    match row
    case AdminRow(a) => s.(admins := Insert(s.admins, a, s.clock))
    case FolderRow(f) => s.(folders := Insert(s.folders, f, s.clock))
    case ImageRow(i) => s.(images := Insert(s.images, i, s.clock))
    case PressRow(p) => s.(press := Insert(s.press, p, s.clock))
    case ClientRow(c) => s.(clientele := Insert(s.clientele, c, s.clock))
    case ActivityRow(a) => s.(activities := Insert(s.activities, a, s.clock))
    case CsrRow(c) => s.(csr := Insert(s.csr, c, s.clock))
    case VolunteerRow(v) => s.(volunteers := Insert(s.volunteers, v, s.clock))
    case PillarRow(p) => s.(pillars := Insert(s.pillars, p, s.clock))
  }

  /** Appending grows the row's table by one and advances its next key by one. */
  lemma PutGrows(s: Store, row: Row)
    ensures Count(Put(s, row), TableOf(row)) == Count(s, TableOf(row)) + 1
    ensures NextId(Put(s, row), TableOf(row)) == NextId(s, TableOf(row)) + 1
  {
  }

  lemma PutSameExcept(s: Store, row: Row)
    ensures SameExcept(s, Put(s, row), {TableOf(row)})
  {
  }

  /** Appending keeps a valid store valid, unless it would repeat an admin email. */
  lemma PutValid(s: Store, row: Row)
    requires !(row.AdminRow? && HasEmail(s.admins, row.admin.email))
    ensures Valid(s) ==> Valid(Put(s, row))
  {
    if row.AdminRow? {
      var t := Insert(s.admins, row.admin, s.clock);
      assert UniqueEmails(s.admins) ==> UniqueEmails(t) by {
        assert forall i :: 0 <= i < |s.admins.rows| ==> t.rows[i] == s.admins.rows[i];
      }
    }
  }

  // ---------------------------------------------------------------------------
  // Seed rows shared by the Node bootstrap (server/server.js) and the Python
  // startup hook (app/main.py)

  const DefaultPillars: seq<Pillar> := [
    Pillar("Education", "Unlocking potential through foundational learning and life skills.", "/pillar_education.jpg", "BookOpen"),
    Pillar("Support", "Providing encouragement, capacity-building, and presence for self-reliance.", "/pillar_nutrition.jpg", "HandHeart"),
    Pillar("Hope", "Planting seeds of transformation through acts of kindness.", "/pillar_livelihood.jpg", "Sun"),
    Pillar("Love", "Driven by compassion, respect, and empathy.", "/pillar_love.jpg", "Heart")
  ]

  const DefaultAdminEmail := "admin"
  const DefaultAdminPassword := "Aakritii@2025"
  const DefaultAdmin := AdminUser(DefaultAdminEmail, DefaultAdminPassword, "admin")

  const DefaultFolder := Folder("Community Events", "Highlights from our recent community outreach programs.")

  function DefaultImages(folderId: int): seq<Image> {
    [ Image(folderId, "/pillar_education.jpg", "Education Drive at Local School"),
      Image(folderId, "/pillar_nutrition.jpg", "Nutrition Support Program") ]
  }
}

=== FILE: scroll_spy.dfy ===
/**
 * The side navigation of `src/components/PageNavigation.jsx`: which section
 * is highlighted for a scroll offset, and where a click scrolls to. The page
 * layout is a map from element id to the element's offset and height;
 * ids without an element are absent from it.
 */
module ScrollSpy {
  import opened Common

  /** An element's `offsetTop` and `offsetHeight`. */
  datatype Element = Element(offsetTop: int, offsetHeight: int)

  /** `document.getElementById`. */
  type Layout = map<string, Element>

  /** A section starts counting as reached this many pixels before its top. */
  const TriggerOffset := 200

  /** The half-open window of scroll offsets in which a section is the one being read. */
  predicate InWindow(y: int, e: Element) {
    e.offsetTop - TriggerOffset <= y < e.offsetTop - TriggerOffset + e.offsetHeight
  }

  /** The section has an element and its window contains `y`. */
  predicate Hit(layout: Layout, id: string, y: int) {
    id in layout && InWindow(y, layout[id])
  }

  /** The position of the last section, in list order, whose window contains `y`. */
  function LastHit(ids: seq<string>, layout: Layout, y: int): (r: Option<nat>)
    ensures r.Some? ==> r.value < |ids| && Hit(layout, ids[r.value], y)
    ensures r.Some? ==> forall j :: r.value < j < |ids| ==> !Hit(layout, ids[j], y)
    ensures r.None? ==> forall j :: 0 <= j < |ids| ==> !Hit(layout, ids[j], y)
  {
    if |ids| == 0 then None
    else if Hit(layout, ids[|ids| - 1], y) then Some(|ids| - 1)
    else LastHit(ids[..|ids| - 1], layout, y)
  }

  /** The id to highlight: that last section's, or `''` when no window contains `y`. */
  function Active(ids: seq<string>, layout: Layout, y: int): string {
    match LastHit(ids, layout, y)
    case None => ""
    case Some(k) => ids[k]
  }

  /** `handleScroll`: every section is visited in order and each hit overwrites the answer. */
  method HandleScroll(ids: seq<string>, layout: Layout, y: int) returns (active: string)
    ensures active == Active(ids, layout, y)
  {
    active := "";
    var i := 0;
    while i < |ids|
      invariant 0 <= i <= |ids|
      invariant active == Active(ids[..i], layout, y)
    {
      assert ids[..i + 1][..i] == ids[..i];
      if ids[i] in layout {
        var e := layout[ids[i]];
        var top := e.offsetTop - TriggerOffset;
        var bottom := top + e.offsetHeight;
        if y >= top && y < bottom {
          active := ids[i];
        }
      }
      i := i + 1;
    }
    assert ids[..|ids|] == ids;
  }

  /** Two sections that follow each other without a gap never both claim an offset. */
  lemma AdjacentWindowsDisjoint(a: Element, b: Element, y: int)
    requires b.offsetTop == a.offsetTop + a.offsetHeight
    ensures !(InWindow(y, a) && InWindow(y, b))
  {
  }

  /** `scrollTo(id)`: the element's top, or no scroll when the page has no such element. */
  function ScrollTarget(layout: Layout, id: string): (r: Option<int>)
    ensures r.Some? <==> id in layout
    ensures r.Some? ==> r.value == layout[id].offsetTop
  {
    if id in layout then Some(layout[id].offsetTop) else None
  }

  /**
   * Scrolling to a section puts the offset inside its own window exactly
   * when the section is taller than the trigger offset.
   */
  lemma ScrollTargetInOwnWindow(layout: Layout, id: string)
    requires id in layout
    ensures Hit(layout, id, ScrollTarget(layout, id).value) <==> layout[id].offsetHeight > TriggerOffset
  {
  }
}

=== FILE: seeds.dfy ===
/**
 * The two content seed scripts. `server/seed_premium.js` fills each of four
 * content tables with sample rows only when that table is empty;
 * `server/seed_data.js` replaces the contents of five tables of an older
 * layout (impact figures, team, blog, events, testimonials) that the server
 * itself never creates.
 */
module Seeds {
  import opened Tables
  import opened Schema

  /** Insert `ds` in order when `t` has no rows; otherwise leave it alone. */
  function SeedIfEmpty<T>(t: Table<T>, ds: seq<T>, now: nat): (r: Table<T>)
    ensures |t.rows| == 0 ==> Datas(r.rows) == ds && r.nextId == t.nextId + |ds|
    ensures |t.rows| > 0 ==> r == t
    ensures WellFormed(t, now) ==> WellFormed(r, now)
  {
    if |t.rows| == 0 then
      var r := InsertAll(t, ds, now);
      assert r.rows[|t.rows|..] == r.rows;
      r
    else t
  }

  // ---------------------------------------------------------------------------
  // server/seed_premium.js

  const SamplePress: seq<PressRelease> := [
    PressRelease("Aakritii Awarded 'NGO of the Year' 2024", "2024-12-15",
      "We are humbled to receive the prestigious 'NGO of the Year' award for our relentless efforts in rural education and sustainable development. This recognition fuels our commitment to creating a better world.",
      "https://images.unsplash.com/photo-1531206715517-5c0ba140b2b8?auto=format&fit=crop&q=80&w=800"),
    PressRelease("Partnership with Global Tech Giant for Digital Literacy", "2024-11-20",
      "Aakritii has joined hands with a leading tech corporation to launch a digital literacy program aiming to empower 10,000 women in rural India by 2025.",
      "https://images.unsplash.com/photo-1573164713988-8665fc963095?auto=format&fit=crop&q=80&w=800"),
    PressRelease("Winter Relief Drive Success: 5000+ Families Reached", "2024-11-05",
      "Our annual winter relief drive was a massive success, providing warm clothing and essentials to over 5000 families across 3 states. Thank you to all our volunteers!",
      "https://images.unsplash.com/photo-1469571486292-0ba58a3f068b?auto=format&fit=crop&q=80&w=800")
  ]

  const SampleActivities: seq<Activity> := [
    Activity("Women Empowerment Workshop", "2025-01-10", "Varanasi, UP",
      "A 3-day workshop focused on skill development, financial literacy, and entrepreneurship for women in rural communities.",
      "https://images.unsplash.com/photo-1555529733-0e670560f7e1?auto=format&fit=crop&q=80&w=800"),
    Activity("Clean Water Initiative Launch", "2025-01-25", "Kutch, Gujarat",
      "Inaugurating 50 new solar-powered water filtration units to provide safe drinking water to drought-prone villages.",
      "https://images.unsplash.com/photo-1536093054148-5c4d0840b37e?auto=format&fit=crop&q=80&w=800"),
    Activity("Annual Education Fair", "2025-02-15", "New Delhi",
      "Connecting underprivileged students with scholarship opportunities and mentorship from industry leaders.",
      "https://images.unsplash.com/photo-1523580846011-d3a5bc25702b?auto=format&fit=crop&q=80&w=800")
  ]

  const SampleClients: seq<Client> := [
    Client("TechCorp", "Technology Partner", ""),
    Client("EduWorld", "Educational Resources", ""),
    Client("GreenEarth", "Sustainability Advisor", ""),
    Client("FinServe", "Financial Grants", "")
  ]

  /** The CSR partners; the script inserts them with an empty logo. */
  const SampleCsr: seq<CsrConnect> := [
    CsrConnect("Innovate Inc.", "Supporting our STEM education labs.", "", "https://example.com"),
    CsrConnect("Global Bank", "Sponsoring micro-finance initiatives for women entrepreneurs.", "", "https://example.com"),
    CsrConnect("HealthPlus", "Providing free medical camps twice a year.", "", "https://example.com")
  ]

  /** The tables the premium seed may write. */
  const PremiumTables: set<TableName> := {PressReleases, Activities, Clientele, CsrConnects}

  /** The premium seed over given sample rows. */
  function SeedPremiumWith(s: Store, press: seq<PressRelease>, activities: seq<Activity>,
                           clients: seq<Client>, csr: seq<CsrConnect>): (r: Store)
    ensures SameExcept(s, r, PremiumTables)
    ensures Count(s, PressReleases) == 0 ==> Datas(r.press.rows) == press
    ensures Count(s, PressReleases) > 0 ==> r.press == s.press
    ensures Count(s, Activities) == 0 ==> Datas(r.activities.rows) == activities
    ensures Count(s, Activities) > 0 ==> r.activities == s.activities
    ensures Count(s, Clientele) == 0 ==> Datas(r.clientele.rows) == clients
    ensures Count(s, Clientele) > 0 ==> r.clientele == s.clientele
    ensures Count(s, CsrConnects) == 0 ==> Datas(r.csr.rows) == csr
    ensures Count(s, CsrConnects) > 0 ==> r.csr == s.csr
    ensures Valid(s) ==> Valid(r)
  {
    s.(press := SeedIfEmpty(s.press, press, s.clock),
       activities := SeedIfEmpty(s.activities, activities, s.clock),
       clientele := SeedIfEmpty(s.clientele, clients, s.clock),
       csr := SeedIfEmpty(s.csr, csr, s.clock))
  }

  /**
   * `seed_premium.js`: four independent count checks, each followed by the
   * inserts for its own table only when that table was empty.
   */
  function SeedPremium(s: Store): (r: Store)
    ensures SameExcept(s, r, PremiumTables)
    ensures Count(s, PressReleases) == 0 ==> Datas(r.press.rows) == SamplePress
    ensures Count(s, PressReleases) > 0 ==> r.press == s.press
    ensures Count(s, Activities) == 0 ==> Datas(r.activities.rows) == SampleActivities
    ensures Count(s, Activities) > 0 ==> r.activities == s.activities
    ensures Count(s, Clientele) == 0 ==> Datas(r.clientele.rows) == SampleClients
    ensures Count(s, Clientele) > 0 ==> r.clientele == s.clientele
    ensures Count(s, CsrConnects) == 0 ==> Datas(r.csr.rows) == SampleCsr
    ensures Count(s, CsrConnects) > 0 ==> r.csr == s.csr
    ensures Valid(s) ==> Valid(r)
  {
    SeedPremiumWith(s, SamplePress, SampleActivities, SampleClients, SampleCsr)
  }

  /** No partner in `csr` has a logo. */
  predicate LogosEmpty(csr: seq<CsrConnect>) {
    forall k :: 0 <= k < |csr| ==> csr[k].logoUrl == ""
  }

  /** Seeding an empty table from logo-less partners stores only empty logos. */
  lemma SeedIfEmptyLogos(t: Table<CsrConnect>, csr: seq<CsrConnect>, now: nat)
    requires |t.rows| == 0 && LogosEmpty(csr)
    ensures forall k :: 0 <= k < |SeedIfEmpty(t, csr, now).rows| ==> SeedIfEmpty(t, csr, now).rows[k].data.logoUrl == ""
  {
    var rows := SeedIfEmpty(t, csr, now).rows;
    forall k | 0 <= k < |rows|
      ensures rows[k].data.logoUrl == ""
    {
      assert rows[k].data == Datas(rows)[k] == csr[k];
    }
  }

  /** Every seeded CSR partner has an empty logo. */
  lemma SeededCsrLogosEmpty(s: Store)
    requires Count(s, CsrConnects) == 0
    ensures forall k :: 0 <= k < |SeedPremium(s).csr.rows| ==> SeedPremium(s).csr.rows[k].data.logoUrl == ""
  {
    assert LogosEmpty(SampleCsr);
    SeedIfEmptyLogos(s.csr, SampleCsr, s.clock);
    assert SeedPremium(s).csr == SeedIfEmpty(s.csr, SampleCsr, s.clock);
  }

  /** With non-empty sample lists every premium table has rows after one run, so a second run inserts nothing. */
  lemma SeedPremiumWithIdempotent(s: Store, press: seq<PressRelease>, activities: seq<Activity>,
                                  clients: seq<Client>, csr: seq<CsrConnect>)
    requires |press| > 0 && |activities| > 0 && |clients| > 0 && |csr| > 0
    ensures var r := SeedPremiumWith(s, press, activities, clients, csr);
      SeedPremiumWith(r, press, activities, clients, csr) == r
  {
    var r := SeedPremiumWith(s, press, activities, clients, csr);
    assert |Datas(r.press.rows)| == |r.press.rows|;
    assert |Datas(r.activities.rows)| == |r.activities.rows|;
    assert |Datas(r.clientele.rows)| == |r.clientele.rows|;
    assert |Datas(r.csr.rows)| == |r.csr.rows|;
    var r2 := SeedPremiumWith(r, press, activities, clients, csr);
    assert r2.press == r.press && r2.activities == r.activities;
    assert r2.clientele == r.clientele && r2.csr == r.csr;
    assert SameExcept(r, r2, PremiumTables);
  }

  /** After one run every premium table has rows, so a second run inserts nothing. */
  lemma SeedPremiumIdempotent(s: Store)
    ensures SeedPremium(SeedPremium(s)) == SeedPremium(s)
  {
    SeedPremiumWithIdempotent(s, SamplePress, SampleActivities, SampleClients, SampleCsr);
  }

  // ---------------------------------------------------------------------------
  // server/seed_data.js

  datatype ImpactStat = ImpactStat(title: string, value: string, icon: string)
  datatype TeamMember = TeamMember(name: string, role: string, bio: string, imageUrl: string)
  datatype BlogPost = BlogPost(title: string, content: string, author: string, imageUrl: string)
  datatype Event = Event(title: string, date: string, location: string, description: string, imageUrl: string)
  datatype Testimonial = Testimonial(name: string, role: string, message: string, imageUrl: string)

  /** A database in the older layout: its five tables, the server's tables, and the tick. */
  datatype LegacyStore = LegacyStore(
    stats: Table<ImpactStat>,
    team: Table<TeamMember>,
    posts: Table<BlogPost>,
    events: Table<Event>,
    testimonials: Table<Testimonial>,
    server: Store,
    clock: nat)

  const Impacts: seq<ImpactStat> := [
    ImpactStat("Lives Touched", "15,000+", "Users"),
    ImpactStat("Volunteers", "500+", "Heart"),
    ImpactStat("States Reached", "12", "MapPin"),
    // The file holds the rupee sign mis-decoded as three Windows-1252 characters.
    ImpactStat("Funds Raised", "\U{00E2}\U{201A}\U{00B9}50L+", "TrendingUp")
  ]

  const Team: seq<TeamMember> := [
    TeamMember("Santosh Kumar", "Founder & Director", "Visionary leader with 10+ years in social work.",
      "https://images.unsplash.com/photo-1560250097-0b93528c311a?w=400&h=400&fit=crop"),
    TeamMember("Priya Sharma", "Operations Head", "Ensuring every project runs smoothly.",
      "https://images.unsplash.com/photo-1573496359142-b8d87734a5a2?w=400&h=400&fit=crop"),
    TeamMember("Rahul Verma", "Volunteer Lead", "Connecting hearts to the cause.",
      "https://images.unsplash.com/photo-1519085360753-af0119f7cbe7?w=400&h=400&fit=crop")
  ]

  const Posts: seq<BlogPost> := [
    BlogPost("Winter Warmth Drive 2024", "Our team distributed over 500 blankets to homeless families across Delhi NCR this winter.",
      "Santosh", "https://images.unsplash.com/photo-1488521787991-ed7bbaae773c?w=600&h=400&fit=crop"),
    BlogPost("Education for All Initiative", "We are launching a new scholarship program for 50 meritorious students from rural backgrounds.",
      "Priya", "https://images.unsplash.com/photo-1497633762265-9d179a990aa6?w=600&h=400&fit=crop"),
    BlogPost("Clean Water Project Success", "Three new water purification plants have been installed in drought-affected villages.",
      "Admin", "https://images.unsplash.com/photo-1581093122699-1bd6198f1066?w=600&h=400&fit=crop")
  ]

  const Events: seq<Event> := [
    Event("Annual Charity Gala", "2025-01-15", "India Habitat Centre, Delhi", "Join us for an evening of music, art, and giving.",
      "https://images.unsplash.com/photo-1511578314322-379afb476865?w=600&h=400&fit=crop"),
    Event("Marathon for Hope", "2025-02-10", "Nehru Park", "Run for a cause! All proceeds go to child education.",
      "https://images.unsplash.com/photo-1552674605-469523fafd00?w=600&h=400&fit=crop")
  ]

  const Testimonials: seq<Testimonial> := [
    Testimonial("Rohan Das", "Beneficiary", "The scholarship from Aakritii helped me complete my engineering. I am forever grateful.",
      "https://images.unsplash.com/photo-1506794778202-cad84cf45f1d?w=200&h=200&fit=crop"),
    Testimonial("Anjali Gupta", "Volunteer", "Being part of this community taught me the true meaning of empathy and service.",
      "https://images.unsplash.com/photo-1544005313-94ddf0286df2?w=200&h=200&fit=crop"),
    Testimonial("Dr. S. K. Singh", "Donor", "Transparency and impact are what define Aakritii. Proud to support their initiatives.",
      "https://images.unsplash.com/photo-1472099645785-5658abf4ff4e?w=200&h=200&fit=crop")
  ]

  /** `DELETE FROM t` followed by the inserts of `ds`: the table ends up holding exactly `ds`. */
  function Replace<T>(t: Table<T>, ds: seq<T>, now: nat): (r: Table<T>)
    ensures Datas(r.rows) == ds
    ensures r.nextId == t.nextId + |ds|
    ensures WellFormed(t, now) ==> WellFormed(r, now)
  {
    var cleared := DeleteAll(t);
    var r := InsertAll(cleared, ds, now);
    assert r.rows[|cleared.rows|..] == r.rows;
    r
  }

  /**
   * `seed_data.js`: each of the five tables is emptied and refilled with its
   * listed rows. `tablesExist` says whether the opened file holds the five
   * tables; the server's own `database.sqlite` does not, and then the first
   * `DELETE` fails with no callback to catch it and nothing is written.
   */
  function SeedData(s: LegacyStore, tablesExist: bool): (r: LegacyStore)
    ensures !tablesExist ==> r == s
    ensures tablesExist ==> Datas(r.stats.rows) == Impacts && |r.stats.rows| == 4
    ensures tablesExist ==> Datas(r.team.rows) == Team && |r.team.rows| == 3
    ensures tablesExist ==> Datas(r.posts.rows) == Posts && |r.posts.rows| == 3
    ensures tablesExist ==> Datas(r.events.rows) == Events && |r.events.rows| == 2
    ensures tablesExist ==> Datas(r.testimonials.rows) == Testimonials && |r.testimonials.rows| == 3
    ensures r.server == s.server && r.clock == s.clock
  {
    if !tablesExist then s
    else
      s.(stats := Replace(s.stats, Impacts, s.clock),
         team := Replace(s.team, Team, s.clock),
         posts := Replace(s.posts, Posts, s.clock),
         events := Replace(s.events, Events, s.clock),
         testimonials := Replace(s.testimonials, Testimonials, s.clock))
  }

  /** The row contents after two runs are those after one: the script replaces, it does not append. */
  lemma SeedDataContentsIdempotent(s: LegacyStore)
    ensures var once := SeedData(s, true); var twice := SeedData(once, true);
      && Datas(twice.stats.rows) == Datas(once.stats.rows)
      && Datas(twice.team.rows) == Datas(once.team.rows)
      && Datas(twice.posts.rows) == Datas(once.posts.rows)
      && Datas(twice.events.rows) == Datas(once.events.rows)
      && Datas(twice.testimonials.rows) == Datas(once.testimonials.rows)
      && twice.server == s.server
  {
  }
}

=== FILE: sql.dfy ===
/**
 * Statements as abstract store operations, and a runner for a sequence of
 * statements awaited one after another inside a single `try` block: the
 * first statement that fails ends the run and every later one is skipped.
 * A statement can fail because of a constraint (a duplicate admin email) or
 * because the environment makes it fail; the latter is the `fault` index,
 * the position of the first statement the database rejects.
 */
module Sql {
  import opened Common
  import opened Schema

  datatype Stmt =
    | CreateTable(table: TableName)   // CREATE TABLE IF NOT EXISTS: the table already exists here
    | Query                           // a SELECT; its answer is read off the store by the caller
    | Put(row: Row)                   // INSERT of one row

  function Exec(s: Store, st: Stmt): (r: Result<Store, DbError>)
    ensures r.Ok? && !st.Put? ==> r.value == s
    ensures r.Err? <==> st.Put? && st.row.AdminRow? && HasEmail(s.admins, st.row.admin.email)
    ensures r.Ok? && st.Put? ==> SameExcept(s, r.value, {TableOf(st.row)})
    ensures r.Ok? && Valid(s) ==> Valid(r.value)
  {
    match st
    case CreateTable(_) => Ok(s)
    case Query => Ok(s)
    case Put(row) =>
      match InsertRow(s, row)
      case Ok((s', _)) => Ok(s')
      case Err(e) => Err(e)
  }

  /** The store after the run, how many statements completed, and why it stopped early. */
  datatype Outcome = Outcome(store: Store, done: nat, error: Option<DbError>)

  /** The fault index as seen from the next statement. */
  function Later(fault: Option<nat>): Option<nat>
  {
    match fault
    case Some(k) => if k == 0 then None else Some(k - 1)
    case None => None
  }

  function Run(s: Store, plan: seq<Stmt>, fault: Option<nat>): (o: Outcome)
    ensures o.done <= |plan|
    ensures o.error.None? <==> o.done == |plan|
    ensures fault.Some? && fault.value < |plan| ==> o.done <= fault.value && o.error.Some?
    ensures o.store.clock == s.clock
    ensures Valid(s) ==> Valid(o.store)
    decreases |plan|
  {
    if plan == [] then Outcome(s, 0, None)
    else if fault == Some(0) then Outcome(s, 0, Some(Fault))
    else
      match Exec(s, plan[0])
      case Err(e) => Outcome(s, 0, Some(e))
      case Ok(s1) =>
        var o := Run(s1, plan[1..], Later(fault));
        o.(done := o.done + 1)
  }

  /** Running `p + q` is running `p`, then `q` from where `p` left off, unless `p` stopped. */
  lemma {:induction false} RunAppend(s: Store, p: seq<Stmt>, q: seq<Stmt>)
    ensures var o := Run(s, p, None);
      Run(s, p + q, None) ==
        if o.error.Some? then o
        else var o2 := Run(o.store, q, None); o2.(done := o2.done + |p|)
    decreases |p|
  {
    if p == [] {
      assert p + q == q;
    } else {
      assert (p + q)[0] == p[0];
      assert (p + q)[1..] == p[1..] + q;
      match Exec(s, p[0])
      case Err(_) =>
      case Ok(s1) =>
        RunAppend(s1, p[1..], q);
    }
  }

  /**
   * A fault at statement `k`, where the first `k` statements would have
   * succeeded, leaves exactly their effect and skips everything after.
   */
  lemma {:induction false} RunFault(s: Store, plan: seq<Stmt>, k: nat)
    requires k < |plan|
    requires Run(s, plan[..k], None).error.None?
    ensures Run(s, plan, Some(k)) == Outcome(Run(s, plan[..k], None).store, k, Some(Fault))
    decreases k
  {
    if k > 0 {
      assert plan[..k][0] == plan[0];
      assert plan[..k][1..] == plan[1..][..k - 1];
      match Exec(s, plan[0])
      case Err(_) =>
        assert false;
      case Ok(s1) =>
        RunFault(s1, plan[1..], k - 1);
    }
  }

  /** Every statement of `plan` that writes, writes one of `names`. */
  predicate PutsOnly(plan: seq<Stmt>, names: set<TableName>) {
    forall i :: 0 <= i < |plan| && plan[i].Put? ==> TableOf(plan[i].row) in names
  }

  /** A run touches no table its statements do not write, whatever fails. */
  lemma {:induction false} RunFrame(s: Store, plan: seq<Stmt>, fault: Option<nat>, names: set<TableName>)
    requires PutsOnly(plan, names)
    ensures SameExcept(s, Run(s, plan, fault).store, names)
    decreases |plan|
  {
    if plan != [] && fault != Some(0) {
      match Exec(s, plan[0])
      case Err(_) =>
      case Ok(s1) =>
        assert PutsOnly(plan[1..], names) by {
          forall i | 0 <= i < |plan[1..]| && plan[1..][i].Put?
            ensures TableOf(plan[1..][i].row) in names
          {
            assert plan[1..][i] == plan[i + 1];
          }
        }
        RunFrame(s1, plan[1..], Later(fault), names);
    }
  }

  /** A plan of reads and creates changes nothing, unless a fault stops it. */
  lemma {:induction false} RunReads(s: Store, plan: seq<Stmt>, fault: Option<nat>)
    requires forall i :: 0 <= i < |plan| ==> !plan[i].Put?
    requires fault.None? || fault.value >= |plan|
    ensures Run(s, plan, fault) == Outcome(s, |plan|, None)
    decreases |plan|
  {
    if plan != [] {
      assert !plan[0].Put?;
      RunReads(s, plan[1..], Later(fault));
    }
  }
}

=== FILE: tables.dfy ===
/**
 * An abstract SQL table: the rows in storage order, each carrying its
 * AUTOINCREMENT primary key and the tick at which it was inserted (standing in
 * for a `created_at DEFAULT CURRENT_TIMESTAMP` column), and the key the next
 * insert will receive. Statements are modelled as functions on tables; no SQL
 * text is parsed.
 */
module Tables {
  import opened Common

  /** One row: primary key, insertion tick, and the entity's column values. */
  datatype Rec<T> = Rec(id: nat, created: nat, data: T)

  /** A table: rows in storage order and the next AUTOINCREMENT key. */
  datatype Table<T> = Table(rows: seq<Rec<T>>, nextId: nat)

  /** A freshly created table; AUTOINCREMENT keys start at 1. */
  function Empty<T>(): Table<T> {
    Table([], 1)
  }

  /**
   * Rows appear in insertion order: keys strictly increase and insertion
   * ticks never decrease along the table.
   */
  predicate Ordered<T>(rows: seq<Rec<T>>) {
    forall i, j :: 0 <= i < j < |rows| ==>
      rows[i].id < rows[j].id && rows[i].created <= rows[j].created
  }

  /**
   * The invariant every table keeps: insertion order, every key below the
   * next key to hand out (and at least 1), and no row from the future.
   */
  predicate WellFormed<T>(t: Table<T>, clock: nat) {
    && 1 <= t.nextId
    && Ordered(t.rows)
    && (forall i :: 0 <= i < |t.rows| ==> 1 <= t.rows[i].id < t.nextId && t.rows[i].created <= clock)
  }

  lemma EmptyWellFormed<T>(clock: nat)
    ensures WellFormed(Empty<T>(), clock)
  {
  }

  /** Some row of `t` has primary key `id`. */
  predicate HasId<T>(t: Table<T>, id: int) {
    exists i :: 0 <= i < |t.rows| && t.rows[i].id == id
  }

  /** The column values of the rows, in storage order. */
  function Datas<T>(rows: seq<Rec<T>>): (r: seq<T>)
    ensures |r| == |rows|
    ensures forall i :: 0 <= i < |rows| ==> r[i] == rows[i].data
  {
    seq(|rows|, i requires 0 <= i < |rows| => rows[i].data)
  }

  // ---------------------------------------------------------------------------
  // SELECT

  /** The first row with key `id` (`SELECT * FROM t WHERE id = ?`). */
  function FindIn<T>(rows: seq<Rec<T>>, id: int): (r: Option<Rec<T>>)
    ensures r.Some? ==> r.value in rows && r.value.id == id
    ensures r.None? <==> forall i :: 0 <= i < |rows| ==> rows[i].id != id
  {
    if |rows| == 0 then None
    else if rows[0].id == id then Some(rows[0])
    else FindIn(rows[1..], id)
  }

  function Find<T>(t: Table<T>, id: int): (r: Option<Rec<T>>)
    ensures r.Some? <==> HasId(t, id)
    ensures r.Some? ==> r.value in t.rows && r.value.id == id
  {
    FindIn(t.rows, id)
  }

  /** The rows whose values satisfy `keep`, in storage order. */
  function Select<T(!new)>(rows: seq<Rec<T>>, keep: T -> bool): (r: seq<Rec<T>>)
    ensures |r| <= |rows|
    ensures forall x :: x in r <==> x in rows && keep(x.data)
  {
    if |rows| == 0 then []
    else
      var rest := Select(rows[1..], keep);
      assert forall x :: x in rows <==> x == rows[0] || x in rows[1..];
      if keep(rows[0].data) then [rows[0]] + rest else rest
  }

  /** The first row precedes every later one in key and tick. */
  lemma HeadPrecedes<T>(rows: seq<Rec<T>>)
    requires Ordered(rows) && |rows| > 0
    ensures forall x :: x in rows[1..] ==> rows[0].id < x.id && rows[0].created <= x.created
  {
    forall x | x in rows[1..]
      ensures rows[0].id < x.id && rows[0].created <= x.created
    {
      var k :| 0 <= k < |rows[1..]| && rows[1..][k] == x;
      assert rows[k + 1] == x;
    }
  }

  lemma TailOrdered<T>(rows: seq<Rec<T>>)
    requires Ordered(rows) && |rows| > 0
    ensures Ordered(rows[1..])
  {
    forall i, j | 0 <= i < j < |rows[1..]|
      ensures rows[1..][i].id < rows[1..][j].id && rows[1..][i].created <= rows[1..][j].created
    {
      assert rows[1..][i] == rows[i + 1] && rows[1..][j] == rows[j + 1];
    }
  }

  /** A row put in front of an ordered sequence whose rows all come later stays ordered. */
  lemma ConsOrdered<T>(h: Rec<T>, rest: seq<Rec<T>>)
    requires Ordered(rest)
    requires forall x :: x in rest ==> h.id < x.id && h.created <= x.created
    ensures Ordered([h] + rest)
  {
    var r := [h] + rest;
    forall i, j | 0 <= i < j < |r|
      ensures r[i].id < r[j].id && r[i].created <= r[j].created
    {
      if i == 0 {
        assert r[j] == rest[j - 1];
        assert r[j] in rest;
      } else {
        assert r[i] == rest[i - 1] && r[j] == rest[j - 1];
      }
    }
  }

  /** Selecting rows keeps them in insertion order. */
  lemma {:induction false} SelectOrdered<T(!new)>(rows: seq<Rec<T>>, keep: T -> bool)
    requires Ordered(rows)
    ensures Ordered(Select(rows, keep))
  {
    if |rows| > 0 {
      var rest := Select(rows[1..], keep);
      TailOrdered(rows);
      SelectOrdered(rows[1..], keep);
      if keep(rows[0].data) {
        HeadPrecedes(rows);
        assert forall x :: x in rest ==> x in rows[1..];
        ConsOrdered(rows[0], rest);
      }
    }
  }

  lemma {:induction false} SelectAppend<T(!new)>(a: seq<Rec<T>>, b: seq<Rec<T>>, keep: T -> bool)
    ensures Select(a + b, keep) == Select(a, keep) + Select(b, keep)
  {
    if |a| == 0 {
      assert a + b == b;
    } else {
      assert (a + b)[1..] == a[1..] + b;
      SelectAppend(a[1..], b, keep);
    }
  }

  /** Selecting keeps every kept row as often as it occurs, and no other row. */
  lemma {:induction false} SelectCounts<T(!new)>(rows: seq<Rec<T>>, keep: T -> bool)
    ensures forall x :: multiset(Select(rows, keep))[x] == if keep(x.data) then multiset(rows)[x] else 0
    decreases |rows|
  {
    if |rows| > 0 {
      SelectCounts(rows[1..], keep);
      assert rows == [rows[0]] + rows[1..];
      assert multiset(rows) == multiset([rows[0]]) + multiset(rows[1..]);
    }
  }

  lemma {:induction false} SelectAll<T(!new)>(rows: seq<Rec<T>>, keep: T -> bool)
    requires forall i :: 0 <= i < |rows| ==> keep(rows[i].data)
    ensures Select(rows, keep) == rows
  {
    if |rows| > 0 {
      SelectAll(rows[1..], keep);
    }
  }

  lemma {:induction false} SelectNone<T(!new)>(rows: seq<Rec<T>>, keep: T -> bool)
    requires forall i :: 0 <= i < |rows| ==> !keep(rows[i].data)
    ensures Select(rows, keep) == []
  {
    if |rows| > 0 {
      SelectNone(rows[1..], keep);
    }
  }

  /** `rows` listed newest first: `ORDER BY created_at DESC` on an ordered table. */
  function NewestFirst<T(!new)>(rows: seq<Rec<T>>): (r: seq<Rec<T>>)
    ensures |r| == |rows|
    ensures forall x :: x in r <==> x in rows
    ensures Ordered(rows) ==> forall i, j :: 0 <= i < j < |r| ==> r[i].created >= r[j].created
  {
    var r := seq(|rows|, i requires 0 <= i < |rows| => rows[|rows| - 1 - i]);
    assert forall x :: x in rows ==> x in r by {
      forall x | x in rows
        ensures x in r
      {
        var k :| 0 <= k < |rows| && rows[k] == x;
        assert r[|rows| - 1 - k] == x;
      }
    }
    r
  }

  /** Listing newest first puts the first stored row last, after the rest listed newest first. */
  lemma NewestFirstCons<T(!new)>(rows: seq<Rec<T>>)
    requires |rows| > 0
    ensures NewestFirst(rows) == NewestFirst(rows[1..]) + [rows[0]]
  {
    var a := NewestFirst(rows);
    var b := NewestFirst(rows[1..]) + [rows[0]];
    assert forall i :: 0 <= i < |a| ==> a[i] == b[i];
  }

  /** Listing newest first neither drops nor repeats a row: the same rows, counted with multiplicity. */
  lemma {:induction false} NewestFirstPermutes<T(!new)>(rows: seq<Rec<T>>)
    ensures multiset(NewestFirst(rows)) == multiset(rows)
    decreases |rows|
  {
    if |rows| > 0 {
      NewestFirstCons(rows);
      NewestFirstPermutes(rows[1..]);
      assert rows == [rows[0]] + rows[1..];
    }
  }

  // ---------------------------------------------------------------------------
  // INSERT, DELETE, UPDATE

  /**
   * `INSERT INTO t ...`: the new row gets the next AUTOINCREMENT key (the
   * statement's `lastID`/`insertId`) and the tick `now`.
   */
  function Insert<T>(t: Table<T>, d: T, now: nat): (r: Table<T>)
    ensures r.nextId == t.nextId + 1
    ensures |r.rows| == |t.rows| + 1 && r.rows[..|t.rows|] == t.rows
    ensures r.rows[|t.rows|] == Rec(t.nextId, now, d)
    ensures WellFormed(t, now) ==> WellFormed(r, now) && Find(r, t.nextId) == Some(Rec(t.nextId, now, d))
  {
    var r := Table(t.rows + [Rec(t.nextId, now, d)], t.nextId + 1);
    assert r.rows[..|t.rows|] == t.rows;
    assert WellFormed(t, now) ==> WellFormed(r, now) && Find(r, t.nextId) == Some(Rec(t.nextId, now, d)) by {
      if WellFormed(t, now) {
        AppendWellFormed(t, d, now);
      }
    }
    r
  }

  /** Appending a row with the next key and the current tick keeps a table well-formed and findable by that key. */
  lemma AppendWellFormed<T>(t: Table<T>, d: T, now: nat)
    requires WellFormed(t, now)
    ensures var r := Table(t.rows + [Rec(t.nextId, now, d)], t.nextId + 1);
      WellFormed(r, now) && Find(r, t.nextId) == Some(Rec(t.nextId, now, d))
  {
    var r := Table(t.rows + [Rec(t.nextId, now, d)], t.nextId + 1);
    assert FindIn(t.rows, t.nextId) == None;
    FindInAppend(t.rows, [Rec(t.nextId, now, d)], t.nextId);
    assert forall i :: 0 <= i < |t.rows| ==> r.rows[i] == t.rows[i];
  }

  /** Several inserts in order: each new row gets the next key and the same tick. */
  function InsertAll<T>(t: Table<T>, ds: seq<T>, now: nat): (r: Table<T>)
    ensures r.nextId == t.nextId + |ds|
    ensures |r.rows| == |t.rows| + |ds| && r.rows[..|t.rows|] == t.rows
    ensures forall i :: 0 <= i < |ds| ==> r.rows[|t.rows| + i] == Rec(t.nextId + i, now, ds[i])
    ensures Datas(r.rows[|t.rows|..]) == ds
    ensures WellFormed(t, now) ==> WellFormed(r, now)
    decreases |ds|
  {
    if ds == [] then
      assert t.rows[..|t.rows|] == t.rows;
      t
    else
      var t1 := Insert(t, ds[0], now);
      var r := InsertAll(t1, ds[1..], now);
      assert r.rows[..|t.rows|] == t.rows by {
        assert r.rows[..|t.rows|] == r.rows[..|t1.rows|][..|t.rows|];
      }
      assert forall i :: 0 <= i < |ds| ==> r.rows[|t.rows| + i] == Rec(t.nextId + i, now, ds[i]) by {
        forall i | 0 <= i < |ds|
          ensures r.rows[|t.rows| + i] == Rec(t.nextId + i, now, ds[i])
        {
          if i == 0 {
            assert r.rows[|t.rows|] == r.rows[..|t1.rows|][|t.rows|];
          } else {
            assert r.rows[|t1.rows| + (i - 1)] == Rec(t1.nextId + (i - 1), now, ds[1..][i - 1]);
          }
        }
      }
      assert Datas(r.rows[|t.rows|..]) == ds;
      r
  }

  lemma {:induction false} FindInAppend<T>(a: seq<Rec<T>>, b: seq<Rec<T>>, id: int)
    requires FindIn(a, id) == None
    ensures FindIn(a + b, id) == FindIn(b, id)
  {
    if |a| == 0 {
      assert a + b == b;
    } else {
      assert (a + b)[1..] == a[1..] + b;
      FindInAppend(a[1..], b, id);
    }
  }

  /** `DELETE FROM t WHERE <cond>`: every row whose values satisfy `cond` goes. */
  function DeleteWhere<T(!new)>(t: Table<T>, cond: T -> bool): (r: Table<T>)
    ensures r.nextId == t.nextId
    ensures forall x :: x in r.rows <==> x in t.rows && !cond(x.data)
    ensures forall c: nat :: WellFormed(t, c) ==> WellFormed(r, c)
  {
    var rows := Select(t.rows, x => !cond(x));
    assert Ordered(t.rows) ==> Ordered(rows) by {
      if Ordered(t.rows) {
        SelectOrdered(t.rows, x => !cond(x));
      }
    }
    Table(rows, t.nextId)
  }

  /** `DELETE FROM t`: every row goes; the AUTOINCREMENT counter is kept. */
  function DeleteAll<T>(t: Table<T>): (r: Table<T>)
    ensures r.rows == [] && r.nextId == t.nextId
    ensures forall c: nat :: WellFormed(t, c) ==> WellFormed(r, c)
  {
    Table([], t.nextId)
  }

  /** `TRUNCATE TABLE t` (MySQL): every row goes and the counter restarts at 1. */
  function Truncate<T>(t: Table<T>): (r: Table<T>)
    ensures r == Empty<T>()
  {
    Empty<T>()
  }

  /** `DELETE FROM t WHERE id = ?`. */
  function DeleteId<T(!new)>(t: Table<T>, id: int): (r: Table<T>)
    ensures r.nextId == t.nextId
    ensures forall x :: x in r.rows <==> x in t.rows && x.id != id
    ensures forall c: nat :: WellFormed(t, c) ==> WellFormed(r, c)
    ensures !HasId(t, id) ==> r == t
  {
    var rows := SelectRec(t.rows, id);
    assert Ordered(t.rows) ==> Ordered(rows) by {
      if Ordered(t.rows) {
        SelectRecOrdered(t.rows, id);
      }
    }
    assert !HasId(t, id) ==> rows == t.rows by {
      if !HasId(t, id) {
        SelectRecNone(t.rows, id);
      }
    }
    Table(rows, t.nextId)
  }

  /** The rows whose key is not `id`, in storage order. */
  function SelectRec<T(!new)>(rows: seq<Rec<T>>, id: int): (r: seq<Rec<T>>)
    ensures forall x :: x in r <==> x in rows && x.id != id
  {
    if |rows| == 0 then []
    else
      var rest := SelectRec(rows[1..], id);
      assert forall x :: x in rows <==> x == rows[0] || x in rows[1..];
      if rows[0].id != id then [rows[0]] + rest else rest
  }

  lemma {:induction false} SelectRecOrdered<T(!new)>(rows: seq<Rec<T>>, id: int)
    requires Ordered(rows)
    ensures Ordered(SelectRec(rows, id))
  {
    if |rows| > 0 {
      var rest := SelectRec(rows[1..], id);
      TailOrdered(rows);
      SelectRecOrdered(rows[1..], id);
      if rows[0].id != id {
        HeadPrecedes(rows);
        assert forall x :: x in rest ==> x in rows[1..];
        ConsOrdered(rows[0], rest);
      }
    }
  }

  lemma {:induction false} SelectRecNone<T(!new)>(rows: seq<Rec<T>>, id: int)
    requires forall i :: 0 <= i < |rows| ==> rows[i].id != id
    ensures SelectRec(rows, id) == rows
  {
    if |rows| > 0 {
      SelectRecNone(rows[1..], id);
    }
  }

  /**
   * `UPDATE t SET ... WHERE <cond>`: every row whose values satisfy `cond` is
   * rewritten by `f`; keys, ticks and the other rows stay as they were.
   */
  function UpdateWhere<T>(t: Table<T>, cond: T -> bool, f: T -> T): (r: Table<T>)
    ensures r.nextId == t.nextId && |r.rows| == |t.rows|
    ensures forall i :: 0 <= i < |t.rows| ==>
      r.rows[i].id == t.rows[i].id && r.rows[i].created == t.rows[i].created
    ensures forall i :: 0 <= i < |t.rows| && cond(t.rows[i].data) ==> r.rows[i].data == f(t.rows[i].data)
    ensures forall i :: 0 <= i < |t.rows| && !cond(t.rows[i].data) ==> r.rows[i] == t.rows[i]
    ensures forall c: nat :: WellFormed(t, c) ==> WellFormed(r, c)
  {
    var rows := seq(|t.rows|, i requires 0 <= i < |t.rows| =>
      var x := t.rows[i]; if cond(x.data) then Rec(x.id, x.created, f(x.data)) else x);
    Table(rows, t.nextId)
  }

  /** `UPDATE t SET ... WHERE id = ?`. */
  function UpdateId<T>(t: Table<T>, id: int, f: T -> T): (r: Table<T>)
    ensures r.nextId == t.nextId && |r.rows| == |t.rows|
    ensures forall i :: 0 <= i < |t.rows| ==>
      r.rows[i].id == t.rows[i].id && r.rows[i].created == t.rows[i].created
    ensures forall i :: 0 <= i < |t.rows| && t.rows[i].id == id ==> r.rows[i].data == f(t.rows[i].data)
    ensures forall i :: 0 <= i < |t.rows| && t.rows[i].id != id ==> r.rows[i] == t.rows[i]
    ensures forall c: nat :: WellFormed(t, c) ==> WellFormed(r, c)
  {
    var rows := seq(|t.rows|, i requires 0 <= i < |t.rows| =>
      var x := t.rows[i]; if x.id == id then Rec(x.id, x.created, f(x.data)) else x);
    Table(rows, t.nextId)
  }
}

=== FILE: text.dfy ===
/**
 * String operations the source takes from its languages' standard libraries
 * (JavaScript `String.prototype` and Python `str`), written out so that the
 * models built on them say exactly which variant they use: JavaScript's
 * `replace` with a string pattern rewrites the FIRST occurrence only, while
 * Python's `replace` rewrites EVERY occurrence.
 */
module Text {
  import opened Common

  /**
   * A JavaScript string value (an optional argument, a query-string value)
   * is truthy when present and non-empty.
   */
  predicate Truthy(v: Option<string>) {
    v.Some? && v.value != ""
  }

  /** `s.startsWith(p)` / `s.startswith(p)`. */
  predicate StartsWith(s: string, p: string) {
    |p| <= |s| && s[..|p|] == p
  }

  /** `s.endsWith(p)` / `s.endswith(p)`. */
  predicate EndsWith(s: string, p: string) {
    |p| <= |s| && s[|s| - |p|..] == p
  }

  /** `pat` occurs in `s` at position `i`. */
  predicate OccursAt(s: string, pat: string, i: nat) {
    i + |pat| <= |s| && s[i..i + |pat|] == pat
  }

  /** Position of the first occurrence of `pat` in `s` at or after `k`. */
  function IndexFrom(s: string, pat: string, k: nat): (r: Option<nat>)
    ensures r.Some? ==> k <= r.value && OccursAt(s, pat, r.value)
    ensures r.Some? ==> forall j :: k <= j < r.value ==> !OccursAt(s, pat, j)
    ensures r.None? ==> forall j :: k <= j ==> !OccursAt(s, pat, j)
    decreases |s| - k
  {
    if k + |pat| > |s| then None
    else if s[k..k + |pat|] == pat then Some(k)
    else IndexFrom(s, pat, k + 1)
  }

  /** `s.indexOf(pat)` (JavaScript) / `s.find(pat)` (Python), absent for -1. */
  function IndexOf(s: string, pat: string): (r: Option<nat>)
    ensures r.Some? ==> OccursAt(s, pat, r.value)
    ensures r.Some? ==> forall j: nat :: j < r.value ==> !OccursAt(s, pat, j)
    ensures r.None? ==> forall j: nat :: !OccursAt(s, pat, j)
  {
    IndexFrom(s, pat, 0)
  }

  /** `s.includes(pat)` / `pat in s`. */
  predicate Contains(s: string, pat: string) {
    IndexOf(s, pat).Some?
  }

  lemma ContainsIff(s: string, pat: string)
    ensures Contains(s, pat) <==> exists j :: OccursAt(s, pat, j)
  {
    if Contains(s, pat) {
      assert OccursAt(s, pat, IndexOf(s, pat).value);
    }
  }

  /** A string contains every one of its infixes. */
  lemma ContainsInfix(s: string, pat: string, i: nat)
    requires OccursAt(s, pat, i)
    ensures Contains(s, pat)
  {
  }

  /** A string contains itself, and every prefix of it. */
  lemma ContainsPrefix(s: string, p: string)
    requires StartsWith(s, p)
    ensures Contains(s, p)
  {
    assert OccursAt(s, p, 0);
  }

  /** Containment survives putting text in front of and behind a string. */
  lemma ContainsInContext(a: string, s: string, b: string, pat: string)
    requires Contains(s, pat)
    ensures Contains(a + s + b, pat)
  {
    var i := IndexOf(s, pat).value;
    var t := a + s + b;
    assert t[|a| + i..|a| + i + |pat|] == s[i..i + |pat|];
    assert OccursAt(t, pat, |a| + i);
  }

  /**
   * JavaScript `s.replace(pat, rep)` with a string pattern: only the first
   * occurrence is rewritten.
   */
  function ReplaceFirst(s: string, pat: string, rep: string): (r: string)
    ensures !Contains(s, pat) ==> r == s
    ensures Contains(s, pat) ==>
      var i := IndexOf(s, pat).value;
      |r| == |s| - |pat| + |rep| && r[..i] == s[..i] && OccursAt(r, rep, i)
      && r[i + |rep|..] == s[i + |pat|..]
  {
    match IndexOf(s, pat)
    case None => s
    case Some(i) => s[..i] + rep + s[i + |pat|..]
  }

  /**
   * The pieces of `s` between the occurrences of `pat` that a left-to-right
   * scan finds (Python's `s.split(pat)` with a string separator): joined
   * with `pat` they give `s` back, no piece holds `pat`, and every
   * separator is the first occurrence of `pat` after the piece before it.
   */
  function SplitOn(s: string, pat: string): (r: seq<string>)
    requires |pat| > 0
    ensures |r| >= 1
    ensures Join(r, pat) == s
    ensures forall k :: 0 <= k < |r| ==> !Contains(r[k], pat)
    ensures forall k :: 0 <= k < |r| - 1 ==> IndexOf(r[k] + pat, pat) == Some(|r[k]|)
    decreases |s|
  {
    match IndexOf(s, pat)
    case None => [s]
    case Some(i) =>
      var rest := SplitOn(s[i + |pat|..], pat);
      PieceBeforeFirst(s, pat, i);
      JoinCons(s[..i], rest, pat);
      AroundOccurrence(s, pat, i);
      ConsPieces(s[..i], rest, pat);
      [s[..i]] + rest
  }

  /** A string is the text before an occurrence of `pat`, `pat`, and the text after it. */
  lemma AroundOccurrence(s: string, pat: string, i: nat)
    requires OccursAt(s, pat, i)
    ensures s == s[..i] + pat + s[i + |pat|..]
  {
    assert s == s[..i] + s[i..i + |pat|] + s[i + |pat|..];
  }

  /** A first piece that holds no `pat` and ends where `pat` first occurs can go in front of a cut. */
  lemma ConsPieces(a: string, rest: seq<string>, pat: string)
    requires !Contains(a, pat) && IndexOf(a + pat, pat) == Some(|a|)
    requires forall k :: 0 <= k < |rest| ==> !Contains(rest[k], pat)
    requires forall k :: 0 <= k < |rest| - 1 ==> IndexOf(rest[k] + pat, pat) == Some(|rest[k]|)
    ensures forall k :: 0 <= k < |[a] + rest| ==> !Contains(([a] + rest)[k], pat)
    ensures forall k :: 0 <= k < |[a] + rest| - 1 ==> IndexOf(([a] + rest)[k] + pat, pat) == Some(|([a] + rest)[k]|)
  {
    var r := [a] + rest;
    forall k | 1 <= k < |r|
      ensures r[k] == rest[k - 1]
    {
    }
  }

  /** The text before the first occurrence of `pat` holds no `pat`, and `pat` first occurs right after it. */
  lemma PieceBeforeFirst(s: string, pat: string, i: nat)
    requires |pat| > 0 && IndexOf(s, pat) == Some(i)
    ensures !Contains(s[..i], pat)
    ensures IndexOf(s[..i] + pat, pat) == Some(i)
  {
    var t := s[..i] + pat;
    var a := s[..i];
    assert t == s[..i + |pat|];
    forall j: nat | j < i
      ensures !OccursAt(t, pat, j)
    {
      assert !OccursAt(s, pat, j);
      assert t[j..j + |pat|] == s[j..j + |pat|];
    }
    assert OccursAt(t, pat, i);
    forall j: nat
      ensures !OccursAt(a, pat, j)
    {
      if j + |pat| <= |a| {
        assert !OccursAt(s, pat, j);
        assert a[j..j + |pat|] == s[j..j + |pat|];
      }
    }
  }

  /**
   * The contract of `SplitOn` pins its result: any list of pieces that
   * joins back to `s`, ends in a piece without `pat`, and has each separator
   * at the first occurrence after its piece is `SplitOn(s, pat)`.
   */
  lemma {:induction false} SplitOnUnique(s: string, pat: string, ps: seq<string>)
    requires |pat| > 0 && |ps| >= 1
    requires Join(ps, pat) == s
    requires !Contains(ps[|ps| - 1], pat)
    requires forall k :: 0 <= k < |ps| - 1 ==> IndexOf(ps[k] + pat, pat) == Some(|ps[k]|)
    ensures ps == SplitOn(s, pat)
    decreases |ps|
  {
    if |ps| > 1 {
      var a := ps[0];
      var tail := Join(ps[1..], pat);
      JoinCons(a, ps[1..], pat);
      assert [a] + ps[1..] == ps;
      FirstOccurrenceExtends(a + pat, tail, pat, |a|);
      assert (a + pat + tail)[..|a|] == a;
      assert (a + pat + tail)[|a| + |pat|..] == tail;
      forall k | 0 <= k < |ps[1..]| - 1
        ensures IndexOf(ps[1..][k] + pat, pat) == Some(|ps[1..][k]|)
      {
        assert ps[1..][k] == ps[k + 1];
      }
      SplitOnUnique(tail, pat, ps[1..]);
    }
  }

  /** A first occurrence stays the first one when text is appended. */
  lemma FirstOccurrenceExtends(t: string, x: string, pat: string, i: nat)
    requires IndexOf(t, pat) == Some(i)
    ensures IndexOf(t + x, pat) == Some(i)
  {
    var u := t + x;
    assert u[i..i + |pat|] == t[i..i + |pat|];
    forall j: nat | j < i
      ensures !OccursAt(u, pat, j)
    {
      assert !OccursAt(t, pat, j);
      if j + |pat| <= |t| {
        assert u[j..j + |pat|] == t[j..j + |pat|];
      }
    }
    assert OccursAt(u, pat, i);
  }

  lemma JoinCons(a: string, rest: seq<string>, sep: string)
    requires |rest| >= 1
    ensures Join([a] + rest, sep) == a + sep + Join(rest, sep)
  {
    assert ([a] + rest)[1..] == rest;
  }

  /**
   * Python `s.replace(pat, rep)`: every non-overlapping occurrence, scanning
   * left to right, is rewritten; the text between them is kept as it is.
   */
  function ReplaceAll(s: string, pat: string, rep: string): (r: string)
    requires |pat| > 0
    ensures r == Join(SplitOn(s, pat), rep)
    ensures !Contains(s, pat) ==> r == s
    ensures Contains(s, pat) ==> OccursAt(r, rep, IndexOf(s, pat).value)
    ensures Contains(s, pat) ==> r[..IndexOf(s, pat).value] == s[..IndexOf(s, pat).value]
    decreases |s|
  {
    match IndexOf(s, pat)
    case None => s
    case Some(i) =>
      var rest := ReplaceAll(s[i + |pat|..], pat, rep);
      var r := s[..i] + rep + rest;
      assert SplitOn(s, pat) == [s[..i]] + SplitOn(s[i + |pat|..], pat);
      JoinCons(s[..i], SplitOn(s[i + |pat|..], pat), rep);
      assert r[i..i + |rep|] == rep;
      assert r[..i] == s[..i];
      r
  }

  /** Position of the first `c` in `s`. */
  function FindChar(s: string, c: char): (r: Option<nat>)
    ensures r.Some? ==> r.value < |s| && s[r.value] == c && c !in s[..r.value]
    ensures r.None? ==> c !in s
  {
    if |s| == 0 then None
    else if s[0] == c then Some(0)
    else
      match FindChar(s[1..], c)
      case None => None
      case Some(i) =>
        assert s[..i + 1] == [s[0]] + s[1..][..i];
        Some(i + 1)
  }

  /**
   * `s.split(c)` with a one-character separator (JavaScript and Python agree
   * here): the pieces between separators, always at least one.
   */
  function Split(s: string, c: char): (r: seq<string>)
    ensures |r| >= 1
    ensures forall k :: 0 <= k < |r| ==> c !in r[k]
    decreases |s|
  {
    match FindChar(s, c)
    case None => [s]
    case Some(i) => [s[..i]] + Split(s[i + 1..], c)
  }

  /** `sep.join(parts)` (Python) / `parts.join(sep)` (JavaScript). */
  function Join(parts: seq<string>, sep: string): string
  {
    if |parts| == 0 then ""
    else if |parts| == 1 then parts[0]
    else parts[0] + sep + Join(parts[1..], sep)
  }

  /** Joining the pieces of a split with the same separator gives back the string. */
  lemma {:induction false} JoinSplit(s: string, c: char)
    ensures Join(Split(s, c), [c]) == s
    decreases |s|
  {
    match FindChar(s, c)
    case None =>
    case Some(i) =>
      var rest := Split(s[i + 1..], c);
      JoinSplit(s[i + 1..], c);
      assert Split(s, c) == [s[..i]] + rest;
      assert s == s[..i] + [c] + s[i + 1..];
  }

  /** Splitting a join of separator-free pieces gives the pieces back. */
  lemma {:induction false} SplitJoin(parts: seq<string>, c: char)
    requires |parts| >= 1
    requires forall k :: 0 <= k < |parts| ==> c !in parts[k]
    ensures Split(Join(parts, [c]), c) == parts
    decreases |parts|
  {
    var s := Join(parts, [c]);
    if |parts| == 1 {
      assert FindChar(s, c).None?;
    } else {
      var rest := Join(parts[1..], [c]);
      assert s == parts[0] + [c] + rest;
      assert s[|parts[0]|] == c;
      assert s[..|parts[0]|] == parts[0];
      assert FindChar(s, c) == Some(|parts[0]|);
      assert s[|parts[0]| + 1..] == rest;
      SplitJoin(parts[1..], c);
      assert parts == [parts[0]] + parts[1..];
    }
  }

  /** The number of occurrences of `c` in `s`. */
  function CountChar(s: string, c: char): nat
  {
    if |s| == 0 then 0
    else (if s[0] == c then 1 else 0) + CountChar(s[1..], c)
  }

  lemma {:induction false} CountCharAppend(a: string, b: string, c: char)
    ensures CountChar(a + b, c) == CountChar(a, c) + CountChar(b, c)
    decreases |a|
  {
    if |a| == 0 {
      assert a + b == b;
    } else {
      assert (a + b)[1..] == a[1..] + b;
      CountCharAppend(a[1..], b, c);
    }
  }

  lemma {:induction false} CountCharAbsent(s: string, c: char)
    requires c !in s
    ensures CountChar(s, c) == 0
    decreases |s|
  {
    if |s| > 0 {
      assert c !in s[1..];
      CountCharAbsent(s[1..], c);
    }
  }

  /** A split yields one more piece than there are separators. */
  lemma {:induction false} SplitCount(s: string, c: char)
    ensures |Split(s, c)| == CountChar(s, c) + 1
    decreases |s|
  {
    match FindChar(s, c)
    case None =>
      CountCharAbsent(s, c);
    case Some(i) =>
      SplitCount(s[i + 1..], c);
      assert s == s[..i] + ([c] + s[i + 1..]);
      CountCharAppend(s[..i], [c] + s[i + 1..], c);
      CountCharAppend([c], s[i + 1..], c);
      CountCharAbsent(s[..i], c);
  }

  function Last(parts: seq<string>): string
    requires |parts| > 0
  {
    parts[|parts| - 1]
  }

  /** The text after the last `c`: `s.split(c).pop()` in JavaScript. */
  function LastSegment(s: string, c: char): (r: string)
    ensures c !in r
    ensures c !in s ==> r == s
  {
    Last(Split(s, c))
  }

  // ---------------------------------------------------------------------------
  // Whitespace and case

  /** The ASCII whitespace characters Python's `str.strip()` removes. */
  predicate IsSpace(c: char) {
    c == ' ' || c == '\t' || c == '\n' || c == '\r' || c == '\U{000B}' || c == '\U{000C}'
  }

  /** How many whitespace characters `s` starts with. */
  function Leading(s: string): (n: nat)
    ensures n <= |s|
    ensures forall k :: 0 <= k < n ==> IsSpace(s[k])
    ensures n < |s| ==> !IsSpace(s[n])
  {
    if |s| > 0 && IsSpace(s[0]) then 1 + Leading(s[1..]) else 0
  }

  /** How many whitespace characters `s` ends with. */
  function Trailing(s: string): (n: nat)
    ensures n <= |s|
    ensures forall k :: |s| - n <= k < |s| ==> IsSpace(s[k])
    ensures n < |s| ==> !IsSpace(s[|s| - n - 1])
  {
    if |s| > 0 && IsSpace(s[|s| - 1]) then 1 + Trailing(s[..|s| - 1]) else 0
  }

  /** `r` sits at offset `i` of `s` with only whitespace before and after it. */
  predicate Surrounded(s: string, r: string, i: nat) {
    && OccursAt(s, r, i)
    && (forall k :: 0 <= k < i ==> IsSpace(s[k]))
    && (forall k :: i + |r| <= k < |s| ==> IsSpace(s[k]))
  }

  /** Python `s.strip()`: leading whitespace removed, then trailing whitespace. */
  function Strip(s: string): (r: string)
    ensures |r| > 0 ==> !IsSpace(r[0]) && !IsSpace(r[|r| - 1])
    ensures exists i: nat :: Surrounded(s, r, i)
  {
    var a := Leading(s);
    var t := s[a..];
    var r := t[..|t| - Trailing(t)];
    StripSurrounded(s, a, t, r);
    r
  }

  /** The piece between the leading and the trailing whitespace, seen from `s`. */
  lemma StripSurrounded(s: string, a: nat, t: string, r: string)
    requires a <= |s| && t == s[a..] && |r| <= |t| && r == t[..|r|]
    requires forall k :: 0 <= k < a ==> IsSpace(s[k])
    requires a < |s| ==> !IsSpace(s[a])
    requires forall k :: |r| <= k < |t| ==> IsSpace(t[k])
    requires 0 < |r| ==> !IsSpace(t[|r| - 1])
    ensures Surrounded(s, r, a)
    ensures |r| > 0 ==> !IsSpace(r[0]) && !IsSpace(r[|r| - 1])
  {
    assert s[a..a + |r|] == r;
    forall k | a + |r| <= k < |s|
      ensures IsSpace(s[k])
    {
      assert t[k - a] == s[k];
    }
  }

  /** A string without surrounding whitespace is its own strip. */
  lemma StripNoop(s: string)
    requires |s| > 0 ==> !IsSpace(s[0]) && !IsSpace(s[|s| - 1])
    ensures Strip(s) == s
  {
  }

  /** Python `s.lower()` restricted to ASCII letters. */
  function Lower(s: string): (r: string)
    ensures |r| == |s|
    ensures forall k :: 0 <= k < |s| ==>
      r[k] == if 'A' <= s[k] <= 'Z' then (s[k] as int + 32) as char else s[k]
  {
    if |s| == 0 then ""
    else [if 'A' <= s[0] <= 'Z' then (s[0] as int + 32) as char else s[0]] + Lower(s[1..])
  }

  /** Every character other than `c`, in order (`s.replace(/c/g, '')`). */
  function RemoveChar(s: string, c: char): (r: string)
    ensures c !in r
    ensures |r| == |s| - CountChar(s, c)
  {
    if |s| == 0 then ""
    else if s[0] == c then RemoveChar(s[1..], c)
    else [s[0]] + RemoveChar(s[1..], c)
  }

  lemma {:induction false} RemoveCharAbsent(s: string, c: char)
    requires c !in s
    ensures RemoveChar(s, c) == s
    decreases |s|
  {
    if |s| > 0 {
      assert c !in s[1..];
      RemoveCharAbsent(s[1..], c);
      assert s == [s[0]] + s[1..];
    }
  }

  // ---------------------------------------------------------------------------
  // Decimal numbers

  predicate IsDigit(c: char) {
    '0' <= c <= '9'
  }

  predicate AllDigits(s: string) {
    forall k :: 0 <= k < |s| ==> IsDigit(s[k])
  }

  function DigitChar(d: nat): (c: char)
    requires d < 10
    ensures IsDigit(c)
  {
    (48 + d) as char
  }

  /** The value of a run of decimal digits (most significant first). */
  function DigitsValue(ds: string): nat
    requires AllDigits(ds)
  {
    if |ds| == 0 then 0
    else DigitsValue(ds[..|ds| - 1]) * 10 + (ds[|ds| - 1] as int - 48)
  }

  /** The decimal rendering of `n` (`String(n)` / template interpolation). */
  function NatToString(n: nat): (r: string)
    ensures |r| >= 1 && AllDigits(r)
  {
    if n < 10 then [DigitChar(n)] else NatToString(n / 10) + [DigitChar(n % 10)]
  }

  lemma {:induction false} NatToStringValue(n: nat)
    ensures DigitsValue(NatToString(n)) == n
  {
    var r := NatToString(n);
    if n >= 10 {
      NatToStringValue(n / 10);
      assert r[..|r| - 1] == NatToString(n / 10);
    }
  }

  /**
   * A non-empty run of digits read as a key; anything else is not a
   * number. This is how the database compares a text parameter with an
   * INTEGER column.
   */
  function DecimalKey(s: string): (r: Option<nat>)
    ensures r.None? <==> |s| == 0 || !AllDigits(s)
  {
    if |s| > 0 && AllDigits(s) then Some(DigitsValue(s)) else None
  }

  lemma DecimalKeyNatToString(n: nat)
    ensures DecimalKey(NatToString(n)) == Some(n)
  {
    NatToStringValue(n);
  }

  /** The longest prefix of `s` made of digits. */
  function LeadingDigits(s: string): (r: string)
    ensures AllDigits(r) && StartsWith(s, r)
    ensures |r| < |s| ==> !IsDigit(s[|r|])
  {
    if |s| == 0 || !IsDigit(s[0]) then "" else [s[0]] + LeadingDigits(s[1..])
  }

  lemma {:induction false} LeadingDigitsAll(s: string)
    requires AllDigits(s)
    ensures LeadingDigits(s) == s
    decreases |s|
  {
    if |s| > 0 {
      LeadingDigitsAll(s[1..]);
    }
  }

  /**
   * JavaScript white space and line terminators, which `parseInt` skips: the
   * ASCII ones, no-break space, byte order mark, the other Unicode space
   * separators (category Zs) and the line and paragraph separators.
   */
  predicate IsJsSpace(c: char) {
    || IsSpace(c)
    || c == '\U{00A0}' || c == '\U{1680}'
    || ('\U{2000}' <= c <= '\U{200A}')
    || c == '\U{2028}' || c == '\U{2029}'
    || c == '\U{202F}' || c == '\U{205F}' || c == '\U{3000}'
    || c == '\U{FEFF}'
  }

  function SkipJsSpace(s: string): (r: string)
    ensures |r| <= |s| && r == s[|s| - |r|..]
    ensures |r| > 0 ==> !IsJsSpace(r[0])
  {
    if |s| > 0 && IsJsSpace(s[0]) then SkipJsSpace(s[1..]) else s
  }

  /**
   * JavaScript `parseInt(s, 10)`: leading whitespace is skipped, one optional
   * sign is read, then the longest run of digits; no digits gives NaN (None).
   */
  function ParseInt(s: string): (r: Option<int>)
    ensures r.None? <==>
      var t := SkipJsSpace(s);
      var u := if |t| > 0 && (t[0] == '+' || t[0] == '-') then t[1..] else t;
      |u| == 0 || !IsDigit(u[0])
  {
    var t := SkipJsSpace(s);
    var negative := |t| > 0 && t[0] == '-';
    var u := if |t| > 0 && (t[0] == '+' || t[0] == '-') then t[1..] else t;
    var ds := LeadingDigits(u);
    if |ds| == 0 then None
    else if negative then Some(-(DigitsValue(ds) as int))
    else Some(DigitsValue(ds))
  }

  /** A leading JavaScript space does not change what `parseInt` reads. */
  lemma ParseIntSkipsJsSpace(c: char, s: string)
    requires IsJsSpace(c)
    ensures ParseInt([c] + s) == ParseInt(s)
  {
    assert ([c] + s)[1..] == s;
  }

  /** The ideographic space, for one, is skipped: `parseInt("\u3000" + s)` is `parseInt(s)`. */
  lemma ParseIntSkipsIdeographicSpace(s: string)
    ensures ParseInt(['\U{3000}'] + s) == ParseInt(s)
  {
    ParseIntSkipsJsSpace('\U{3000}', s);
  }

  /** Parsing the rendering of a natural number gives the number back. */
  lemma ParseIntNatToString(n: nat)
    ensures ParseInt(NatToString(n)) == Some(n)
  {
    var s := NatToString(n);
    assert IsDigit(s[0]);
    assert !IsJsSpace(s[0]);
    assert SkipJsSpace(s) == s;
    assert s[0] != '+' && s[0] != '-';
    LeadingDigitsAll(s);
    assert LeadingDigits(s) == s;
    NatToStringValue(n);
  }
}
